=== FILE: README.md ===
# AUTO-LOCK 3.0 in Dafny

AUTO-LOCK 3.0 is a Discord bot for Pokétwo servers. Spawn channels are named by a
number from 0 to 450. When a name bot announces the Pokémon that just spawned in such
a channel, the bot looks that name up in its lock status file. If the lock for that
Pokémon is on, it locks the channel, publicly or privately. It then posts an unlock
button and records the lock.

Around this sit several prefix commands, and all of them page their output behind
buttons:
- `!gls` searches locks across every guild.
- `!ls` searches locks in the current guild.
- `!locklist` lists every lock the bot can see.
- `!locks` lists the current guild's locks, private locks first.
- `!ts` ranks Pokémon by their number of locked channels.
- `!spawn` finds where a Pokémon last spawned uncaught.
- `!help` shows a help menu.

A small utility counts public and private locks.

The model is written as pure functions over immutable data, one module per source
file:

- `Extraction` covers `extractPokemonName` and `normalizeForComparison`, stage by
  stage, with every global regular-expression replace written as a leftmost scan.
  `ExtractionFacts` proves what the extraction gives for the names the bot cares
  about.
- `Trigger` covers the message handler: command parsing, the spawn-channel test, the
  lock decision with its 30-second cooldown, and the unlock button.
- `Router` covers the button dispatcher. The help menu's own buttons reach none of the
  dispatcher's branches. Every list command's page turn is gated on the message's
  author.
- `GlobalSearch`, `LocalSearch`, `LockList`, `GuildLocks`, `Ranking`, `SpawnSearch`
  and `Help` each cover one command: its `execute`, its page or menu handler, and the
  exported refresh function (`updateActiveLists`) where the command has one. Nothing in
  index.js calls `updateActiveLists`.
- `TypeCount` covers `countPokemonByType`.
- `Paging` and `Listing` hold the paging code that every list command repeats.
- `Locks` holds the records. `Text`, `Collections` and `Wrappers` are general
  helpers.

Some inputs cannot be computed from the model, so they are parameters:
- the clock (`now`);
- the lock status file as read from disk;
- the channel cache;
- the fetched message histories;
- the member's permissions and roles;
- whether a permission edit succeeded;
- the locale order of `localeCompare`, which is any total preorder on strings.

## Model

| member | source | states |
|---|---|---|
| Extraction.FirstLine | index.js:159-161 | only the first line of the message is read, trimmed, so the result holds no newline |
| Extraction.NidoranSymbolMatch | index.js:173-174 | the Nidoran-with-symbol pattern matches only text that holds the gender symbol |
| Extraction.StripHashes | index.js:177-180 | a line that does not start with `##` is left alone |
| Extraction.ColonRule | index.js:182-195 | the percentage bot's line is cut before its first colon, except that `Type: Null` keeps its own colon and is cut at the second; a line without colons is kept; the result is a prefix of the line |
| Extraction.TypeNullColons | index.js:184-189 | in a line starting with `type: null:` the first two colons sit at positions 4 and 10 |
| Extraction.DashCut | index.js:198-200 | everything from the first em dash on is dropped, and a line without one is kept |
| Extraction.StripMarkup | index.js:210-226 | after removing markup, no bracket character and no pictograph of the removed ranges is left |
| Extraction.Finish | index.js:235-236 | the result is lower case and single-spaced, with no space at either end |
| Extraction.Clean | index.js:173-236 | the whole cleaning of a line is lower case, single-spaced and trimmed |
| Extraction.ExtractWith | index.js:158-238 | an empty message gives null; any other result is a non-empty, lower-case, single-spaced, trimmed name; the result is null exactly when the message is empty or nothing survives the cleaning |
| Extraction.NormalizeForComparison | index.js:241-247 | the result holds no U+FE0F, is lower case, single-spaced and trimmed, and is empty for an empty name |
| Extraction.NormalizeIdempotent | index.js:241-247 | normalising twice is normalising once |
| ExtractionFacts.FirstLineOnly | index.js:161 | whatever follows the first newline has no effect on the name extracted |
| ExtractionFacts.CleanEmpty | index.js:238 | the cleaning of an empty line is empty, so the extraction answers null |
| ExtractionFacts.ExtractMarker | index.js:173-174 | a one-line message that symbol protection turns into a placeholder yields `nidoran♂` or `nidoran♀` |
| ExtractionFacts.NidoranSymbol | index.js:173-174 | "Nidoran", in any case and spacing, followed by ♂ or ♀ with or without U+FE0F, is extracted as `nidoran♂` or `nidoran♀` from any bot |
| ExtractionFacts.FemaleTagAsWritten | index.js:204-208 | as written, bot 874910942490677270's `(F)` after any word becomes that word followed by ` nidoran♀` |
| ExtractionFacts.AsWrittenDoubles | index.js:204-208 | as written, "Nidoran (F)" from that bot is extracted as `nidoran nidoran♀` |
| ExtractionFacts.CorrectedSingle | index.js:204-208 | with the corrected tag rule, "Nidoran (F)" is extracted as `nidoran♀` |
| ExtractionFacts.NidoranTagCorrected | index.js:204-208 | with the corrected tag rule, that bot's "Nidoran (F)" and "Nidoran (M)", in any case and spacing, are extracted as `nidoran♀` and `nidoran♂` |
| ExtractionFacts.NidoranTagCounterexample | index.js:204-208 | the two rules side by side on "Nidoran (F)": `nidoran nidoran♀` as written, `nidoran♀` corrected |
| Trigger.SplitSpaces | index.js:378 | `split(/ +/)` of a trimmed string gives at least one piece and no piece holds a space; no piece is empty unless the string is |
| Trigger.ParseCommand | index.js:377-379 | a message is a command exactly when it starts with `!`, and the command name is lower case with no space |
| Trigger.ParseJoined | index.js:377-379 | `!` followed by space-separated words parses back to the lower-cased first word and the remaining words |
| Trigger.SpawnChannelNumbers | index.js:408 | a channel named by a decimal numeral is a spawn channel exactly when the number is at most 450 |
| Trigger.FirstKey | index.js:481-489 | the key found is the first one in file order whose normalised form equals the name; none is found exactly when no key matches |
| Trigger.Screen | index.js:377-469 | for a given tag rule, the handler reaches the key lookup exactly when the message is a name bot's, in a spawn channel, not a refusal, and has a name; commands are told apart by the `!` prefix |
| Trigger.Choose | index.js:479-545 | there is no key exactly when no key normalises to the name; a lock happens only for a matched key whose lock is on, when the channel is not cooling down and no warning is shown |
| Trigger.Decide | index.js:374-545 | for a given tag rule (index.js runs `TagAfterAnyName`), the command branch is taken exactly when the message starts with `!`; a lock names the matched key and that key's lock type |
| Trigger.FirstMatchDecides | index.js:481-537 | for either tag rule (index.js runs `TagAfterAnyName`), once a name is announced, the first matching key decides: a lock if its status is on and neither the cooldown nor a warning is in the way, and no lock otherwise |
| Trigger.NoMatchNoLock | index.js:492-499 | for either tag rule, when no key normalises to the announced name, nothing is locked |
| Trigger.NidoranFemaleMissed | index.js:204-208 | "Nidoran (F)" from bot 874910942490677270 against a lone `nidoran♀` key whose lock is on: the rule as written finds no key, the corrected rule locks the channel |
| Trigger.MissedAsWritten | index.js:492-499 | with the rule as written, a one-key file whose key compares unequal to the announced name decides nothing |
| Trigger.FemaleForms | index.js:241-247 | `nidoran♀` is in comparison form and differs from `nidoran nidoran♀` |
| Trigger.NidoranAnnounced | index.js:158-238 | that message passes the screen, as `nidoran nidoran♀` as written and as `nidoran♀` corrected |
| Trigger.Step | index.js:537-545 | for a given tag rule, a lock stamps the cooldown and records the channel with its type and key; any other outcome changes nothing |
| Trigger.CooldownBlocks | index.js:514-522 | a channel locked at `now` is not locked again by any message in it during the next 30 seconds |
| Trigger.CooldownExpires | index.js:516-539 | a stamp 30 seconds old or older has no effect, so the timer that removes it changes no decision |
| Trigger.UnlockTarget | index.js:622-624 | only an `unlock_` id names a channel, and the name it gives holds no `_` |
| Trigger.UnlockTargetOfButton | index.js:557-559 | the unlock button of a channel whose id has no `_` leads back to that channel |
| Trigger.UnlockDecision | index.js:631-661 | a private lock needs ManageChannels; otherwise the spawn role or ManageChannels is enough; the unlock succeeds exactly when neither check refuses and restoring the permissions worked |
| Trigger.Unlock | index.js:655-675 | a successful unlock removes the channel's record; a refused or failed one leaves the record as it was; no other channel's record changes |
| Trigger.LockThenUnlock | index.js:538-545 | locking a channel that was not locked, then unlocking it, leaves the record as it was |
| Router.RouteOf | index.js:618-754 | `unlock_` ids go to the unlock handler; failing that, `bl_` ids go to `lb`; failing both, an id mentioning `_prev_page`, `_next_page` or `_close_list` goes to pagination; any other id goes nowhere |
| Router.PaginationGate | index.js:731-739 | a press without a stored state is dropped; the command's handler runs exactly when the presser is the stored author |
| Router.ListIdsRouted | index.js:726-730 | every `<prefix>_prev_page`, `<prefix>_next_page` and `<prefix>_close_list` id reaches the pagination branch, for a prefix that starts with neither `u` nor `b`, which covers the list commands' own buttons |
| Router.HelpCommandUnrouted | commands/help.js:178 | a help-menu command button, for a key without `_`, reaches no branch of the dispatcher |
| Router.ShortHelpIdUnrouted | commands/help.js:202-221 | ids of at most ten characters starting with `h`, which the help menu's close and back ids are, reach no branch of the dispatcher |
| Router.GateStopsOthers | index.js:734-739 | presses by non-authors are refused at the gate, including a staff member's press on `!gls`, anyone's on `!locks` and `!ls`, and a close on `!gls`, all of which those handlers would accept |
| Paging.PageNonEmpty | commands/ls.js:154-170 | page `p` holds at least one item exactly when `p` is below `ceil(n / perPage)` |
| Paging.ClampPage | commands/ls.js:156-161 | after a rebuild, a page past the end moves to the last page, an empty list puts the page at 0, and a page in range is kept |
| Paging.ClampIdempotent | commands/ls.js:156-161 | clamping a clamped page changes nothing |
| Paging.Window | commands/ls.js:170 | `slice` keeps JavaScript's clamping: at most `len` items, each taken from the right place, and exactly `len` when the list is long enough |
| Paging.PageSlice | commands/ls.js:168-170 | the items shown on a page are the list's items from `page * perPage` on, at most `perPage` of them |
| Paging.PageSliceIsChunkRow | commands/ls.js:168-170 | the slice shown on page `p` is row `p` of the one way to cut the list into full pages and a last page |
| Paging.PagesAreChunking | commands/spawn.js:169-178 | the pages, read in order, give back the list, and every page but the last is full |
| Paging.RowsCheckingFirst | commands/gls.js:63-90 | link buttons built by checking for a full row before each addition are cut into rows of five exactly as `Chunk` cuts them |
| Paging.RowsPushingFull | commands/ls.js:39-65 | link buttons built by pushing a row as soon as it is full are cut exactly the same way |
| Paging.PaginationRow | commands/ls.js:69-109 | prev, page info and next appear only with more than one page; the close button is always last; page info is disabled and reads `Pág <page+1>/<total>` |
| Paging.GuardedStep | commands/ls.js:314-320 | prev moves down only from a page above 0 and next moves up only below the last page; otherwise the press does nothing |
| Paging.DisabledIffNoStep | commands/ls.js:73-100 | on a page in range, a navigation button is disabled exactly when pressing it would do nothing |
| Paging.StepsStayInRange | commands/ls.js:314-320 | a page that starts in range stays in range under any sequence of presses |
| Paging.Apply | commands/ls.js:307-340 | the table of live messages changes only at the pressed message: deleted on close, replaced on save, untouched otherwise |
| Listing.Refit | commands/gls.js:141-157 | the refitted view has `ceil(n / 15)` pages and a page that exists; a page in range is kept and the page never moves up |
| Listing.StepFits | commands/gls.js:344-350 | a guarded prev or next press keeps the view fitting the list |
| Listing.Render | commands/ls.js:150-193 | an empty list shows nothing; otherwise the page's slice is shown with its link buttons cut into rows of five, numbered from `start + 1`, and then the navigation row |
| Listing.PagesCoverList | commands/ls.js:168-170 | pages shown one after the other show every item exactly once and in order |
| Listing.NumberCaption | commands/ls.js:48 | the caption `#n` reads back as the number `n` |
| Listing.MatchedTerm | commands/gls.js:105-115 | a channel is counted under the first term that its lower-cased Pokémon contains, and under none exactly when no term matches |
| Listing.PressOf | commands/ls.js:314-316 | only the exact prev and next ids are page turns |
| Listing.IdOrderIsOrder | commands/gls.js:137 | the default `sort()` order on ids is a total order |
| Listing.FingerprintIffSameIds | commands/gls.js:137-148 | for ids without commas, two id lists have the same `sort().join(',')` exactly when they hold the same ids |
| Locks.TypeLabel | commands/locks.js:105 | a list shows `Privado` exactly for private locks, and `Público` for every other lock |
| Locks.KnownName | commands/locks.js:104 | a missing Pokémon name shows as `Desconocido`; any other name is kept |
| Locks.ByPokemonPreorder | commands/gls.js:128 | ordering lines by Pokémon under a consistent order on names is consistent |
| GlobalSearch.SearchTerms | commands/gls.js:277-279 | each search term is non-empty, trimmed, lower case and free of commas |
| GlobalSearch.SearchTermsOfList | commands/gls.js:277-279 | a comma-separated list of trimmed lower-case names is read back as those names |
| GlobalSearch.ZeroCounts | commands/gls.js:95-97 | the count table starts with every term at 0 |
| GlobalSearch.Collect | commands/gls.js:99-127 | each listed channel is counted once, so the counts add up to the list's length; the counts are keyed by exactly the terms |
| GlobalSearch.CollectSound | commands/gls.js:99-127 | every line listed comes from a cached, guilded locked channel whose Pokémon contains a term |
| GlobalSearch.CollectComplete | commands/gls.js:99-127 | every such locked channel has its line in the list |
| GlobalSearch.Build | commands/gls.js:93-131 | the list holds exactly the lines of the matching channels, sorted by Pokémon; the counts add up to its length; it is empty exactly when no channel matches |
| GlobalSearch.SummaryAddsUp | commands/gls.js:14-18 | with no repeated term, the numbers of the summary add up to the number of channels listed |
| GlobalSearch.Regenerate | commands/gls.js:134-167 | the rebuilt state holds the fresh list and counts, with the page refitted to it |
| GlobalSearch.RegenerateReportsChange | commands/gls.js:137-166 | with comma-free ids, a refresh asks for an edit exactly when the set of listed channels changed or the stored page no longer exists |
| GlobalSearch.Prefix | commands/gls.js:72 | `substring(0, n)` is a prefix of at most `n` characters, and the whole string when it is short enough |
| GlobalSearch.Output | commands/gls.js:170-202 | an empty list shows nothing, and a fitting state shows a page with lines |
| GlobalSearch.Execute | commands/gls.js:272-322 | only staff may run the command; with no terms it answers so; it starts on page 0 exactly when something matched, and otherwise answers that nothing was found |
| GlobalSearch.HandlePress | commands/gls.js:325-376 | anyone may close; only the author or staff may turn a page; a turn moves one page within range and keeps the list |
| GlobalSearch.PressKeepsFit | commands/gls.js:344-362 | a state that fits its list still fits after any press that saves it, and its page is not empty |
| LocalSearch.SearchText | commands/ls.js:266 | the search text is the arguments joined and trimmed |
| LocalSearch.SearchTerms | commands/ls.js:271 | the terms are the text split at commas, each piece trimmed, empty pieces dropped, case kept |
| LocalSearch.SearchTermsOfList | commands/ls.js:271 | a comma-separated list of trimmed names is read back as those names, case and all |
| LocalSearch.LowerTerms | commands/ls.js:121 | each term is compared in lower case |
| LocalSearch.Scan | commands/ls.js:113-146 | each matching channel is listed once, in record order; both count tables add up to the list's length |
| LocalSearch.ScanSound | commands/ls.js:123-143 | every line listed comes from a locked channel of the guild whose lower-cased Pokémon contains a lower-cased term |
| LocalSearch.ScanComplete | commands/ls.js:123-143 | every such locked channel has its line in the list |
| LocalSearch.ScanMembers | commands/ls.js:113-146 | the list holds exactly the lines of the matching channels, and is empty exactly when none matches |
| LocalSearch.SummaryAddsUp | commands/ls.js:31-35 | with the summary keyed by lower-cased terms, and no two terms equal in lower case, its numbers add up to the number of channels listed |
| LocalSearch.SummaryAsWrittenMisses | commands/ls.js:139 | `!ls Pikachu`, with one channel of the guild locked for "Pikachu": the channel is listed, but the summary as written shows 0 |
| LocalSearch.Regenerate | commands/ls.js:150-166 | the rebuilt state holds the fresh list and its counts under the lower-cased Pokémon names (`pokemonCounts`), which add up to the list's length, with the page refitted to it |
| LocalSearch.RegenerateIdempotent | commands/ls.js:150-166 | rebuilding twice from the same record is rebuilding once |
| LocalSearch.Output | commands/ls.js:150-193 | an empty list shows nothing, and a fitting state shows a page with lines |
| LocalSearch.Execute | commands/ls.js:261-297 | staff only; an empty text and a text without terms each get their own answer; it starts on page 0 exactly when something matched |
| LocalSearch.HandlePress | commands/ls.js:301-346 | any user may close, by any id containing the close id, or turn a page within range; a turn rebuilds the list, and an empty one deletes the message |
| LocalSearch.Refresh | commands/ls.js:197-252 | a refresh deletes the message exactly when nothing matches any more, and otherwise saves the rebuilt state |
| LocalSearch.RefreshStable | commands/ls.js:197-252 | refreshing a refreshed state with an unchanged record saves the same state again |
| LockList.LineOf | commands/locklist.js:101-108 | a locked channel has a line exactly when it is cached, with its name, its Pokémon or `Desconocido`, and its type label |
| LockList.Lines | commands/locklist.js:100-111 | exactly one line for each cached locked channel, sorted by Pokémon, and none when no locked channel is cached |
| LockList.UpdatedView | commands/locklist.js:113-125 | with lines left, the page is refitted; with none, the page is kept and the page count stored is 1 |
| LockList.Output | commands/locklist.js:128-163 | an empty list shows nothing, and a fitting state shows a page with lines |
| LockList.Refresh | commands/locklist.js:167-212 | the refresh deletes the message exactly when no locked channel is cached, and otherwise saves the rebuilt, refitted list |
| LockList.Execute | commands/locklist.js:218-275 | administrators only; an empty list gets its own answer; otherwise the list starts on page 0 |
| LockList.HandlePress | commands/locklist.js:277-326 | no state means the list expired; only the author may press; close deletes; a turn within range shows the stored list at the new page |
| LockList.StatesStaySound | commands/locklist.js:277-326 | a stored state keeps fitting its list under every press and every refresh that keeps it |
| GuildLocks.LineOf | commands/locks.js:96-106 | a locked channel has a line exactly when it is cached and belongs to the guild |
| GuildLocks.PrivateFirstPreorder | commands/locks.js:109-113 | putting private locks first keeps a consistent order on Pokémon consistent |
| GuildLocks.Lines | commands/locks.js:89-116 | exactly the guild's cached locked channels, private first and then by Pokémon, and none when no locked channel belongs to the guild |
| GuildLocks.PrivateLocksFirst | commands/locks.js:109-112 | every private lock comes before every public one |
| GuildLocks.SameKindByPokemon | commands/locks.js:109-113 | among locks of the same kind, the list follows the order on Pokémon |
| GuildLocks.Output | commands/locks.js:120-160 | an empty list shows nothing, and a fitting state shows a page with lines |
| GuildLocks.Regenerate | commands/locks.js:120-160 | an empty list deletes the message; otherwise the page is refitted to the rebuilt list and shows lines |
| GuildLocks.Refresh | commands/locks.js:164-227 | one stored message against the current record: it goes once no locked channel of the guild is left; otherwise the stored page is kept while it exists and otherwise moves back, and the author and guild are kept |
| GuildLocks.RefreshStable | commands/locks.js:164-227 | refreshing a refreshed state with an unchanged record saves the same state again |
| GuildLocks.Execute | commands/locks.js:236-272 | administrators only; a guild without locks gets its own answer; otherwise the list starts on page 0 |
| GuildLocks.HandlePress | commands/locks.js:276-328 | anyone may close or turn a page within range; a turn rebuilds the list from the record it is handed, and deletes the message only when that list is empty |
| GuildLocks.TurnShowsPage | commands/locks.js:292-328 | with a record that still holds a locked channel of the guild, a turn within range saves a page that exists |
| GuildLocks.HandlePressAsWired | commands/locks.js:276-314 | as index.js:745-751 calls it, without `lockedChannels`: no press saves, and the message is deleted exactly on close or on a turn within range |
| Ranking.Counts | commands/ts.js:61-64 | each Pokémon is counted by the number of its locked channels: the counts add up to the number of channels, every count is positive, and every Pokémon appears once |
| Ranking.Ranking | commands/ts.js:67 | the ranking is sorted by count, highest first, and is a permutation of the counts; it is empty exactly when nothing is locked (tie order: `Ranking.RankingTies`) |
| Ranking.RankingTies | commands/ts.js:61-67 | entries with equal counts come out in the order they have in the counts, as the stable sort keeps them |
| Collections.SortStable | commands/ts.js:67 | the sort is stable: the elements tied with any value come out in their input order |
| Ranking.RankingEntries | commands/ts.js:61-67 | each ranked Pokémon is a locked one with its true number of channels, and every locked Pokémon is ranked |
| Ranking.RankEmoji | commands/ts.js:91-95 | the plain diamond is used exactly for positions past 10, and the star for positions 4 to 10 |
| Ranking.FormatName | commands/ts.js:220-224 | the name is capitalised word by word and keeps its words |
| Ranking.FormatNameIdempotent | commands/ts.js:220-224 | formatting a formatted name changes nothing |
| Ranking.PageFields | commands/ts.js:87-102 | one field for each entry of the page, with its overall position, emoji, formatted name and count |
| Ranking.MedalsOnFirstPage | commands/ts.js:87-95 | the crown and medals go to the first entries of the first page only |
| Ranking.Execute | commands/ts.js:59-126 | an empty record gets its own answer; otherwise the board starts on page 0 with at least one page |
| Ranking.Output | commands/ts.js:86-106 | the navigation row of the page, and fields for a page in range |
| Ranking.Requested | commands/ts.js:172-179 | prev asks for the page before, clamped at 0, and next for the page after, clamped at the last |
| Ranking.HandlePress | commands/ts.js:143-186 | no state means expired; only the author may press; close deletes; a turn that changes the page saves it |
| Ranking.ClampedMatchesGuarded | commands/ts.js:172-182 | the clamp-then-compare of the command behaves as the guarded step of the other lists |
| Ranking.PressesKeepPageShown | commands/ts.js:172-186 | every saved page is in range and shows fields |
| SpawnSearch.ShortGuildName | commands/spawn.js:26 | a guild name longer than 20 characters is cut to 17 and followed by `...` |
| SpawnSearch.ScanList | commands/spawn.js:29-34 | exactly the unlocked text spawn channels are scanned, in numeric order |
| SpawnSearch.LatestSpawn | commands/spawn.js:70-89 | the latest Pokétwo spawn time in the history, or 0 when there is none |
| SpawnSearch.ChannelHit | commands/spawn.js:91-136 | for the tag rule the command is given (index.js's is `TagAfterAnyName`), a channel with a capture gives nothing; otherwise the hit is the first name-bot post for the Pokémon that is not older than the latest spawn |
| SpawnSearch.Survey | commands/spawn.js:70-108 | the first pass finds a capture exactly when there is one, and otherwise the latest spawn time |
| SpawnSearch.FirstMatch | commands/spawn.js:111-136 | for either tag rule, the second pass finds the first qualifying post, or none exactly when no post qualifies |
| SpawnSearch.ScanChannel | commands/spawn.js:55-136 | for either tag rule, the two passes give the channel's hit |
| SpawnSearch.Results | commands/spawn.js:138-164 | for either tag rule, at most one hit per scanned channel |
| SpawnSearch.NewestOrder | commands/spawn.js:174 | the hits are sorted newest first and are a permutation of the results |
| SpawnSearch.PagesByIndex | commands/spawn.js:173-178 | the hits are cut into pages of five exactly as `Chunk` cuts them |
| SpawnSearch.ScanAll | commands/spawn.js:50-166 | for either tag rule, the channel loop collects exactly the results |
| SpawnSearch.Execute | commands/spawn.js:17-206 | a missing dependency, no query, no channel to scan and no hit each get their own answer; otherwise the pages of the newest-first hits, stored for paging exactly when there is more than one page |
| SpawnSearch.HandlePress | commands/spawn.js:208-239 | any id containing `_close_list` deletes; a turn is saved only when the new page exists; otherwise nothing happens |
| Help.CatalogueKeysDistinct | commands/help.js:19-83 | no command is described twice |
| Help.Entry | commands/help.js:145-147 | a command's entry is found exactly when its key is in the catalogue |
| Help.Find | commands/help.js:241-256 | a query is found exactly when it is some command's key or alias, and the answer is a key of the catalogue |
| Help.CatalogueLookup | commands/help.js:19-83 | no command of the catalogue has an alias, so a lookup is by key alone |
| Help.CommandEmbed | commands/help.js:145-163 | an unknown key has no embed; a known one is titled `Ayuda para: !<key>` and has three or four fields, description first |
| Help.MenuRows | commands/help.js:175-210 | the command buttons, cut into rows of three, then the close row last |
| Help.Execute | commands/help.js:236-276 | no argument opens the menu; an unknown command is reported as typed; a known one shows its embed |
| Help.PressedCommand | commands/help.js:322-324 | only `help_cmd_` ids name a command, and the name is what follows the prefix |
| Help.HandleInteraction | commands/help.js:285-340 | no state means the session expired; only the author may press; close, back and the command buttons each do their own thing |
| Help.MenuButtonsOpenDetails | commands/help.js:322-336 | each command button of the menu opens that command's details |
| Help.BackAfterDetail | commands/help.js:312-319 | back after a command's details returns to the menu |
| TypeCount.CountsBounded | utils/count_pokemon.js:10-18 | no entry is counted twice: the two counts together are at most the number of entries |
| TypeCount.UncountedEntry | utils/count_pokemon.js:12-16 | an unlocked entry, or one of another type, changes no count |
| TypeCount.PublicEntry | utils/count_pokemon.js:13-14 | a locked public entry adds one to the public count only |
| TypeCount.PrivateEntry | utils/count_pokemon.js:15-16 | a locked private entry adds one to the private count only |
| TypeCount.AsWrittenMissesLocks | utils/count_pokemon.js:4 | as written, a file with one locked public channel is reported as holding none |
| TypeCount.CountByType | utils/count_pokemon.js:2-25 | an unreadable file gives zero counts; a readable one gives the tally of its entries |

## Left out

- Discord I/O is not modelled. That covers sending, editing and deleting messages, fetching channels and members, permission overwrites, embeds' colours and footers, and log channels. Only what a reply or state holds is modelled.
- File reading and writing (`fs`, JSON parsing) is left out. The lock status file and the locked-channel record are inputs; an unreadable file is `None`.
- The clock and the timers are parameters. The spawn-wait state of index.js:419-426 is left out: its value changes no decision, because `shouldTry` at index.js:438 is always true, and otherwise the state is only logged and deleted.
- Upper- and lower-casing is modelled for ASCII letters only. JavaScript's `toLowerCase` covers all of Unicode.
- Strings are sequences of characters, while JavaScript counts UTF-16 code units. This matters for `substring(0, 80)` and the 20-character guild name on names outside the BMP.
- `localeCompare` is an arbitrary total preorder given as a parameter, not the locale's collation.
- The command registry and the `lb` command's handler are not part of this model. `Router.RouteOf` only says which ids reach `lb`.
- `generatePaginationButtons` in index.js is a stub that `!spawn` calls for its buttons. The button ids `!spawn` expects are taken as given.
- The progress bars, colours and other embed text are not modelled beyond the fields named in the table.
- SpawnSearch.Execute: index.js passes none of `extractPokemonName`, `normalizeForComparison` and `NAME_BOT_IDS` to the commands. As wired, `!spawn` therefore always answers with the configuration error. The model takes them as given and has a `configured` flag for the wired case.
- The exported `updateActiveLists` functions are modelled one message at a time (`Refresh`). The iteration over all live messages and the error codes of failed edits are left out.
- GuildLocks.Execute: a channel whose guild is missing from the cache would throw in `locks.js`. It is modelled as a channel that is skipped.
- LocalSearch.Scan: likewise, `channel.guild.id` at commands/ls.js:129 throws for a cached channel without a guild, where the model skips the channel. Every recorded channel is a numbered spawn channel that the message handler locked (index.js:406, 544), so such a channel is not expected in the record.
- LockList.Output: the link buttons use the guild of the command, as the source does, even for channels of other guilds.
- Ranking.HandlePress: it requires a stored board to have at least one page. Every board the command stores has one.
- Help.Entry, Help.CommandEmbed, Help.HandleInteraction: `COMMANDS_INFO[commandKey]` (commands/help.js:146) also finds the properties every JavaScript object inherits, such as `constructor`, `toString` or `__proto__`. For a `help_cmd_constructor` press the source therefore gets a truthy entry without `examples`, throws at commands/help.js:155 and answers "❌ Error procesando interacción." (commands/help.js:340-344). The model finds only the catalogue's own keys: `Entry` and `CommandEmbed` give `None` and `HandleInteraction` answers `UnknownCommand` ("❌ Comando no encontrado."). No menu button carries such an id, and index.js routes no help id (`Router.HelpCommandUnrouted`). `Help.Find` is exact: `COMMANDS_KEYS` comes from `Object.keys`, which lists only own keys.
- Router.ShortHelpIdUnrouted: states the property for every short `h…` id. The literal close and back ids are covered by `Router.HelpFixedIdsShort`, rather than by a lemma on the two literals.

## Findings

| source | as written | input that shows it | evidently intended | confidence | as-written member | corrected member |
|---|---|---|---|---|---|---|
| index.js:204-208 | for bot 874910942490677270 every `(F)`/`(M)` becomes a space and a Nidoran placeholder, even right after the word Nidoran | "Nidoran (F)" from that bot is extracted as `nidoran nidoran♀`, which matches no lock key | only `Nidoran (F)`/`Nidoran (M)` becomes `nidoran♀`/`nidoran♂` | not executed | Trigger.NidoranFemaleMissed | ExtractionFacts.NidoranTagCorrected |
| commands/ls.js:139 | the summary looks up each term as typed, in a table keyed by lower-cased Pokémon names (commands/ls.js:33) | `!ls Pikachu` with one channel locked for "Pikachu" lists the channel but shows `Pikachu: 0` | each term shows the channels it matched | not executed | LocalSearch.SummaryAsWrittenMisses | LocalSearch.SummaryAddsUp |
| utils/count_pokemon.js:4 | the file is read through `fs` and `lockStatusPath`, neither of which the file defines, so the catch always answers zero | a status file with one locked public channel gives `{public: 0, private: 0}` | the counts of the file's locked entries by type | not executed | TypeCount.AsWrittenMissesLocks | TypeCount.CountByType |
| index.js:745-751 | page buttons call `handlePagination` with only `paginationStates` and `generatePaginationButtons`, so `!locks` rebuilds its list from an undefined record, which gives no lines (commands/locks.js:89-93) | a guild with sixteen locked channels: `!locks` shows page 1 of 2, and pressing the next button deletes the message | a turn shows the next page of the guild's locked channels | not executed | GuildLocks.HandlePressAsWired | GuildLocks.TurnShowsPage |

=== FILE: collections.dfy ===
/**
 * Sequence and map utilities shared by the list commands: cutting a sequence
 * into fixed-width rows, count tables and their sum, and the sort the commands
 * apply before paging (`Array.prototype.sort` with a consistent comparator).
 */
module Collections {
  import opened Wrappers

  // ---------------------------------------------------------------------------
  // Rows of a fixed width
  // ---------------------------------------------------------------------------

  function Flatten<T>(rows: seq<seq<T>>): seq<T>
    decreases |rows|
  {
    if |rows| == 0 then [] else rows[0] + Flatten(rows[1..])
  }

  /**
   * `rows` cuts `s` into rows of `width`: read in order they give back `s`, no
   * row is empty or wider than `width`, and every row but the last is full.
   */
  ghost predicate IsChunking<T>(rows: seq<seq<T>>, s: seq<T>, width: nat) {
    && Flatten(rows) == s
    && (forall k :: 0 <= k < |rows| ==> 0 < |rows[k]| <= width)
    && (forall k :: 0 <= k < |rows| - 1 ==> |rows[k]| == width)
  }

  lemma {:induction false} FlattenAppend<T>(rows: seq<seq<T>>, row: seq<T>)
    ensures Flatten(rows + [row]) == Flatten(rows) + row
    decreases |rows|
  {
    if |rows| == 0 {
      assert rows + [row] == [row];
    } else {
      assert (rows + [row])[1..] == rows[1..] + [row];
      FlattenAppend(rows[1..], row);
    }
  }

  /** A chunking is empty exactly when the sequence is. */
  lemma ChunkingEmpty<T>(rows: seq<seq<T>>, s: seq<T>, width: nat)
    requires IsChunking(rows, s, width)
    ensures |rows| == 0 <==> |s| == 0
  {
    if |rows| > 0 {
      assert Flatten(rows) == rows[0] + Flatten(rows[1..]);
    }
  }

  /** The first row of a chunking is as long as it can be, and the rest chunks the remainder. */
  lemma ChunkingHead<T>(rows: seq<seq<T>>, s: seq<T>, width: nat)
    requires IsChunking(rows, s, width) && |rows| > 0
    ensures |rows[0]| == (if |s| <= width then |s| else width)
    ensures rows[0] == s[..|rows[0]|]
    ensures IsChunking(rows[1..], s[|rows[0]|..], width)
  {
    assert Flatten(rows) == rows[0] + Flatten(rows[1..]);
    if |rows| > 1 {
      assert Flatten(rows[1..]) == rows[1] + Flatten(rows[2..]);
    } else {
      assert Flatten(rows[1..]) == [];
    }
  }

  /** There is only one way to cut a sequence into rows of a given width. */
  lemma {:induction false} ChunkingUnique<T>(a: seq<seq<T>>, b: seq<seq<T>>, s: seq<T>, width: nat)
    requires IsChunking(a, s, width) && IsChunking(b, s, width)
    ensures a == b
    decreases |s|
  {
    ChunkingEmpty(a, s, width);
    ChunkingEmpty(b, s, width);
    if |s| > 0 {
      ChunkingHead(a, s, width);
      ChunkingHead(b, s, width);
      ChunkingUnique(a[1..], b[1..], s[|a[0]|..], width);
      assert a == [a[0]] + a[1..] && b == [b[0]] + b[1..];
    }
  }

  /** Cut `s` into rows of `width`, as a reference definition. */
  function Chunk<T>(s: seq<T>, width: nat): (rows: seq<seq<T>>)
    requires width > 0
    ensures IsChunking(rows, s, width)
    decreases |s|
  {
    if |s| == 0 then []
    else if |s| <= width then
      assert Flatten([s]) == s + Flatten([s][1..]);
      [s]
    else
      var rest := Chunk(s[width..], width);
      assert Flatten([s[..width]] + rest) == s[..width] + Flatten(rest) by {
        assert ([s[..width]] + rest)[1..] == rest;
      }
      assert s == s[..width] + s[width..];
      [s[..width]] + rest
  }

  /** `Math.ceil(n / d)`: the least `q` with `q * d >= n`. */
  function CeilDiv(n: nat, d: nat): (q: nat)
    requires d > 0
    ensures q * d >= n
    ensures n > 0 ==> (q - 1) * d < n
    ensures q == 0 <==> n == 0
    decreases n
  {
    if n == 0 then 0
    else if n <= d then 1
    else 1 + CeilDiv(n - d, d)
  }

  /** Cutting into rows of `width` gives `ceil(|s| / width)` rows. */
  lemma {:induction false} ChunkCount<T>(s: seq<T>, width: nat)
    requires width > 0
    ensures |Chunk(s, width)| == CeilDiv(|s|, width)
    decreases |s|
  {
    if |s| > width {
      ChunkCount(s[width..], width);
    }
  }

  // ---------------------------------------------------------------------------
  // Count tables: JavaScript objects used as counters, keys in insertion order
  // ---------------------------------------------------------------------------

  type Table<K> = seq<(K, nat)>

  /** The keys present in a table. */
  function KeySet<K>(t: Table<K>): set<K>
    decreases |t|
  {
    if |t| == 0 then {} else {t[0].0} + KeySet(t[1..])
  }

  /** Every key occurs once, as in an object. */
  predicate DistinctKeys<K(==)>(t: Table<K>)
    decreases |t|
  {
    |t| == 0 || (t[0].0 !in KeySet(t[1..]) && DistinctKeys(t[1..]))
  }

  /** `counts[k] || 0`. */
  function Get<K(==)>(t: Table<K>, k: K): (v: nat)
    ensures v > 0 ==> k in KeySet(t)
    decreases |t|
  {
    if |t| == 0 then 0
    else if t[0].0 == k then t[0].1
    else Get(t[1..], k)
  }

  /** `counts[k] = v`: overwrite in place, or add the key at the end. */
  function Set<K(==)>(t: Table<K>, k: K, v: nat): (r: Table<K>)
    ensures Get(r, k) == v
    ensures KeySet(r) == KeySet(t) + {k}
    ensures DistinctKeys(t) ==> DistinctKeys(r)
    ensures k in KeySet(t) ==> |r| == |t|
    decreases |t|
  {
    if |t| == 0 then [(k, v)]
    else if t[0].0 == k then
      assert ([(k, v)] + t[1..])[1..] == t[1..];
      [(k, v)] + t[1..]
    else
      var rest := Set(t[1..], k, v);
      assert ([t[0]] + rest)[1..] == rest;
      [t[0]] + rest
  }

  /** Setting `k` leaves every other count as it was. */
  lemma {:induction false} GetSetOther<K>(t: Table<K>, k: K, v: nat, j: K)
    requires j != k
    ensures Get(Set(t, k, v), j) == Get(t, j)
    decreases |t|
  {
    if |t| > 0 && t[0].0 != k {
      GetSetOther(t[1..], k, v, j);
      assert ([t[0]] + Set(t[1..], k, v))[1..] == Set(t[1..], k, v);
    } else if |t| > 0 {
      assert ([(k, v)] + t[1..])[1..] == t[1..];
    }
  }

  /** Setting `k` leaves every other count as it was, for all other keys at once. */
  lemma SetOthers<K>(t: Table<K>, k: K, v: nat)
    ensures forall j :: j != k ==> Get(Set(t, k, v), j) == Get(t, j)
  {
    forall j | j != k ensures Get(Set(t, k, v), j) == Get(t, j) {
      GetSetOther(t, k, v, j);
    }
  }

  /** `r` is `t` with one more under `k`, every other count kept. */
  ghost predicate Bumped<K(!new)>(t: Table<K>, k: K, r: Table<K>) {
    && Get(r, k) == Get(t, k) + 1
    && (forall j :: j != k ==> Get(r, j) == Get(t, j))
    && KeySet(r) == KeySet(t) + {k}
    && (DistinctKeys(t) ==> DistinctKeys(r))
    && Sum(r) == Sum(t) + 1
  }

  /** `counts[k] = (counts[k] || 0) + 1` bumps the table. */
  lemma SetBumps<K(!new)>(t: Table<K>, k: K)
    ensures Bumped(t, k, Set(t, k, Get(t, k) + 1))
  {
    var v := Get(t, k) + 1;
    SumSet(t, k, v);
    SetOthers(t, k, v);
  }

  /** Every count of the table is positive. */
  ghost predicate Positive<K>(t: Table<K>) {
    forall i :: 0 <= i < |t| ==> t[i].1 > 0
  }

  /** Setting a positive count keeps every count of the table positive. */
  lemma {:induction false} SetPositive<K>(t: Table<K>, k: K, v: nat)
    requires v > 0 && Positive(t)
    ensures Positive(Set(t, k, v))
    decreases |t|
  {
    if |t| > 0 && t[0].0 != k {
      SetPositive(t[1..], k, v);
      assert Set(t, k, v) == [t[0]] + Set(t[1..], k, v);
    }
  }

  /** The sum of all counts. */
  function Sum<K>(t: Table<K>): nat
    decreases |t|
  {
    if |t| == 0 then 0 else t[0].1 + Sum(t[1..])
  }

  /** Overwriting one count changes the sum by the difference. */
  lemma {:induction false} SumSet<K>(t: Table<K>, k: K, v: nat)
    ensures Sum(Set(t, k, v)) + Get(t, k) == Sum(t) + v
    decreases |t|
  {
    if |t| > 0 && t[0].0 != k {
      SumSet(t[1..], k, v);
      assert ([t[0]] + Set(t[1..], k, v))[1..] == Set(t[1..], k, v);
    } else if |t| > 0 {
      assert ([(k, v)] + t[1..])[1..] == t[1..];
    }
  }

  /** `counts[k] = (counts[k] || 0) + 1` adds one to the sum. */
  lemma SumBump<K>(t: Table<K>, k: K)
    ensures Sum(Set(t, k, Get(t, k) + 1)) == Sum(t) + 1
  {
    SumSet(t, k, Get(t, k) + 1);
  }

  /** A table with distinct keys whose every count is 0 sums to 0. */
  lemma {:induction false} SumZero<K>(t: Table<K>)
    requires DistinctKeys(t)
    requires forall k :: Get(t, k) == 0
    ensures Sum(t) == 0
    decreases |t|
  {
    if |t| > 0 {
      assert Get(t, t[0].0) == t[0].1;
      forall k ensures Get(t[1..], k) == 0 {
        if k != t[0].0 {
          assert Get(t, k) == Get(t[1..], k);
        } else {
          GetMissing(t[1..], k);
        }
      }
      SumZero(t[1..]);
    }
  }

  /** A key that is not present reads as 0. */
  lemma GetMissing<K>(t: Table<K>, k: K)
    requires k !in KeySet(t)
    ensures Get(t, k) == 0
  {
  }

  /** `names.map(name => counts[name] || 0)`. */
  function Lookups<K(==)>(keys: seq<K>, counts: Table<K>): (r: seq<nat>)
    ensures |r| == |keys|
    ensures forall i :: 0 <= i < |keys| ==> r[i] == Get(counts, keys[i])
  {
    seq(|keys|, i requires 0 <= i < |keys| => Get(counts, keys[i]))
  }

  /** The sum of a list of counts. */
  function Total(ns: seq<nat>): nat
    decreases |ns|
  {
    if |ns| == 0 then 0 else ns[0] + Total(ns[1..])
  }

  /** No element occurs twice. */
  predicate Distinct<T(==)>(s: seq<T>) {
    forall i, j :: 0 <= i < j < |s| ==> s[i] != s[j]
  }

  /**
   * Looking up distinct keys that cover every non-zero count gives back the
   * whole sum: each count is read exactly once.
   */
  lemma {:induction false} LookupsTotal<K>(keys: seq<K>, counts: Table<K>)
    requires Distinct(keys)
    requires DistinctKeys(counts)
    requires forall k :: Get(counts, k) > 0 ==> k in keys
    ensures Total(Lookups(keys, counts)) == Sum(counts)
    decreases |keys|
  {
    if |keys| == 0 {
      SumZero(counts);
    } else {
      var k0 := keys[0];
      var rest := Set(counts, k0, 0);
      SumSet(counts, k0, 0);
      forall k | Get(rest, k) > 0 ensures k in keys[1..] {
        GetSetOther(counts, k0, 0, k);
        assert k in keys;
        var i :| 0 <= i < |keys| && keys[i] == k;
        assert keys[1..][i - 1] == k;
      }
      LookupsTotal(keys[1..], rest);
      var a := Lookups(keys, counts);
      var b := Lookups(keys[1..], rest);
      assert a[1..] == b by {
        forall i | 0 <= i < |b| ensures a[1..][i] == b[i] {
          assert keys[1..][i] == keys[i + 1] && keys[i + 1] != k0;
          GetSetOther(counts, k0, 0, keys[i + 1]);
        }
      }
    }
  }

  /** `s.map(f).filter(x => x !== null)`, with `None` standing for `null`. */
  function FilterMap<T, U>(s: seq<T>, f: T -> Option<U>): (r: seq<U>)
    ensures |r| <= |s|
    decreases |s|
  {
    if |s| == 0 then []
    else
      match f(s[0])
      case Some(x) => [x] + FilterMap(s[1..], f)
      case None => FilterMap(s[1..], f)
  }

  /** Mapping one more element appends its value, if it has one. */
  lemma {:induction false} FilterMapSnoc<T, U>(s: seq<T>, x: T, f: T -> Option<U>)
    ensures FilterMap(s + [x], f) == FilterMap(s, f) + (if f(x).Some? then [f(x).value] else [])
    decreases |s|
  {
    if |s| == 0 {
      assert (s + [x])[1..] == [];
    } else {
      assert (s + [x])[1..] == s[1..] + [x];
      FilterMapSnoc(s[1..], x, f);
    }
  }

  /** Some element of `s` is mapped to `x`. */
  ghost predicate Produces<T, U>(s: seq<T>, f: T -> Option<U>, x: U) {
    exists j :: 0 <= j < |s| && f(s[j]) == Some(x)
  }

  /** The kept values are exactly the values some element is mapped to. */
  lemma {:induction false} FilterMapMembers<T, U>(s: seq<T>, f: T -> Option<U>)
    ensures forall x :: x in FilterMap(s, f) <==> Produces(s, f, x)
    decreases |s|
  {
    if |s| > 0 {
      FilterMapMembers(s[1..], f);
      forall x ensures x in FilterMap(s, f) <==> Produces(s, f, x) {
        if Produces(s[1..], f, x) {
          var j :| 0 <= j < |s[1..]| && f(s[1..][j]) == Some(x);
          assert s[j + 1] == s[1..][j];
        }
        if Produces(s, f, x) {
          var j :| 0 <= j < |s| && f(s[j]) == Some(x);
          if j > 0 {
            assert s[1..][j - 1] == s[j];
          }
        }
      }
    }
  }

  /** Nothing is kept exactly when every element is dropped. */
  lemma FilterMapEmpty<T, U>(s: seq<T>, f: T -> Option<U>)
    ensures |FilterMap(s, f)| == 0 <==> forall j :: 0 <= j < |s| ==> f(s[j]).None?
  {
    FilterMapMembers(s, f);
    if |FilterMap(s, f)| > 0 {
      assert FilterMap(s, f)[0] in FilterMap(s, f);
    }
  }

  // ---------------------------------------------------------------------------
  // Sorting with a consistent comparator
  // ---------------------------------------------------------------------------

  /** `le(a, b)`: `a` may come before `b`. A comparator is consistent when this is a total preorder. */
  ghost predicate TotalPreorder<T(!new)>(le: (T, T) -> bool) {
    && (forall a, b :: le(a, b) || le(b, a))
    && (forall a, b, c :: le(a, b) && le(b, c) ==> le(a, c))
  }

  ghost predicate SortedBy<T>(s: seq<T>, le: (T, T) -> bool) {
    forall i, j :: 0 <= i < j < |s| ==> le(s[i], s[j])
  }

  /** Put `x` in front of the first element it may precede. */
  function Insert<T(!new)>(x: T, s: seq<T>, le: (T, T) -> bool): (r: seq<T>)
    requires TotalPreorder(le)
    requires SortedBy(s, le)
    ensures multiset(r) == multiset(s) + multiset{x}
    ensures SortedBy(r, le)
    decreases |s|
  {
    if |s| == 0 then [x]
    else if le(x, s[0]) then
      SortedCons(x, s, le);
      [x] + s
    else
      assert s == [s[0]] + s[1..];
      SortedTail(s, le);
      var t := Insert(x, s[1..], le);
      HeadPrecedes(s, x, t, le);
      SortedCons(s[0], t, le);
      [s[0]] + t
  }

  /** The tail of a sorted sequence is sorted. */
  lemma SortedTail<T>(s: seq<T>, le: (T, T) -> bool)
    requires |s| > 0 && SortedBy(s, le)
    ensures SortedBy(s[1..], le)
  {
    forall i, j | 0 <= i < j < |s| - 1
      ensures le(s[1..][i], s[1..][j])
    {
      assert s[1..][i] == s[i + 1] && s[1..][j] == s[j + 1];
    }
  }

  /** An element that may precede every element of a sorted sequence may lead it. */
  lemma SortedCons<T(!new)>(h: T, t: seq<T>, le: (T, T) -> bool)
    requires SortedBy(t, le)
    requires |t| > 0 ==> le(h, t[0])
    requires TotalPreorder(le)
    ensures SortedBy([h] + t, le)
  {
    var r := [h] + t;
    forall i, j | 0 <= i < j < |r|
      ensures le(r[i], r[j])
    {
      if i == 0 && j > 1 {
        assert le(t[0], t[j - 1]);
      }
    }
  }

  /**
   * The head of a sorted sequence may precede `x` and everything after it, so
   * also the first element of the tail with `x` put in.
   */
  lemma HeadPrecedes<T>(s: seq<T>, x: T, t: seq<T>, le: (T, T) -> bool)
    requires |s| > 0 && SortedBy(s, le) && le(s[0], x)
    requires multiset(t) == multiset(s[1..]) + multiset{x} && |t| > 0
    ensures le(s[0], t[0])
  {
    assert t[0] in multiset(t);
    if t[0] != x {
      assert t[0] in s[1..];
      var i :| 0 <= i < |s[1..]| && s[1..][i] == t[0];
      assert s[i + 1] == t[0];
    }
  }

  /** A stable sort (`SortStable`): the result is a sorted rearrangement of `s`. */
  function Sort<T(!new)>(s: seq<T>, le: (T, T) -> bool): (r: seq<T>)
    requires TotalPreorder(le)
    ensures multiset(r) == multiset(s)
    ensures |r| == |s|
    ensures SortedBy(r, le)
    decreases |s|
  {
    if |s| == 0 then []
    else
      assert s == [s[0]] + s[1..];
      var r := Insert(s[0], Sort(s[1..], le), le);
      assert |r| == |multiset(r)|;
      r
  }

  /** Rearrangements of each other have the same members. */
  lemma SameMembers<T>(a: seq<T>, b: seq<T>)
    requires multiset(a) == multiset(b)
    ensures forall x :: x in a <==> x in b
  {
    forall x ensures x in a <==> x in b {
      assert x in a <==> x in multiset(a);
      assert x in b <==> x in multiset(b);
    }
  }

  /** `a` and `b` compare equal: each may precede the other. */
  ghost predicate Tied<T>(le: (T, T) -> bool, a: T, b: T) {
    le(a, b) && le(b, a)
  }

  /** The elements of `s` that compare equal to `x`, in the order of `s`. */
  ghost function TiedWith<T>(s: seq<T>, le: (T, T) -> bool, x: T): seq<T>
    decreases |s|
  {
    if |s| == 0 then []
    else (if Tied(le, s[0], x) then [s[0]] else []) + TiedWith(s[1..], le, x)
  }

  /** The tied elements of a sequence with a head in front. */
  lemma TiedWithCons<T>(h: T, t: seq<T>, le: (T, T) -> bool, x: T)
    ensures TiedWith([h] + t, le, x) == (if Tied(le, h, x) then [h] else []) + TiedWith(t, le, x)
  {
    assert ([h] + t)[1..] == t;
  }

  /** Putting `y` into a sorted sequence puts it before every element tied with it. */
  lemma {:induction false} InsertTied<T(!new)>(y: T, s: seq<T>, le: (T, T) -> bool, x: T)
    requires TotalPreorder(le) && SortedBy(s, le)
    ensures TiedWith(Insert(y, s, le), le, x)
      == (if Tied(le, y, x) then [y] else []) + TiedWith(s, le, x)
    decreases |s|
  {
    if |s| == 0 {
      TiedWithCons(y, s, le, x);
    } else if le(y, s[0]) {
      TiedWithCons(y, s, le, x);
    } else {
      SortedTail(s, le);
      var t := Insert(y, s[1..], le);
      InsertTied(y, s[1..], le, x);
      PassTied(y, s[0], t, s[1..], le, x);
      assert Insert(y, s, le) == [s[0]] + t;
    }
  }

  /**
   * An element `y` may not precede goes in front without changing the order of
   * the tied elements.
   */
  lemma PassTied<T(!new)>(y: T, z: T, t: seq<T>, rest: seq<T>, le: (T, T) -> bool, x: T)
    requires TotalPreorder(le) && !le(y, z)
    requires TiedWith(t, le, x) == (if Tied(le, y, x) then [y] else []) + TiedWith(rest, le, x)
    ensures TiedWith([z] + t, le, x) == (if Tied(le, y, x) then [y] else []) + TiedWith([z] + rest, le, x)
  {
    var ty := if Tied(le, y, x) then [y] else [];
    var tz := if Tied(le, z, x) then [z] else [];
    var r := TiedWith(rest, le, x);
    TiedWithCons(z, t, le, x);
    TiedWithCons(z, rest, le, x);
    OneTied(y, z, le, x);
    SwapOneEmpty(ty, tz, r);
  }

  /** Two sequences of which one is empty may trade places in front of a third. */
  lemma SwapOneEmpty<T>(a: seq<T>, b: seq<T>, c: seq<T>)
    requires a == [] || b == []
    ensures b + (a + c) == a + (b + c)
  {
    if a == [] {
      assert a + c == c && a + (b + c) == b + c;
    } else {
      assert b + (a + c) == a + c && b + c == c;
    }
  }

  /** Of `y` and an element `y` may not precede, at most one is tied with `x`. */
  lemma OneTied<T(!new)>(y: T, z: T, le: (T, T) -> bool, x: T)
    requires TotalPreorder(le) && !le(y, z)
    ensures !(Tied(le, y, x) && Tied(le, z, x))
  {
    if Tied(le, y, x) && Tied(le, z, x) {
      assert false;
    }
  }

  /** Sorting keeps every group of tied elements in its original order. */
  lemma {:induction false} SortStable<T(!new)>(s: seq<T>, le: (T, T) -> bool, x: T)
    requires TotalPreorder(le)
    ensures TiedWith(Sort(s, le), le, x) == TiedWith(s, le, x)
    decreases |s|
  {
    if |s| > 0 {
      SortStable(s[1..], le, x);
      InsertTied(s[0], Sort(s[1..], le), le, x);
    }
  }

  /** No two different elements are ordered both ways. */
  ghost predicate Antisymmetric<T(!new)>(le: (T, T) -> bool) {
    forall a, b :: le(a, b) && le(b, a) ==> a == b
  }

  /** The first element of a sorted sequence may precede every element of it. */
  lemma SortedHeadFirst<T>(s: seq<T>, le: (T, T) -> bool, x: T)
    requires |s| > 0 && SortedBy(s, le) && x in s
    requires le(s[0], s[0])
    ensures le(s[0], x)
  {
    var j :| 0 <= j < |s| && s[j] == x;
    if j > 0 {
      assert le(s[0], s[j]);
    }
  }

  /** Two sorted sequences with the same elements start with the same element. */
  lemma SortedSameHead<T(!new)>(a: seq<T>, b: seq<T>, le: (T, T) -> bool)
    requires TotalPreorder(le) && Antisymmetric(le)
    requires |a| > 0 && |b| > 0 && SortedBy(a, le) && SortedBy(b, le) && multiset(a) == multiset(b)
    ensures a[0] == b[0]
  {
    assert a[0] in multiset(b) && b[0] in multiset(a);
    assert le(a[0], a[0]) && le(b[0], b[0]);
    SortedHeadFirst(b, le, a[0]);
    SortedHeadFirst(a, le, b[0]);
  }

  /** Under an order, two sorted rearrangements of the same elements are equal. */
  lemma {:induction false} SortedUnique<T(!new)>(a: seq<T>, b: seq<T>, le: (T, T) -> bool)
    requires TotalPreorder(le) && Antisymmetric(le)
    requires SortedBy(a, le) && SortedBy(b, le) && multiset(a) == multiset(b)
    ensures a == b
    decreases |a|
  {
    assert |a| == |multiset(a)| == |multiset(b)| == |b|;
    if |a| > 0 {
      SortedSameHead(a, b, le);
      SameTails(a, b);
      SortedTail(a, le);
      SortedTail(b, le);
      SortedUnique(a[1..], b[1..], le);
      assert a == [a[0]] + a[1..] && b == [b[0]] + b[1..];
    }
  }

  /** Two rearrangements of each other with the same head have rearranged tails. */
  lemma SameTails<T>(a: seq<T>, b: seq<T>)
    requires |a| > 0 && |b| > 0 && a[0] == b[0] && multiset(a) == multiset(b)
    ensures multiset(a[1..]) == multiset(b[1..])
  {
    assert a == [a[0]] + a[1..] && b == [b[0]] + b[1..];
    assert multiset(a[1..]) == multiset(a) - multiset([a[0]]);
    assert multiset(b[1..]) == multiset(b) - multiset([b[0]]);
  }

  // ---------------------------------------------------------------------------
  // Maps in insertion order
  // ---------------------------------------------------------------------------

  /** A JavaScript `Map` or plain object with non-index keys: its entries in insertion order. */
  type Assoc<K, V> = seq<(K, V)>

  /** `m.get(k)`: the value of the first entry with key `k`. */
  function Lookup<K(==), V>(m: Assoc<K, V>, k: K): (r: Option<V>)
    ensures r.None? <==> forall i :: 0 <= i < |m| ==> m[i].0 != k
    ensures r.Some? ==> exists i :: 0 <= i < |m| && m[i] == (k, r.value)
    decreases |m|
  {
    if |m| == 0 then None
    else if m[0].0 == k then Some(m[0].1)
    else
      var r := Lookup(m[1..], k);
      assert r.Some? ==> exists i :: 0 <= i < |m[1..]| && m[1..][i] == (k, r.value);
      assert r.Some? ==> exists i :: 0 <= i < |m| && m[i] == (k, r.value);
      r
  }

  /** `m.set(k, v)`: an existing entry keeps its place, a new one goes last. */
  function Put<K(==,!new), V>(m: Assoc<K, V>, k: K, v: V): (r: Assoc<K, V>)
    ensures Lookup(r, k) == Some(v)
    ensures forall j :: j != k ==> Lookup(r, j) == Lookup(m, j)
    ensures |r| == if Lookup(m, k).Some? then |m| else |m| + 1
    ensures Lookup(m, k).None? ==> r == m + [(k, v)]
    decreases |m|
  {
    if |m| == 0 then [(k, v)]
    else if m[0].0 == k then [(k, v)] + m[1..]
    else
      var t := Put(m[1..], k, v);
      PutCons(m, k, v, t);
      [m[0]] + t
  }

  /** The facts `Put` promises carry over from the tail to the map with its head kept in front. */
  lemma PutCons<K(!new), V>(m: Assoc<K, V>, k: K, v: V, t: Assoc<K, V>)
    requires |m| > 0 && m[0].0 != k
    requires Lookup(t, k) == Some(v)
    requires forall j :: j != k ==> Lookup(t, j) == Lookup(m[1..], j)
    requires |t| == if Lookup(m[1..], k).Some? then |m| - 1 else |m|
    requires Lookup(m[1..], k).None? ==> t == m[1..] + [(k, v)]
    ensures Lookup([m[0]] + t, k) == Some(v)
    ensures forall j :: j != k ==> Lookup([m[0]] + t, j) == Lookup(m, j)
    ensures |[m[0]] + t| == if Lookup(m, k).Some? then |m| else |m| + 1
    ensures Lookup(m, k).None? ==> [m[0]] + t == m + [(k, v)]
  {
    LookupCons(m[0], t);
    assert m == [m[0]] + m[1..];
  }

  /** Looking up in a map with one more entry in front. */
  lemma LookupCons<K(!new), V>(h: (K, V), t: Assoc<K, V>)
    ensures forall j :: Lookup([h] + t, j) == if h.0 == j then Some(h.1) else Lookup(t, j)
  {
    assert ([h] + t)[1..] == t;
  }

  /** `m.delete(k)`: every entry with key `k` goes, the rest keep their order. */
  function Remove<K(==,!new), V>(m: Assoc<K, V>, k: K): (r: Assoc<K, V>)
    ensures Lookup(r, k) == None
    ensures forall j :: j != k ==> Lookup(r, j) == Lookup(m, j)
    ensures |r| <= |m|
    ensures Lookup(m, k).None? ==> r == m
    decreases |m|
  {
    if |m| == 0 then []
    else if m[0].0 == k then Remove(m[1..], k)
    else
      var t := Remove(m[1..], k);
      assert ([m[0]] + t)[1..] == t;
      assert Lookup(m[1..], k).None? ==> m == [m[0]] + m[1..];
      [m[0]] + t
  }

  /** Setting a new key and deleting it again gives back the map. */
  lemma {:induction false} RemoveAfterPut<K(!new), V>(m: Assoc<K, V>, k: K, v: V)
    requires Lookup(m, k).None?
    ensures Remove(Put(m, k, v), k) == m
    decreases |m|
  {
    assert Put(m, k, v) == m + [(k, v)];
    if |m| == 0 {
      assert Remove([(k, v)], k) == Remove([(k, v)][1..], k);
    } else {
      assert m[0].0 != k;
      assert (m + [(k, v)])[1..] == m[1..] + [(k, v)];
      assert Lookup(m[1..], k).None?;
      RemoveAfterPut(m[1..], k, v);
      assert Put(m[1..], k, v) == m[1..] + [(k, v)];
      assert m == [m[0]] + m[1..];
    }
  }

  /** The first position, from `from` on, whose element satisfies `p`. */
  function FirstWhere<T>(s: seq<T>, p: T -> bool, from: nat): (r: Option<nat>)
    requires from <= |s|
    ensures r.Some? ==> from <= r.value < |s| && p(s[r.value])
    ensures r.Some? ==> forall j :: from <= j < r.value ==> !p(s[j])
    ensures r.None? <==> forall j :: from <= j < |s| ==> !p(s[j])
    decreases |s| - from
  {
    if from == |s| then None
    else if p(s[from]) then Some(from)
    else FirstWhere(s, p, from + 1)
  }
  /** The first position satisfying `p` is the only one with nothing before it satisfying `p`. */
  lemma FirstWhereUnique<T>(s: seq<T>, p: T -> bool, r: Option<nat>)
    requires r.Some? ==> r.value < |s| && p(s[r.value]) && forall j :: 0 <= j < r.value ==> !p(s[j])
    requires r.None? ==> forall j :: 0 <= j < |s| ==> !p(s[j])
    ensures r == FirstWhere(s, p, 0)
  {
  }

}

=== FILE: extract.dfy ===
/**
 * Reading a Pokémon name out of a name bot's message (`extractPokemonName`)
 * and the key normaliser used to compare names with lock keys
 * (`normalizeForComparison`), both from index.js.
 *
 * Every global regular-expression replace is a `Rewrite` with a matcher that
 * gives the length of the pattern's match at the start of a string. The Nidoran
 * gender symbols are protected by placeholder words while the symbol ranges are
 * stripped, and restored afterwards.
 */
module Extraction {
  import opened Wrappers
  import opened Text

  const SpecialBotId: String := "854233015475109888"
  const NidoranBotId: String := "874910942490677270"

  const Male: char := '\U{2642}'
  const Female: char := '\U{2640}'
  const VariationSelector: char := '\U{FE0F}'
  const EmDash: char := '\U{2014}'

  const MalePlaceholder: String := "NIDORAN_MALE_PLACEHOLDER"
  const FemalePlaceholder: String := "NIDORAN_FEMALE_PLACEHOLDER"

  function Marker(female: bool): String {
    if female then FemalePlaceholder else MalePlaceholder
  }

  function GenderSymbol(female: bool): char {
    if female then Female else Male
  }

  // ---------------------------------------------------------------------------
  // Matchers: the length of a pattern's match at the start of a string
  // ---------------------------------------------------------------------------

  /** `/nidoran\s*<sym>️?/i`. */
  function NidoranSymbolMatch(sym: char, t: String): (n: nat)
    ensures n > 0 ==> n <= |t| && sym in t
  {
    if StartsWithIgnoringCase(t, "nidoran") then
      var k := 7 + LeadingSpaces(t[7..]);
      if k < |t| && t[k] == sym then
        if k + 1 < |t| && t[k + 1] == VariationSelector then k + 2 else k + 1
      else 0
    else 0
  }

  function MaleSymbolMatch(t: String): (n: nat)
    ensures n > 0 ==> Male in t
  {
    NidoranSymbolMatch(Male, t)
  }

  function FemaleSymbolMatch(t: String): (n: nat)
    ensures n > 0 ==> Female in t
  {
    NidoranSymbolMatch(Female, t)
  }

  /** `/\s*\([Xx]\)/` for the gender letter `upper`/`lower`. */
  function GenderTagMatch(upper: char, lower: char, t: String): (n: nat)
    ensures n > 0 ==> n <= |t| && '(' in t && (upper in t || lower in t)
  {
    var k := LeadingSpaces(t);
    if k + 3 <= |t| && t[k] == '(' && (t[k + 1] == upper || t[k + 1] == lower) && t[k + 2] == ')'
    then k + 3 else 0
  }

  function FemaleTagMatch(t: String): (n: nat)
    ensures n > 0 ==> '(' in t
  {
    GenderTagMatch('F', 'f', t)
  }

  function MaleTagMatch(t: String): (n: nat)
    ensures n > 0 ==> '(' in t
  {
    GenderTagMatch('M', 'm', t)
  }

  /** `/nidoran\s*\([Xx]\)/i`: the tag only where it follows the word Nidoran. */
  function NidoranTagMatch(upper: char, lower: char, t: String): (n: nat)
    ensures n > 0 ==> n <= |t| && '(' in t && (upper in t || lower in t)
  {
    if StartsWithIgnoringCase(t, "nidoran") then
      var m := GenderTagMatch(upper, lower, t[7..]);
      assert forall ch :: ch in t[7..] ==> ch in t;
      if m > 0 then 7 + m else 0
    else 0
  }

  function NidoranFemaleTagMatch(t: String): (n: nat)
    ensures n > 0 ==> '(' in t && ('F' in t || 'f' in t)
  {
    NidoranTagMatch('F', 'f', t)
  }

  function NidoranMaleTagMatch(t: String): (n: nat)
    ensures n > 0 ==> '(' in t && ('M' in t || 'm' in t)
  {
    NidoranTagMatch('M', 'm', t)
  }

  /** `/【.*?】/`: the nearest closing bracket on the same line. */
  function LenticularMatch(t: String): (n: nat)
    ensures n > 0 ==> |t| > 0 && t[0] == '\U{3010}'
  {
    if |t| > 0 && t[0] == '\U{3010}' then
      match FindClose(t[1..], '\U{3011}', IsLineTerminator)
      case Some(j) => j + 2
      case None => 0
    else 0
  }

  predicate NoChar(c: char) { false }

  /** `/<a?:[^>]+>/`: a custom Discord emote, static or animated. */
  function EmoteMatch(t: String): (n: nat)
    ensures n > 0 ==> |t| > 0 && t[0] == '<'
  {
    if |t| > 0 && t[0] == '<' then
      var body := if |t| > 2 && t[1] == 'a' && t[2] == ':' then 3
                  else if |t| > 1 && t[1] == ':' then 2
                  else 0;
      if body == 0 then 0
      else
        match FindClose(t[body..], '>', NoChar)
        case Some(j) => if j > 0 then body + j + 1 else 0
        case None => 0
    else 0
  }

  /** `/:flag_[a-z]{2}:/i`. */
  function FlagMatch(t: String): (n: nat)
    ensures n > 0 ==> |t| > 0 && t[0] == ':'
  {
    if |t| >= 9 && t[0] == ':' && ToLower(t[1..6]) == "flag_"
       && IsAsciiLetter(t[6]) && IsAsciiLetter(t[7]) && t[8] == ':'
    then 9 else 0
  }

  /** `/\([^)]*\)/`: a parenthesised remark, up to the first closing parenthesis. */
  function ParenMatch(t: String): (n: nat)
    ensures n > 0 ==> |t| > 0 && t[0] == '('
  {
    if |t| > 0 && t[0] == '(' then
      match FindClose(t[1..], ')', NoChar)
      case Some(j) => j + 2
      case None => 0
    else 0
  }

  function BoldMatch(t: String): (n: nat)
    ensures n > 0 ==> |t| > 0 && t[0] == '*'
  {
    LiteralMatch(t, "**")
  }

  function MaleMarkerMatch(t: String): (n: nat)
    ensures n > 0 ==> '_' in t
  {
    var n := LiteralMatch(t, MalePlaceholder);
    assert n > 0 ==> t[7] == MalePlaceholder[7];
    n
  }

  function FemaleMarkerMatch(t: String): (n: nat)
    ensures n > 0 ==> '_' in t
  {
    var n := LiteralMatch(t, FemalePlaceholder);
    assert n > 0 ==> t[7] == FemalePlaceholder[7];
    n
  }

  /** `[\[\]〈〉❨❩⦗]`. */
  predicate IsBracket(c: char) {
    c == '[' || c == ']' || c == '\U{3008}' || c == '\U{3009}'
    || c == '\U{2768}' || c == '\U{2769}' || c == '\U{2997}'
  }

  /** `[\u{1F300}-\u{1F6FF}\u{2600}-\u{26FF}\u{2700}-\u{27BF}]`: pictographs, dingbats and other symbols. */
  predicate IsPictograph(c: char) {
    ('\U{1F300}' <= c <= '\U{1F6FF}') || ('\U{2600}' <= c <= '\U{26FF}') || ('\U{2700}' <= c <= '\U{27BF}')
  }

  // ---------------------------------------------------------------------------
  // Stages
  // ---------------------------------------------------------------------------

  /** `String(raw).split('\n')[0].trim()`. */
  function FirstLine(raw: String): (r: String)
    ensures '\n' !in r
  {
    Trim(Before(raw, '\n'))
  }

  /** Nidoran followed by a gender symbol becomes a placeholder word. */
  function ProtectSymbols(line: String): String {
    Rewrite(Rewrite(line, MaleSymbolMatch, MalePlaceholder), FemaleSymbolMatch, FemalePlaceholder)
  }

  /** A leading `##` (a Markdown heading) is dropped and the rest trimmed. */
  function StripHashes(line: String): (r: String)
    ensures !StartsWith(line, "##") ==> r == line
  {
    if StartsWith(line, "##") then Trim(line[2..]) else line
  }

  predicate IsTypeNull(line: String) {
    StartsWithIgnoringCase(line, "type: null:")
  }

  /**
   * The percentage bot's rule: keep the text before the first colon, except
   * that the name `Type: Null` keeps its own colon and is cut at the second.
   */
  function ColonRule(line: String): (r: String)
    ensures |r| <= |line| && r == line[..|r|]
    ensures IsTypeNull(line) ==> r == line[..10]
    ensures !IsTypeNull(line) ==> ':' !in r && (|r| < |line| ==> line[|r|] == ':')
    ensures ':' !in line ==> r == line
  {
    if IsTypeNull(line) then
      var first := |Before(line, ':')|;
      TypeNullColons(line);
      var second := first + 1 + |Before(line[first + 1..], ':')|;
      if second < |line| then line[..second] else line
    else if ':' in line then Before(line, ':')
    else line
  }

  /** In a line starting with `type: null:`, whatever its case, the colons are at 4 and 10. */
  lemma TypeNullColons(line: String)
    requires IsTypeNull(line)
    ensures |Before(line, ':')| == 4
    ensures |Before(line[5..], ':')| == 5
  {
    var low := ToLower(line[..11]);
    assert low == "type: null:";
    forall i | 0 <= i < 11
      ensures (line[i] == ':') <==> (i == 4 || i == 10)
    {
      assert low[i] == ToLowerChar(line[i]);
    }
    assert line == line[..4] + [':'] + line[5..];
    BeforeOfPrefix(line[..4], ':', line[5..]);
    assert line[5..] == line[5..10] + [':'] + line[11..];
    BeforeOfPrefix(line[5..10], ':', line[11..]);
  }

  /** Everything from the first em dash on is dropped. */
  function DashCut(line: String): (r: String)
    ensures EmDash !in r
    ensures EmDash !in line ==> r == line
  {
    if EmDash in line then
      var r := Trim(Before(line, EmDash));
      assert forall ch :: ch in r ==> ch in Before(line, EmDash);
      r
    else line
  }

  /**
   * How the `(F)`/`(M)` gender tags of bot 874910942490677270 are read: as the
   * program has it, every tag becomes a space and a placeholder; the corrected
   * rule turns only `Nidoran (F)`/`Nidoran (M)` into the placeholder.
   */
  datatype TagRule = TagAfterAnyName | TagAfterNidoran

  function ConvertTags(line: String, rule: TagRule): String {
    match rule
    case TagAfterAnyName =>
      Rewrite(Rewrite(line, FemaleTagMatch, " " + FemalePlaceholder), MaleTagMatch, " " + MalePlaceholder)
    case TagAfterNidoran =>
      Rewrite(Rewrite(line, NidoranFemaleTagMatch, FemalePlaceholder), NidoranMaleTagMatch, MalePlaceholder)
  }

  /** Brackets, emotes, flags, bracket characters, parentheses, bold markers and symbols go. */
  function StripMarkup(line: String): (r: String)
    ensures forall ch :: ch in r ==> !IsBracket(ch) && !IsPictograph(ch)
  {
    var a := Rewrite(line, LenticularMatch, "");
    var b := Rewrite(a, EmoteMatch, "");
    var c := Rewrite(b, FlagMatch, "");
    var d := RemoveChars(c, IsBracket);
    var e := Rewrite(d, ParenMatch, "");
    var f := Rewrite(e, BoldMatch, "");
    RemoveChars(f, IsPictograph)
  }

  /** The placeholders become `Nidoran♂` and `Nidoran♀`, without a variation selector. */
  function RestoreSymbols(line: String): String {
    Rewrite(Rewrite(line, MaleMarkerMatch, "Nidoran" + [Male]), FemaleMarkerMatch, "Nidoran" + [Female])
  }

  /** Runs of white space become one space, the ends are trimmed, and the result is lower-cased. */
  function Finish(line: String): (r: String)
    ensures IsLower(r) && SingleSpaced(r) && NoEdgeSpace(r)
  {
    var s := Squeeze(line);
    LowerKeepsSpacing(s);
    ToLower(s)
  }

  /** The stages from the colon rule to the tag rule, which depend on the author. */
  function ByAuthor(line: String, authorId: String, rule: TagRule): String {
    var c := if authorId == SpecialBotId then ColonRule(line) else line;
    var d := DashCut(c);
    if authorId == NidoranBotId then ConvertTags(d, rule) else d
  }

  /** The whole cleaning of the first line. */
  function Clean(line: String, authorId: String, rule: TagRule): (r: String)
    ensures IsLower(r) && SingleSpaced(r) && NoEdgeSpace(r)
  {
    Finish(RestoreSymbols(StripMarkup(ByAuthor(StripHashes(ProtectSymbols(line)), authorId, rule))))
  }

  /**
   * `extractPokemonName(raw, authorId)` with a given tag rule: `None` for an
   * empty message or when nothing is left after cleaning.
   */
  function ExtractWith(raw: String, authorId: String, rule: TagRule): (r: Option<String>)
    ensures |raw| == 0 ==> r.None?
    ensures r.Some? ==> |r.value| > 0 && IsLower(r.value) && SingleSpaced(r.value) && NoEdgeSpace(r.value)
    ensures r.None? <==> |raw| == 0 || |Clean(FirstLine(raw), authorId, rule)| == 0
  {
    if |raw| == 0 then None
    else
      var line := Clean(FirstLine(raw), authorId, rule);
      if |line| == 0 then None else Some(line)
  }

  /** The extraction as the program has it. */
  function ExtractPokemonNameAsWritten(raw: String, authorId: String): Option<String> {
    ExtractWith(raw, authorId, TagAfterAnyName)
  }

  /** The extraction with the corrected tag rule, for the corrected halves of the lock decision and `!spawn`. */
  function ExtractPokemonName(raw: String, authorId: String): Option<String> {
    ExtractWith(raw, authorId, TagAfterNidoran)
  }

  // ---------------------------------------------------------------------------
  // The key normaliser
  // ---------------------------------------------------------------------------

  predicate IsVariationSelector(c: char) { c == VariationSelector }

  /** `normalizeForComparison`: drop U+FE0F, lower-case, trim, and collapse white space. */
  function NormalizeForComparison(name: String): (r: String)
    ensures VariationSelector !in r
    ensures IsLower(r) && SingleSpaced(r) && NoEdgeSpace(r)
    ensures |name| == 0 ==> r == ""
  {
    if |name| == 0 then ""
    else
      var stripped := RemoveChars(name, IsVariationSelector);
      var low := ToLower(stripped);
      LowerKeepsAbsence(stripped, VariationSelector);
      var t := Trim(low);
      var r := Collapse(t);
      CharsFromLower(low, t, r, VariationSelector);
      assert |t| > 0 ==> !IsSpace(r[0]) && !IsSpace(r[|r| - 1]);
      r
  }

  lemma LowerKeepsAbsence(s: String, c: char)
    requires c !in s && !IsLowerLetter(c)
    ensures c !in ToLower(s)
  {
    forall i | 0 <= i < |s|
      ensures ToLower(s)[i] != c
    {
      assert s[i] in s;
    }
  }

  lemma CharsFromLower(low: String, t: String, r: String, c: char)
    requires IsLower(low) && c !in low && c != ' '
    requires forall ch :: ch in t ==> ch in low
    requires forall ch :: ch in r ==> ch in t || ch == ' '
    ensures c !in r && IsLower(r)
  {
    forall i | 0 <= i < |r|
      ensures !IsUpper(r[i]) && r[i] != c
    {
      assert r[i] in r;
      if r[i] != ' ' {
        assert r[i] in low;
        var j :| 0 <= j < |low| && low[j] == r[i];
      }
    }
  }

  /** `normalizeForComparison` of what the extraction gave, `''` for `null`. */
  function NormalizeExtracted(name: Option<String>): String {
    match name
    case None => ""
    case Some(s) => NormalizeForComparison(s)
  }

  /** A name already in normal form normalises to itself. */
  lemma NormalizeTidy(s: String)
    requires VariationSelector !in s && IsLower(s) && SingleSpaced(s) && NoEdgeSpace(s)
    ensures NormalizeForComparison(s) == s
  {
    if |s| > 0 {
      assert RemoveChars(s, IsVariationSelector) == s;
      ToLowerOfLower(s);
      CollapseOfSingleSpaced(s);
    }
  }

  /** Normalising twice is normalising once. */
  lemma NormalizeIdempotent(name: String)
    ensures NormalizeForComparison(NormalizeForComparison(name)) == NormalizeForComparison(name)
  {
    NormalizeTidy(NormalizeForComparison(name));
  }
}

=== FILE: extract_facts.dfy ===
/**
 * What the name extraction promises: only the first line counts, and the
 * Nidoran gender forms come out as `nidoran♂`/`nidoran♀`. Also the
 * counterexample to the `(F)`/`(M)` rule as the program has it.
 */
module ExtractionFacts {
  import opened Wrappers
  import opened Text
  import opened Extraction

  /** Characters no stage of the cleaning touches, other than case and spacing. */
  predicate PlainChar(c: char) { IsAsciiLetter(c) || c == '_' || c == ' ' }

  predicate Plain(s: String) { forall i :: 0 <= i < |s| ==> PlainChar(s[i]) }

  /** White space other than the line break that ends the first line. */
  predicate InlineSpace(sp: String) { forall i :: 0 <= i < |sp| ==> IsSpace(sp[i]) && sp[i] != '\n' }

  /** A spelling of "nidoran" in any mix of cases. */
  predicate NidoranWord(p: String) { |p| == 7 && ToLower(p) == "nidoran" }

  lemma NidoranWordLetters(p: String)
    requires NidoranWord(p)
    ensures forall i :: 0 <= i < 7 ==> IsAsciiLetter(p[i]) && !IsSpace(p[i])
    ensures forall i :: 0 <= i < 7 ==> p[i] != 'f' && p[i] != 'F' && p[i] != 'm' && p[i] != 'M'
  {
    forall i | 0 <= i < 7
      ensures IsAsciiLetter(p[i]) && p[i] != 'f' && p[i] != 'F' && p[i] != 'm' && p[i] != 'M'
    {
      assert ToLower(p)[i] == ToLowerChar(p[i]);
    }
  }

  // ---------------------------------------------------------------------------
  // Stages on plain text and on the placeholders
  // ---------------------------------------------------------------------------

  lemma PlainKeepsLenticular(s: String) requires Plain(s) ensures Rewrite(s, LenticularMatch, "") == s
  { assert '\U{3010}' !in s; RewriteWithoutLead(s, LenticularMatch, "", '\U{3010}'); }

  lemma PlainKeepsEmote(s: String) requires Plain(s) ensures Rewrite(s, EmoteMatch, "") == s
  { assert '<' !in s; RewriteWithoutLead(s, EmoteMatch, "", '<'); }

  lemma PlainKeepsFlag(s: String) requires Plain(s) ensures Rewrite(s, FlagMatch, "") == s
  { assert ':' !in s; RewriteWithoutLead(s, FlagMatch, "", ':'); }

  lemma PlainKeepsParen(s: String) requires Plain(s) ensures Rewrite(s, ParenMatch, "") == s
  { assert '(' !in s; RewriteWithoutLead(s, ParenMatch, "", '('); }

  lemma PlainKeepsBold(s: String) requires Plain(s) ensures Rewrite(s, BoldMatch, "") == s
  { assert '*' !in s; RewriteWithoutLead(s, BoldMatch, "", '*'); }

  lemma PlainHasNoBracket(s: String) requires Plain(s) ensures RemoveChars(s, IsBracket) == s {}

  lemma PlainHasNoPictograph(s: String) requires Plain(s) ensures RemoveChars(s, IsPictograph) == s {}

  /** Markup removal leaves plain text alone. */
  lemma StripMarkupPlain(s: String)
    requires Plain(s)
    ensures StripMarkup(s) == s
  {
    PlainKeepsLenticular(s);
    PlainKeepsEmote(s);
    PlainKeepsFlag(s);
    PlainHasNoBracket(s);
    PlainKeepsParen(s);
    PlainKeepsBold(s);
    PlainHasNoPictograph(s);
  }

  /** Both placeholders are plain text. */
  lemma MarkerPlain(female: bool)
    ensures Plain(Marker(female))
  {
    if female {
      assert Plain(FemalePlaceholder);
    } else {
      assert Plain(MalePlaceholder);
    }
  }

  /** Neither placeholder can start where the eighth character on is not `_`. */
  lemma NoMarkerStartsIn(a: String, b: String)
    requires '_' !in a
    requires forall k :: 0 <= k < 7 && k < |b| ==> b[k] != '_'
    ensures forall i :: 0 <= i < |a| ==> MaleMarkerMatch((a + b)[i..]) == 0 && FemaleMarkerMatch((a + b)[i..]) == 0
  {
    assert MalePlaceholder[7] == '_' && FemalePlaceholder[7] == '_';
    forall i | 0 <= i < |a|
      ensures MaleMarkerMatch((a + b)[i..]) == 0 && FemaleMarkerMatch((a + b)[i..]) == 0
    {
      var t := (a + b)[i..];
      if i + 7 < |a + b| {
        if i + 7 < |a| {
          assert t[7] == a[i + 7];
        } else {
          assert t[7] == b[i + 7 - |a|];
        }
        assert t[7] != '_';
      }
      assert |t| >= |MalePlaceholder| ==> t[..|MalePlaceholder|][7] == t[7];
      assert |t| >= |FemalePlaceholder| ==> t[..|FemalePlaceholder|][7] == t[7];
    }
  }

  /** The male placeholder does not occur in the female one. */
  lemma MaleMarkerNotInFemale()
    ensures Rewrite(FemalePlaceholder, MaleMarkerMatch, "Nidoran" + [Male]) == FemalePlaceholder
  {
    var f := FemalePlaceholder;
    forall i | 0 <= i < |f|
      ensures MaleMarkerMatch(f[i..]) == 0
    {
      if i == 0 {
        assert f[i..][8] != MalePlaceholder[8];
      } else if i <= 2 {
        assert f[i..][0] != MalePlaceholder[0];
      }
    }
    RewriteNoMatch(f, MaleMarkerMatch, "Nidoran" + [Male]);
  }

  /** Restoring the placeholders turns a lone placeholder into `Nidoran♂` or `Nidoran♀`. */
  lemma RestoreMarker(female: bool)
    ensures RestoreSymbols(Marker(female)) == "Nidoran" + [GenderSymbol(female)]
  {
    var m := "Nidoran" + [Male];
    var f := "Nidoran" + [Female];
    assert forall t :: FemaleMarkerMatch(t) > 0 ==> '_' in t;
    if female {
      MaleMarkerNotInFemale();
      RewriteWhole(FemalePlaceholder, FemaleMarkerMatch, f);
    } else {
      RewriteWhole(MalePlaceholder, MaleMarkerMatch, m);
      assert '_' !in m;
      RewriteWithout(m, FemaleMarkerMatch, f, '_');
    }
  }

  /** `Nidoran♂`/`Nidoran♀` is left as it is by the spacing stage and lower-cased. */
  lemma FinishNidoran(female: bool)
    ensures Finish("Nidoran" + [GenderSymbol(female)]) == "nidoran" + [GenderSymbol(female)]
  {
    var g := GenderSymbol(female);
    var s := "Nidoran" + [g];
    CapitalisedName(s, g);
    SqueezeTidy(s);
  }

  /** "Nidoran" and a symbol: no white space, and lower-cased it is "nidoran" and the symbol. */
  lemma CapitalisedName(s: String, g: char)
    requires s == "Nidoran" + [g] && !IsSpace(g) && !IsUpper(g)
    ensures forall i :: 0 <= i < |s| ==> !IsSpace(s[i])
    ensures ToLower(s) == "nidoran" + [g]
  {
    var t := ToLower(s);
    var want := "nidoran" + [g];
    assert |t| == |want|;
    forall i | 0 <= i < |s|
      ensures t[i] == want[i] && !IsSpace(s[i])
    {
      if i < 7 {
        assert s[i] == "Nidoran"[i];
      }
    }
  }

  /** The stages after the tag rule turn a placeholder into `nidoran♂`/`nidoran♀`. */
  lemma PolishMarker(female: bool)
    ensures Finish(RestoreSymbols(StripMarkup(Marker(female)))) == "nidoran" + [GenderSymbol(female)]
  {
    MarkerPlain(female);
    StripMarkupPlain(Marker(female));
    RestoreMarker(female);
    FinishNidoran(female);
  }

  // ---------------------------------------------------------------------------
  // Stages that leave text without their trigger characters alone
  // ---------------------------------------------------------------------------

  lemma NoMaleSymbol(s: String)
    requires Male !in s
    ensures Rewrite(s, MaleSymbolMatch, MalePlaceholder) == s
  {
    assert forall t :: MaleSymbolMatch(t) > 0 ==> Male in t;
    RewriteWithout(s, MaleSymbolMatch, MalePlaceholder, Male);
  }

  lemma NoFemaleSymbol(s: String)
    requires Female !in s
    ensures Rewrite(s, FemaleSymbolMatch, FemalePlaceholder) == s
  {
    assert forall t :: FemaleSymbolMatch(t) > 0 ==> Female in t;
    RewriteWithout(s, FemaleSymbolMatch, FemalePlaceholder, Female);
  }

  /** Without a gender symbol, symbol protection changes nothing. */
  lemma ProtectKeeps(s: String)
    requires Male !in s && Female !in s
    ensures ProtectSymbols(s) == s
  {
    NoMaleSymbol(s);
    NoFemaleSymbol(s);
  }

  lemma NoFemaleTag(s: String, rep: String)
    requires '(' !in s
    ensures Rewrite(s, FemaleTagMatch, rep) == s
  {
    assert forall t :: FemaleTagMatch(t) > 0 ==> '(' in t;
    RewriteWithout(s, FemaleTagMatch, rep, '(');
  }

  lemma NoMaleTag(s: String, rep: String)
    requires '(' !in s
    ensures Rewrite(s, MaleTagMatch, rep) == s
  {
    assert forall t :: MaleTagMatch(t) > 0 ==> '(' in t;
    RewriteWithout(s, MaleTagMatch, rep, '(');
  }

  lemma NoNidoranFemaleTag(s: String, rep: String)
    requires '(' !in s
    ensures Rewrite(s, NidoranFemaleTagMatch, rep) == s
  {
    assert forall t :: NidoranFemaleTagMatch(t) > 0 ==> '(' in t;
    RewriteWithout(s, NidoranFemaleTagMatch, rep, '(');
  }

  lemma NoNidoranMaleTag(s: String, rep: String)
    requires '(' !in s
    ensures Rewrite(s, NidoranMaleTagMatch, rep) == s
  {
    assert forall t :: NidoranMaleTagMatch(t) > 0 ==> '(' in t;
    RewriteWithout(s, NidoranMaleTagMatch, rep, '(');
  }

  /** Without a parenthesis, either tag rule changes nothing. */
  lemma TagsKeep(s: String, rule: TagRule)
    requires '(' !in s
    ensures ConvertTags(s, rule) == s
  {
    match rule
    case TagAfterAnyName =>
      NoFemaleTag(s, " " + FemalePlaceholder);
      NoMaleTag(s, " " + MalePlaceholder);
    case TagAfterNidoran =>
      NoNidoranFemaleTag(s, FemalePlaceholder);
      NoNidoranMaleTag(s, MalePlaceholder);
  }

  /** Without a colon, an em dash or a parenthesis, the author's stages change nothing. */
  lemma ByAuthorKeeps(s: String, authorId: String, rule: TagRule)
    requires ':' !in s && EmDash !in s && '(' !in s
    ensures ByAuthor(s, authorId, rule) == s
  {
    TagsKeep(s, rule);
  }

  /** Plain text holds none of the characters the early stages act on. */
  lemma PlainNoTriggers(s: String)
    requires Plain(s)
    ensures ':' !in s && EmDash !in s && '(' !in s && '#' !in s && '\n' !in s && Male !in s && Female !in s
  {
  }

  /** Without `#`, the heading rule changes nothing. */
  lemma HashlessKeeps(s: String)
    requires '#' !in s
    ensures StripHashes(s) == s
  {
    if |s| >= 2 {
      assert s[..2][0] == s[0];
    }
  }

  /** The stages between symbol protection and markup removal leave a placeholder alone. */
  lemma EarlyStagesKeepMarker(female: bool, authorId: String, rule: TagRule)
    ensures ByAuthor(StripHashes(Marker(female)), authorId, rule) == Marker(female)
  {
    MarkerPlain(female);
    PlainNoTriggers(Marker(female));
    HashlessKeeps(Marker(female));
    ByAuthorKeeps(Marker(female), authorId, rule);
  }

  /** A line that is already one trimmed line is its own first line. */
  lemma FirstLineOfLine(raw: String)
    requires '\n' !in raw && NoEdgeSpace(raw)
    ensures FirstLine(raw) == raw
  {
  }

  /**
   * The extraction of a one-line message, once the stages up to the tag rule
   * are known to give `mid`.
   */
  lemma ExtractThrough(raw: String, authorId: String, rule: TagRule, protected: String, mid: String, x: String)
    requires |raw| > 0 && '\n' !in raw && NoEdgeSpace(raw)
    requires ProtectSymbols(raw) == protected
    requires ByAuthor(StripHashes(protected), authorId, rule) == mid
    requires Finish(RestoreSymbols(StripMarkup(mid))) == x && |x| > 0
    ensures ExtractWith(raw, authorId, rule) == Some(x)
  {
    FirstLineOfLine(raw);
  }

  // ---------------------------------------------------------------------------
  // Properties of the whole extraction
  // ---------------------------------------------------------------------------

  /** The cleaning of an empty line is empty. */
  lemma CleanEmpty(authorId: String, rule: TagRule)
    ensures Clean("", authorId, rule) == ""
  {
    RewriteNoMatch("", MaleSymbolMatch, MalePlaceholder);
    RewriteNoMatch("", FemaleSymbolMatch, FemalePlaceholder);
    assert ProtectSymbols("") == "";
    var d := ByAuthor("", authorId, rule);
    assert ColonRule("") == "";
    assert d == "" by {
      RewriteNoMatch("", FemaleTagMatch, " " + FemalePlaceholder);
      RewriteNoMatch("", MaleTagMatch, " " + MalePlaceholder);
      RewriteNoMatch("", NidoranFemaleTagMatch, FemalePlaceholder);
      RewriteNoMatch("", NidoranMaleTagMatch, MalePlaceholder);
    }
    StripMarkupPlain("");
    RewriteNoMatch("", MaleMarkerMatch, "Nidoran" + [Male]);
    RewriteNoMatch("", FemaleMarkerMatch, "Nidoran" + [Female]);
    assert Squeeze("") == "";
  }

  /** Only the first line of a message is read. */
  lemma FirstLineOnly(a: String, b: String, authorId: String, rule: TagRule)
    requires '\n' !in a
    ensures ExtractWith(a + ['\n'] + b, authorId, rule) == ExtractWith(a, authorId, rule)
  {
    BeforeOfPrefix(a, '\n', b);
    if |a| == 0 {
      assert Trim("") == "";
      CleanEmpty(authorId, rule);
    }
  }


  // ---------------------------------------------------------------------------
  // Nidoran with a gender symbol
  // ---------------------------------------------------------------------------

  /** "Nidoran", inline white space, the symbol and an optional selector: one whole match. */
  lemma SymbolMatchWhole(p: String, sp: String, sym: char, tail: String)
    requires NidoranWord(p) && InlineSpace(sp) && !IsSpace(sym)
    requires tail == [] || tail == [VariationSelector]
    ensures NidoranSymbolMatch(sym, p + sp + [sym] + tail) == |p + sp + [sym] + tail|
  {
    var raw := p + sp + [sym] + tail;
    assert raw[..7] == p;
    assert raw[7..] == sp + ([sym] + tail);
    LeadingSpacesOf(sp, [sym] + tail);
    assert raw[7 + |sp|] == sym;
  }

  /** Symbol protection turns the whole of such a name into a placeholder. */
  lemma ProtectNidoranSymbol(p: String, sp: String, female: bool, tail: String)
    requires NidoranWord(p) && InlineSpace(sp)
    requires tail == [] || tail == [VariationSelector]
    ensures ProtectSymbols(p + sp + [GenderSymbol(female)] + tail) == Marker(female)
  {
    var sym := GenderSymbol(female);
    var raw := p + sp + [sym] + tail;
    NidoranWordLetters(p);
    SymbolMatchWhole(p, sp, sym, tail);
    if female {
      assert Male !in p && Male !in sp;
      assert Male !in raw;
      NoMaleSymbol(raw);
      RewriteWhole(raw, FemaleSymbolMatch, FemalePlaceholder);
    } else {
      RewriteWhole(raw, MaleSymbolMatch, MalePlaceholder);
      MarkerPlain(false);
      PlainNoTriggers(MalePlaceholder);
      NoFemaleSymbol(MalePlaceholder);
    }
  }

  /** A one-line message that symbol protection turns into a placeholder yields the Nidoran name. */
  lemma ExtractMarker(raw: String, female: bool, authorId: String, rule: TagRule)
    requires |raw| > 0 && '\n' !in raw && NoEdgeSpace(raw)
    requires ProtectSymbols(raw) == Marker(female)
    ensures ExtractWith(raw, authorId, rule) == Some("nidoran" + [GenderSymbol(female)])
  {
    EarlyStagesKeepMarker(female, authorId, rule);
    PolishMarker(female);
    ExtractThrough(raw, authorId, rule, Marker(female), Marker(female), "nidoran" + [GenderSymbol(female)]);
  }

  /** Such a name is one trimmed line. */
  lemma SymbolNameShape(p: String, sp: String, sym: char, tail: String)
    requires NidoranWord(p) && InlineSpace(sp) && !IsSpace(sym)
    requires tail == [] || tail == [VariationSelector]
    ensures var raw := p + sp + [sym] + tail; '\n' !in raw && NoEdgeSpace(raw)
  {
    var raw := p + sp + [sym] + tail;
    NidoranWordLetters(p);
    assert '\n' !in p && '\n' !in sp && sym != '\n';
    assert raw[0] == p[0];
    assert raw[|raw| - 1] == (if tail == [] then sym else VariationSelector);
  }

  /**
   * "Nidoran" in any case, any inline white space, then ♂ or ♀ with or without
   * U+FE0F, comes out as `nidoran♂` or `nidoran♀`, from any bot.
   */
  lemma NidoranSymbol(p: String, sp: String, female: bool, selector: bool, authorId: String, rule: TagRule)
    requires NidoranWord(p) && InlineSpace(sp)
    ensures ExtractWith(p + sp + [GenderSymbol(female)] + (if selector then [VariationSelector] else []), authorId, rule)
            == Some("nidoran" + [GenderSymbol(female)])
  {
    var tail: String := if selector then [VariationSelector] else [];
    SymbolNameShape(p, sp, GenderSymbol(female), tail);
    ProtectNidoranSymbol(p, sp, female, tail);
    ExtractMarker(p + sp + [GenderSymbol(female)] + tail, female, authorId, rule);
  }

  // ---------------------------------------------------------------------------
  // The gender tags of bot 874910942490677270
  // ---------------------------------------------------------------------------

  /** `(F)`/`(M)` in either case: the gender tag of bot 874910942490677270. */
  predicate TagLetter(g: char, female: bool) {
    if female then g == 'F' || g == 'f' else g == 'M' || g == 'm'
  }

  lemma BotsDiffer()
    ensures NidoranBotId != SpecialBotId
  {
    assert NidoranBotId[1] != SpecialBotId[1];
  }

  /** "Nidoran", inline white space and a tag with the given letter: one whole match. */
  lemma TagMatchWhole(p: String, sp: String, g: char, upper: char, lower: char)
    requires NidoranWord(p) && InlineSpace(sp) && (g == upper || g == lower)
    ensures NidoranTagMatch(upper, lower, p + sp + ['(', g, ')']) == |p + sp + ['(', g, ')']|
  {
    var raw := p + sp + ['(', g, ')'];
    assert raw[..7] == p;
    assert raw[7..] == sp + ['(', g, ')'];
    LeadingSpacesOf(sp, ['(', g, ')']);
    assert (sp + ['(', g, ')'])[|sp|..][..3] == ['(', g, ')'];
  }

  /** The corrected tag rule turns "Nidoran (F)"/"Nidoran (M)" into the placeholder. */
  lemma NidoranTagWhole(p: String, sp: String, g: char, female: bool)
    requires NidoranWord(p) && InlineSpace(sp) && TagLetter(g, female)
    ensures ConvertTags(p + sp + ['(', g, ')'], TagAfterNidoran) == Marker(female)
  {
    var raw := p + sp + ['(', g, ')'];
    MarkerPlain(true);
    if female {
      TagMatchWhole(p, sp, g, 'F', 'f');
      RewriteWhole(raw, NidoranFemaleTagMatch, FemalePlaceholder);
      PlainNoTriggers(FemalePlaceholder);
      NoNidoranMaleTag(FemalePlaceholder, MalePlaceholder);
    } else {
      NidoranWordLetters(p);
      assert 'F' !in p && 'f' !in p && 'F' !in sp && 'f' !in sp;
      assert 'F' !in raw && 'f' !in raw;
      assert forall t :: NidoranFemaleTagMatch(t) > 0 ==> 'F' in t || 'f' in t;
      RewriteWithoutEither(raw, NidoranFemaleTagMatch, FemalePlaceholder, 'F', 'f');
      TagMatchWhole(p, sp, g, 'M', 'm');
      RewriteWhole(raw, NidoranMaleTagMatch, MalePlaceholder);
    }
  }

  /** "Nidoran", spacing and a tag: one trimmed line without symbols, hashes, colons or dashes. */
  lemma TagNameShape(p: String, sp: String, g: char)
    requires NidoranWord(p) && InlineSpace(sp) && IsAsciiLetter(g)
    ensures var raw := p + sp + ['(', g, ')'];
      '\n' !in raw && NoEdgeSpace(raw) && '#' !in raw && Male !in raw && Female !in raw && EmDash !in raw
  {
    var raw := p + sp + ['(', g, ')'];
    NidoranWordLetters(p);
    assert '\n' !in p && '#' !in p && Male !in p && Female !in p && EmDash !in p;
    assert '\n' !in sp && '#' !in sp && Male !in sp && Female !in sp && EmDash !in sp;
    assert raw[0] == p[0];
  }

  /** The stages up to the tag rule, for a line without symbols, hashes or dashes from bot 874910942490677270. */
  lemma TagStages(raw: String, rule: TagRule, mid: String)
    requires '#' !in raw && Male !in raw && Female !in raw && EmDash !in raw
    requires ConvertTags(raw, rule) == mid
    ensures ProtectSymbols(raw) == raw
    ensures ByAuthor(StripHashes(raw), NidoranBotId, rule) == mid
  {
    ProtectKeeps(raw);
    HashlessKeeps(raw);
    BotsDiffer();
  }

  /**
   * With the corrected tag rule, bot 874910942490677270's "Nidoran (F)" and
   * "Nidoran (M)", in any case and spacing, come out as `nidoran♀`/`nidoran♂`.
   */
  lemma NidoranTagCorrected(p: String, sp: String, g: char, female: bool)
    requires NidoranWord(p) && InlineSpace(sp) && TagLetter(g, female)
    ensures ExtractPokemonName(p + sp + ['(', g, ')'], NidoranBotId) == Some("nidoran" + [GenderSymbol(female)])
  {
    var raw := p + sp + ['(', g, ')'];
    assert IsAsciiLetter(g);
    TagNameShape(p, sp, g);
    NidoranTagWhole(p, sp, g, female);
    TagStages(raw, TagAfterNidoran, Marker(female));
    PolishMarker(female);
    ExtractThrough(raw, NidoranBotId, TagAfterNidoran, raw, Marker(female), "nidoran" + [GenderSymbol(female)]);
  }

  /** A word of letters: no tag starts inside it. */
  lemma NoTagInWord(w: String, rest: String)
    requires forall i :: 0 <= i < |w| ==> IsAsciiLetter(w[i])
    ensures forall i :: 0 <= i < |w| ==> FemaleTagMatch((w + rest)[i..]) == 0
  {
    forall i | 0 <= i < |w|
      ensures FemaleTagMatch((w + rest)[i..]) == 0
    {
      var t := (w + rest)[i..];
      assert t[0] == w[i];
      assert LeadingSpaces(t) == 0;
    }
  }

  /** As written, a female tag after any word becomes a space and the placeholder. */
  lemma FemaleTagAfterWord(w: String, sp: String)
    requires |w| > 0 && (forall i :: 0 <= i < |w| ==> IsAsciiLetter(w[i])) && InlineSpace(sp)
    ensures ConvertTags(w + sp + "(F)", TagAfterAnyName) == w + " " + FemalePlaceholder
  {
    var tagged := w + " " + FemalePlaceholder;
    FemaleRewriteAfterWord(w, sp);
    TaggedWordNoParen(w);
    NoMaleTag(tagged, " " + MalePlaceholder);
  }

  /** The female tag rule as written, on a word, spacing and `(F)`. */
  lemma FemaleRewriteAfterWord(w: String, sp: String)
    requires |w| > 0 && (forall i :: 0 <= i < |w| ==> IsAsciiLetter(w[i])) && InlineSpace(sp)
    ensures Rewrite(w + sp + "(F)", FemaleTagMatch, " " + FemalePlaceholder) == w + " " + FemalePlaceholder
  {
    var rest := sp + "(F)";
    var rep := " " + FemalePlaceholder;
    assert w + sp + "(F)" == w + rest;
    assert w + " " + FemalePlaceholder == w + rep;
    FemaleTagWhole(sp, rest);
    NoTagInWord(w, rest);
    RewritePrefixThenWhole(w, rest, FemaleTagMatch, rep);
  }

  /** Spacing and `(F)` is one whole female tag. */
  lemma FemaleTagWhole(sp: String, rest: String)
    requires InlineSpace(sp) && rest == sp + "(F)"
    ensures 0 < FemaleTagMatch(rest) == |rest|
  {
    LeadingSpacesOf(sp, "(F)");
    assert rest[|sp|..][..3] == "(F)";
  }

  /** A word of letters, a space and the placeholder hold no parenthesis. */
  lemma TaggedWordNoParen(w: String)
    requires forall i :: 0 <= i < |w| ==> IsAsciiLetter(w[i])
    ensures '(' !in w + " " + FemalePlaceholder
  {
    MarkerPlain(true);
    assert '(' !in w && '(' !in FemalePlaceholder;
  }

  /** Restoration after text with no `_`: the text is kept and the rest restored on its own. */
  lemma RestoreAfterPrefix(a: String, b: String, r: String)
    requires '_' !in a
    requires forall k :: 0 <= k < 7 && k < |b| ==> b[k] != '_'
    requires Rewrite(b, MaleMarkerMatch, "Nidoran" + [Male]) == b
    requires Rewrite(b, FemaleMarkerMatch, "Nidoran" + [Female]) == r
    ensures RestoreSymbols(a + b) == a + r
  {
    NoMarkerStartsIn(a, b);
    RewriteKeepsPrefix(a, b, MaleMarkerMatch, "Nidoran" + [Male]);
    RewriteKeepsPrefix(a, b, FemaleMarkerMatch, "Nidoran" + [Female]);
  }

  lemma FemaleMarkerWhole()
    ensures Rewrite(FemalePlaceholder, FemaleMarkerMatch, "Nidoran" + [Female]) == "Nidoran" + [Female]
    ensures forall k :: 0 <= k < 7 ==> FemalePlaceholder[k] != '_'
  {
    RewriteWhole(FemalePlaceholder, FemaleMarkerMatch, "Nidoran" + [Female]);
  }

  /** The placeholder after the word is restored, the word is left alone. */
  lemma RestoreAfterWord(w: String)
    requires forall i :: 0 <= i < |w| ==> IsAsciiLetter(w[i])
    ensures RestoreSymbols(w + " " + FemalePlaceholder) == w + " " + "Nidoran" + [Female]
  {
    var a := w + " ";
    assert '_' !in a;
    MaleMarkerNotInFemale();
    FemaleMarkerWhole();
    RestoreAfterPrefix(a, FemalePlaceholder, "Nidoran" + [Female]);
    assert a + ("Nidoran" + [Female]) == w + " " + "Nidoran" + [Female];
  }

  /** Two words joined by one space are tidily spaced. */
  lemma TwoWordsTidy(u: String, v: String)
    requires |u| > 0 && |v| > 0
    requires forall i :: 0 <= i < |u| ==> !IsSpace(u[i])
    requires forall i :: 0 <= i < |v| ==> !IsSpace(v[i])
    ensures SingleSpaced(u + " " + v) && NoEdgeSpace(u + " " + v)
  {
    var s := u + " " + v;
    assert forall i :: 0 <= i < |u| ==> s[i] == u[i];
    assert forall i :: |u| < i < |s| ==> s[i] == v[i - |u| - 1];
    assert s[|u|] == ' ';
    assert s[0] == u[0] && s[|s| - 1] == v[|v| - 1];
  }

  /** Lower-casing goes word by word. */
  lemma LowerTwoWords(u: String, v: String)
    ensures ToLower(u + " " + v) == ToLower(u) + " " + ToLower(v)
  {
    var s := u + " " + v;
    var low := ToLower(u) + " " + ToLower(v);
    forall i | 0 <= i < |s|
      ensures ToLower(s)[i] == low[i]
    {
      if i < |u| {
        assert s[i] == u[i];
      } else if i > |u| {
        assert s[i] == v[i - |u| - 1];
      }
    }
  }

  /** Two words joined by one space keep their spacing and are lower-cased. */
  lemma FinishTwoWords(u: String, v: String)
    requires |u| > 0 && |v| > 0
    requires forall i :: 0 <= i < |u| ==> !IsSpace(u[i])
    requires forall i :: 0 <= i < |v| ==> !IsSpace(v[i])
    ensures Finish(u + " " + v) == ToLower(u) + " " + ToLower(v)
  {
    TwoWordsTidy(u, v);
    SqueezeTidy(u + " " + v);
    LowerTwoWords(u, v);
  }

  /** The word and the restored name are lower-cased; the spacing is already tidy. */
  lemma FinishAfterWord(w: String)
    requires |w| > 0 && (forall i :: 0 <= i < |w| ==> IsAsciiLetter(w[i]))
    ensures Finish(w + " " + "Nidoran" + [Female]) == ToLower(w) + " nidoran" + [Female]
  {
    var v := "Nidoran" + [Female];
    CapitalisedName(v, Female);
    assert w + " " + "Nidoran" + [Female] == w + " " + v;
    FinishTwoWords(w, v);
    FemaleSuffix(ToLower(w), ToLower(v));
  }

  /** A space and `nidoran♀` after a text, however the concatenation is grouped. */
  lemma FemaleSuffix(a: String, low: String)
    requires low == "nidoran" + [Female]
    ensures a + " " + low == a + " nidoran" + [Female]
  {
    var x := a + " " + low;
    var y := a + " nidoran" + [Female];
    assert |x| == |y|;
    forall i | 0 <= i < |x|
      ensures x[i] == y[i]
    {
      if i > |a| && i < |x| - 1 {
        assert x[i] == "nidoran"[i - |a| - 1];
      }
    }
  }

  /** A word, spacing and `(F)`: one trimmed line without symbols, hashes or dashes. */
  lemma WordTagShape(w: String, sp: String)
    requires |w| > 0 && (forall i :: 0 <= i < |w| ==> IsAsciiLetter(w[i])) && InlineSpace(sp)
    ensures var raw := w + sp + "(F)";
      '\n' !in raw && NoEdgeSpace(raw) && '#' !in raw && Male !in raw && Female !in raw && EmDash !in raw
  {
    var raw := w + sp + "(F)";
    assert '\n' !in w && '#' !in w && Male !in w && Female !in w && EmDash !in w;
    assert '\n' !in sp && '#' !in sp && Male !in sp && Female !in sp && EmDash !in sp;
    assert raw[0] == w[0];
  }

  /** The tagged word, as the tag rule as written leaves it, is plain text. */
  lemma TaggedWordPlain(w: String)
    requires forall i :: 0 <= i < |w| ==> IsAsciiLetter(w[i])
    ensures Plain(w + " " + FemalePlaceholder)
  {
    MarkerPlain(true);
    var t := w + " " + FemalePlaceholder;
    assert forall i :: 0 <= i < |w| ==> t[i] == w[i];
    assert forall i :: |w| < i < |t| ==> t[i] == FemalePlaceholder[i - |w| - 1];
  }

  /**
   * As the program has it, bot 874910942490677270's "(F)" after any word, say
   * "Pikachu (F)", comes out as the word followed by ` nidoran♀`.
   */
  lemma FemaleTagAsWritten(w: String, sp: String)
    requires |w| > 0 && (forall i :: 0 <= i < |w| ==> IsAsciiLetter(w[i])) && InlineSpace(sp)
    ensures ExtractPokemonNameAsWritten(w + sp + "(F)", NidoranBotId) == Some(ToLower(w) + " nidoran" + [Female])
  {
    var raw := w + sp + "(F)";
    var tagged := w + " " + FemalePlaceholder;
    WordTagShape(w, sp);
    FemaleTagAfterWord(w, sp);
    TagStages(raw, TagAfterAnyName, tagged);
    TaggedWordPlain(w);
    StripMarkupPlain(tagged);
    RestoreAfterWord(w);
    FinishAfterWord(w);
    ExtractThrough(raw, NidoranBotId, TagAfterAnyName, raw, tagged, ToLower(w) + " nidoran" + [Female]);
  }

  lemma SpacedTag(p: String)
    ensures p + " (F)" == p + " " + "(F)"
    ensures p + " (F)" == p + " " + ['(', 'F', ')']
  {
  }

  lemma DoubledName(p: String)
    requires NidoranWord(p)
    ensures ToLower(p) + " nidoran" + [Female] == "nidoran nidoran" + [Female]
  {
  }

  /** The name the rule as written gives "Nidoran (F)" is `nidoran nidoran♀`. */
  lemma AsWrittenDoubles(p: String)
    requires NidoranWord(p)
    ensures ExtractPokemonNameAsWritten(p + " (F)", NidoranBotId) == Some("nidoran nidoran" + [Female])
  {
    SpacedTag(p);
    NidoranWordLetters(p);
    FemaleTagAsWritten(p, " ");
    DoubledName(p);
  }

  /** The corrected rule gives "Nidoran (F)" the name `nidoran♀`. */
  lemma CorrectedSingle(p: String)
    requires NidoranWord(p)
    ensures ExtractPokemonName(p + " (F)", NidoranBotId) == Some("nidoran" + [Female])
  {
    SpacedTag(p);
    NidoranTagCorrected(p, " ", 'F', true);
  }

  /**
   * The gender-tag rule as written, on "Nidoran (F)" in any case: the result
   * is `nidoran nidoran♀`, which no lock key matches; the corrected rule gives
   * `nidoran♀`.
   */
  lemma NidoranTagCounterexample(p: String)
    requires NidoranWord(p)
    ensures ExtractPokemonNameAsWritten(p + " (F)", NidoranBotId) == Some("nidoran nidoran" + [Female])
    ensures ExtractPokemonName(p + " (F)", NidoranBotId) == Some("nidoran" + [Female])
  {
    AsWrittenDoubles(p);
    CorrectedSingle(p);
  }

  /** "Nidoran" itself is such a spelling. */
  lemma NidoranIsNidoranWord()
    ensures NidoranWord("Nidoran")
  {
  }
}

=== FILE: gls.dfy ===
/**
 * `!gls`: the channels locked for any of several Pokémon across every guild,
 * with a count per search term, paged fifteen to a message and kept in step
 * with the record of locked channels.
 */
module GlobalSearch {
  import opened Wrappers
  import opened Text
  import opened Collections
  import opened Paging
  import opened Locks
  import opened Listing

  const Nav: NavStyle := NavStyle(
    "gls_prev_page", "page_info_gls_disabled", "gls_next_page", "gls_close_list",
    "\U{2B05}\U{FE0F}", "\U{27A1}\U{FE0F}", "\U{274C}")

  // ---------------------------------------------------------------------------
  // Search terms
  // ---------------------------------------------------------------------------

  /** `args.join(' ').toLowerCase().split(',')`, each piece trimmed, empty pieces dropped. */
  function SearchTerms(args: seq<String>): (r: seq<String>)
    ensures forall k :: 0 <= k < |r| ==> |r[k]| > 0 && NoEdgeSpace(r[k]) && IsLower(r[k]) && ',' !in r[k]
  {
    var parts := Split(ToLower(Join(args, ' ')), ',');
    SplitKeepsLower(ToLower(Join(args, ' ')), ',');
    TrimmedPiecesWithout(parts, ',');
    TrimmedPiecesLower(parts);
    TrimmedPieces(parts)
  }

  /** A comma-separated list of trimmed lower-case names is read back as those names. */
  lemma SearchTermsOfList(names: seq<String>)
    requires |names| > 0
    requires forall k :: 0 <= k < |names| ==> |names[k]| > 0 && NoEdgeSpace(names[k]) && IsLower(names[k]) && ',' !in names[k]
    ensures SearchTerms([Join(names, ',')]) == names
  {
    var text := Join(names, ',');
    assert Join([text], ' ') == text;
    JoinLower(names, ',');
    ToLowerOfLower(text);
    SplitJoin(names, ',');
    TrimmedPiecesKeep(names);
  }

  // ---------------------------------------------------------------------------
  // Building the list
  // ---------------------------------------------------------------------------

  /** A locked channel is listed when it is cached, belongs to a guild, and its Pokémon contains some term. */
  predicate Listed(cache: ChannelCache, terms: seq<String>, e: (String, LockRecord)) {
    && e.0 in cache && cache[e.0].guild.Some?
    && exists k :: 0 <= k < |terms| && Contains(ToLower(e.1.pokemon), terms[k])
  }

  /** The list line of a locked channel. */
  function ItemOf(cache: ChannelCache, e: (String, LockRecord)): ListItem
    requires e.0 in cache && cache[e.0].guild.Some?
  {
    var channel := cache[e.0];
    var guild := channel.guild.value;
    ListItem(e.0, channel.name, guild.id, guild.name, KnownName(e.1.pokemon), TypeLabel(e.1.lockType))
  }

  /** The counts before any channel is seen: every term at 0, in term order. */
  function ZeroCounts(terms: seq<String>): (r: Table<String>)
    ensures Sum(r) == 0
    ensures forall t :: t in KeySet(r) <==> t in terms
    ensures DistinctKeys(r)
    decreases |terms|
  {
    if |terms| == 0 then []
    else
      var last := terms[|terms| - 1];
      var t := ZeroCounts(terms[..|terms| - 1]);
      SumSet(t, last, 0);
      assert terms == terms[..|terms| - 1] + [last];
      Set(t, last, 0)
  }

  /**
   * The matching channels in record order, each counted once under the first
   * term it matches.
   */
  function Collect(cache: ChannelCache, terms: seq<String>, entries: LockedChannels)
    : (r: (seq<ListItem>, Table<String>))
    ensures Sum(r.1) == |r.0|
    ensures forall t :: t in KeySet(r.1) <==> t in terms
    ensures DistinctKeys(r.1)
    ensures |r.0| <= |entries|
    decreases |entries|
  {
    if |entries| == 0 then ([], ZeroCounts(terms))
    else
      var e := entries[|entries| - 1];
      var prior := Collect(cache, terms, entries[..|entries| - 1]);
      var counts := prior.1;
      if e.0 in cache && cache[e.0].guild.Some? then
        match MatchedTerm(terms, e.1.pokemon)
        case Some(k) => Taken(prior, terms[k], ItemOf(cache, e))
        case None => prior
      else prior
  }

  /** One more channel taken: its line appended and one more under its term. */
  function Taken(prior: (seq<ListItem>, Table<String>), key: String, item: ListItem): (r: (seq<ListItem>, Table<String>))
    ensures r.0 == prior.0 + [item]
    ensures Sum(r.1) == Sum(prior.1) + 1
    ensures KeySet(r.1) == KeySet(prior.1) + {key}
    ensures DistinctKeys(prior.1) ==> DistinctKeys(r.1)
  {
    SumBump(prior.1, key);
    (prior.0 + [item], Set(prior.1, key, Get(prior.1, key) + 1))
  }

  /** `x` is the line of some locked channel that is listed. */
  predicate FromRecord(cache: ChannelCache, terms: seq<String>, entries: LockedChannels, x: ListItem) {
    exists j :: 0 <= j < |entries| && Listed(cache, terms, entries[j]) && x == ItemOf(cache, entries[j])
  }

  /** Whether a channel is taken, and what its line is. */
  lemma CollectStep(cache: ChannelCache, terms: seq<String>, entries: LockedChannels)
    requires |entries| > 0
    ensures var e := entries[|entries| - 1];
      var items := Collect(cache, terms, entries[..|entries| - 1]).0;
      var r := Collect(cache, terms, entries).0;
      (Listed(cache, terms, e) ==> r == items + [ItemOf(cache, e)])
      && (!Listed(cache, terms, e) ==> r == items)
  {
  }

  /** Every listed line comes from a locked channel that is listed. */
  lemma {:induction false} CollectSound(cache: ChannelCache, terms: seq<String>, entries: LockedChannels)
    ensures forall x :: x in Collect(cache, terms, entries).0 ==> FromRecord(cache, terms, entries, x)
    decreases |entries|
  {
    if |entries| > 0 {
      CollectSound(cache, terms, entries[..|entries| - 1]);
      forall x | x in Collect(cache, terms, entries).0 ensures FromRecord(cache, terms, entries, x) {
        SoundAt(cache, terms, entries, x);
      }
    }
  }

  /** The step of `CollectSound` for one line, given the earlier channels' lines. */
  lemma SoundAt(cache: ChannelCache, terms: seq<String>, entries: LockedChannels, x: ListItem)
    requires |entries| > 0 && x in Collect(cache, terms, entries).0
    requires x in Collect(cache, terms, entries[..|entries| - 1]).0 ==>
      FromRecord(cache, terms, entries[..|entries| - 1], x)
    ensures FromRecord(cache, terms, entries, x)
  {
    var front := entries[..|entries| - 1];
    var e := entries[|entries| - 1];
    var items := Collect(cache, terms, front).0;
    CollectStep(cache, terms, entries);
    if x in items {
      EarlierFromRecord(cache, terms, entries, x);
    } else {
      assert x == ItemOf(cache, e);
      LastFromRecord(cache, terms, entries, x);
    }
  }

  /** A line that comes from the earlier channels comes from the record. */
  lemma EarlierFromRecord(cache: ChannelCache, terms: seq<String>, entries: LockedChannels, x: ListItem)
    requires |entries| > 0 && FromRecord(cache, terms, entries[..|entries| - 1], x)
    ensures FromRecord(cache, terms, entries, x)
  {
    var front := entries[..|entries| - 1];
    var j :| 0 <= j < |front| && Listed(cache, terms, front[j]) && x == ItemOf(cache, front[j]);
    assert front[j] == entries[j];
  }

  /** The line of the last channel, when it is listed, comes from the record. */
  lemma LastFromRecord(cache: ChannelCache, terms: seq<String>, entries: LockedChannels, x: ListItem)
    requires |entries| > 0 && Listed(cache, terms, entries[|entries| - 1])
    requires x == ItemOf(cache, entries[|entries| - 1])
    ensures FromRecord(cache, terms, entries, x)
  {
  }

  /** Every locked channel that is listed has its line in the list. */
  lemma {:induction false} CollectComplete(cache: ChannelCache, terms: seq<String>, entries: LockedChannels)
    ensures forall j :: 0 <= j < |entries| && Listed(cache, terms, entries[j]) ==>
      ItemOf(cache, entries[j]) in Collect(cache, terms, entries).0
    decreases |entries|
  {
    if |entries| > 0 {
      var front := entries[..|entries| - 1];
      CollectComplete(cache, terms, front);
      forall j | 0 <= j < |entries| && Listed(cache, terms, entries[j])
        ensures ItemOf(cache, entries[j]) in Collect(cache, terms, entries).0
      {
        if j < |front| {
          assert front[j] == entries[j];
        }
        CompleteAt(cache, terms, entries, j);
      }
    }
  }

  /** The step of `CollectComplete` for one listed channel, given the earlier channels' lines. */
  lemma CompleteAt(cache: ChannelCache, terms: seq<String>, entries: LockedChannels, j: nat)
    requires j < |entries| && Listed(cache, terms, entries[j])
    requires j < |entries| - 1 ==>
      ItemOf(cache, entries[j]) in Collect(cache, terms, entries[..|entries| - 1]).0
    ensures ItemOf(cache, entries[j]) in Collect(cache, terms, entries).0
  {
    var e := entries[|entries| - 1];
    var items := Collect(cache, terms, entries[..|entries| - 1]).0;
    CollectStep(cache, terms, entries);
    if j < |entries| - 1 {
      var x := ItemOf(cache, entries[j]);
      if Listed(cache, terms, e) {
        assert x in items + [ItemOf(cache, e)];
      }
    } else {
      assert entries[j] == e;
    }
  }

  /** `filterAndGenerateList`: the matching channels sorted by Pokémon, and the counts per term. */
  function Build(cache: ChannelCache, terms: seq<String>, entries: LockedChannels, le: (String, String) -> bool)
    : (r: (seq<ListItem>, Table<String>))
    requires TotalPreorder(le)
    ensures SortedBy(r.0, ByPokemon(le))
    ensures Sum(r.1) == |r.0|
    ensures forall t :: t in KeySet(r.1) <==> t in terms
    ensures DistinctKeys(r.1)
    ensures forall x :: x in r.0 <==> FromRecord(cache, terms, entries, x)
    ensures |r.0| == 0 <==> forall j :: 0 <= j < |entries| ==> !Listed(cache, terms, entries[j])
  {
    var (items, counts) := Collect(cache, terms, entries);
    CollectSound(cache, terms, entries);
    CollectComplete(cache, terms, entries);
    ByPokemonPreorder(le);
    var list := Sort(items, ByPokemon(le));
    SameMembers(list, items);
    assert forall j :: 0 <= j < |entries| && Listed(cache, terms, entries[j]) ==> |items| > 0;
    assert |list| > 0 ==> exists j :: 0 <= j < |entries| && Listed(cache, terms, entries[j]) by {
      if |list| > 0 {
        assert list[0] in items;
      }
    }
    (list, counts)
  }

  /** `*Coincidencias por Pokémon:*`: each term beside its count. */
  function CountSummary(terms: seq<String>, counts: Table<String>): seq<(String, nat)> {
    Summary(terms, terms, counts)
  }

  /**
   * When no term is repeated, the numbers of the summary add up to the
   * number of channels listed: each listed channel is counted once, under
   * the first term it matches.
   */
  lemma SummaryAddsUp(cache: ChannelCache, terms: seq<String>, entries: LockedChannels, le: (String, String) -> bool)
    requires TotalPreorder(le)
    requires Distinct(terms)
    ensures var (list, counts) := Build(cache, terms, entries, le);
      Total(Shown(CountSummary(terms, counts))) == |list|
  {
    var (list, counts) := Build(cache, terms, entries, le);
    assert Shown(CountSummary(terms, counts)) == Lookups(terms, counts);
    LookupsTotal(terms, counts);
  }

  // ---------------------------------------------------------------------------
  // The list state
  // ---------------------------------------------------------------------------

  /** The state kept for a `!gls` message. */
  datatype Search = Search(view: View, list: seq<ListItem>, authorId: String, terms: seq<String>, counts: Table<String>)

  /**
   * `regenerateListState`: rebuild the list from the current record, fit the
   * page to it, and report whether the message needs an edit.
   */
  function Regenerate(s: Search, cache: ChannelCache, entries: LockedChannels, le: (String, String) -> bool)
    : (r: (Search, bool))
    requires TotalPreorder(le)
    ensures Fits(r.0.view, |r.0.list|)
    ensures r.0.view == Refit(s.view.page, |r.0.list|)
    ensures (r.0.list, r.0.counts) == Build(cache, s.terms, entries, le)
    ensures r.0.authorId == s.authorId && r.0.terms == s.terms
  {
    var (list, counts) := Build(cache, s.terms, entries, le);
    var tp := TotalPages(|list|, PerPage);
    var contentChanged := |s.list| != |list| || IdFingerprint(Ids(s.list)) != IdFingerprint(Ids(list));
    var pageAdjusted := (s.view.page >= tp && tp > 0) || (tp == 0 && |s.list| > 0);
    (Search(Refit(s.view.page, |list|), list, s.authorId, s.terms, counts), contentChanged || pageAdjusted)
  }

  /** No id of a locked channel contains a comma (Discord ids are decimal numerals). */
  predicate CommaFreeIds(entries: LockedChannels) {
    forall j :: 0 <= j < |entries| ==> ',' !in entries[j].0
  }

  /**
   * With comma-free ids, a refresh asks for an edit exactly when the set of
   * listed channels changed or the stored page no longer exists.
   */
  lemma RegenerateReportsChange(s: Search, cache: ChannelCache, entries: LockedChannels, le: (String, String) -> bool)
    requires TotalPreorder(le)
    requires forall i :: 0 <= i < |s.list| ==> ',' !in s.list[i].id
    requires CommaFreeIds(entries)
    ensures var (t, changed) := Regenerate(s, cache, entries, le);
      changed <==>
        || |s.list| != |t.list|
        || multiset(Ids(s.list)) != multiset(Ids(t.list))
        || (s.view.page >= t.view.totalPages && t.view.totalPages > 0)
  {
    var (t, changed) := Regenerate(s, cache, entries, le);
    var ids := Ids(t.list);
    forall i | 0 <= i < |ids| ensures ',' !in ids[i] {
      assert t.list[i] in t.list;
      var j :| 0 <= j < |entries| && Listed(cache, s.terms, entries[j]) && t.list[i] == ItemOf(cache, entries[j]);
    }
    if |s.list| == |t.list| {
      FingerprintIffSameIds(Ids(s.list), ids);
    }
  }

  /** A list link: `<n>. <pokemon>` cut to 80 characters, to the channel in its own guild. */
  function Link(item: ListItem, n: nat): Button {
    Paging.Link(Prefix(NatToString(n) + ". " + item.pokemon, 80), ChannelUrl(item.guildId, item.id))
  }

  /** `s.substring(0, n)`. */
  function Prefix(s: String, n: nat): (r: String)
    ensures |r| <= n && |r| <= |s| && r == s[..|r|]
    ensures |s| <= n ==> r == s
  {
    if |s| <= n then s else s[..n]
  }

  /** `generateListOutput`: nothing for an empty list, else the current page. */
  function Output(s: Search): (r: Rendered<ListItem>)
    ensures r.Gone? <==> |s.list| == 0
    ensures r.Page? && Fits(s.view, |s.list|) ==> |r.items| > 0
  {
    Render(s.list, s.view, Link, Nav)
  }

  // ---------------------------------------------------------------------------
  // The command and its buttons
  // ---------------------------------------------------------------------------

  datatype Start =
    | NoPermission            // the author lacks ManageChannels
    | NoTerms                 // no name between the commas
    | NoneFound(counts: Table<String>)
    | Started(state: Search)  // stored under the reply's id

  /** `execute`: the state of a new `!gls` message, or why there is none. */
  function Execute(args: seq<String>, staff: bool, authorId: String, cache: ChannelCache,
                   entries: LockedChannels, le: (String, String) -> bool): (r: Start)
    requires TotalPreorder(le)
    ensures r.NoPermission? <==> !staff
    ensures r.NoTerms? <==> staff && |SearchTerms(args)| == 0
    ensures r.NoneFound? <==> (staff && |SearchTerms(args)| > 0 &&
      forall j :: 0 <= j < |entries| ==> !Listed(cache, SearchTerms(args), entries[j]))
    ensures r.Started? ==> r.state.view.page == 0 && Fits(r.state.view, |r.state.list|) && |r.state.list| > 0
    ensures r.Started? ==> r.state.authorId == authorId && r.state.terms == SearchTerms(args)
    ensures r.Started? ==> Output(r.state).Page?
  {
    if !staff then NoPermission
    else
      var terms := SearchTerms(args);
      if |terms| == 0 then NoTerms
      else
        var (list, counts) := Build(cache, terms, entries, le);
        if |list| == 0 then NoneFound(counts)
        else
          var v := Refit(0, |list|);
          Started(Search(v, list, authorId, terms, counts))
  }

  /**
   * `handlePagination`: close first and for anyone; then only the author or
   * staff may turn pages, and only within range.
   */
  function HandlePress(s: Search, customId: String, userId: String, staff: bool): (r: Reaction<Search>)
    ensures r.Refused? <==> customId != Nav.closeId && s.authorId != userId && !staff
    ensures customId == Nav.closeId ==> r.Deleted?
    ensures r.Ignored? <==> (customId != Nav.closeId && (s.authorId == userId || staff)
      && GuardedStep(s.view.page, s.view.totalPages, PressOf(Nav, customId)).None?)
    ensures r.Saved? ==> r.state.list == s.list && r.state.terms == s.terms && r.state.authorId == s.authorId
    ensures r.Saved? ==> (r.state.view.totalPages == s.view.totalPages
      && (r.state.view.page + 1 == s.view.page || r.state.view.page == s.view.page + 1))
    ensures !r.Expired?
  {
    if customId == Nav.closeId then Deleted
    else if s.authorId != userId && !staff then Refused
    else
      match GuardedStep(s.view.page, s.view.totalPages, PressOf(Nav, customId))
      case None => Ignored
      case Some(p) =>
        var t := s.(view := View(p, s.view.totalPages));
        if |t.list| == 0 then Deleted else Saved(t)
  }

  /** A state that fits its list still fits after any press that saves it, and its page is not empty. */
  lemma PressKeepsFit(s: Search, customId: String, userId: String, staff: bool)
    requires Fits(s.view, |s.list|)
    ensures var r := HandlePress(s, customId, userId, staff);
      r.Saved? ==> Fits(r.state.view, |r.state.list|) && Output(r.state).Page? && |Output(r.state).items| > 0
  {
    var r := HandlePress(s, customId, userId, staff);
    if r.Saved? {
      StepFits(s.view, |s.list|, PressOf(Nav, customId));
    }
  }
}

=== FILE: guild_locks.dfy ===
/**
 * `!locks`: the locked channels of the current guild, private locks first
 * and then by Pokémon, paged fifteen to a message. The list is not stored:
 * every page turn and refresh rebuilds it from the record it is handed.
 */
module GuildLocks {
  import opened Wrappers
  import opened Text
  import opened Collections
  import opened Paging
  import opened Locks
  import opened Listing

  const Nav: NavStyle := NavStyle(
    "locks_prev_page", "page_info_locks_disabled", "locks_next_page", "locks_close_list",
    "\U{2B05}\U{FE0F}", "\U{27A1}\U{FE0F}", "\U{274C} Cerrar")

  const PrivateLabel: String := "Privado"

  // ---------------------------------------------------------------------------
  // Building the list
  // ---------------------------------------------------------------------------

  /** The line of a locked channel when it is cached and belongs to guild `guildId`. */
  function LineOf(cache: ChannelCache, guildId: String, e: (String, LockRecord)): (r: Option<ListItem>)
    ensures r.Some? <==> e.0 in cache && cache[e.0].guild.Some? && cache[e.0].guild.value.id == guildId
    ensures r.Some? ==> r.value.id == e.0 && r.value.channelName == cache[e.0].name && r.value.guildId == guildId
    ensures r.Some? ==> r.value.pokemon == KnownName(e.1.pokemon) && r.value.typeText == TypeLabel(e.1.lockType)
  {
    if e.0 in cache && cache[e.0].guild.Some? && cache[e.0].guild.value.id == guildId then
      var guild := cache[e.0].guild.value;
      Some(ListItem(e.0, cache[e.0].name, guild.id, guild.name, KnownName(e.1.pokemon), TypeLabel(e.1.lockType)))
    else None
  }

  function LineFn(cache: ChannelCache, guildId: String): ((String, LockRecord)) -> Option<ListItem> {
    (e: (String, LockRecord)) => LineOf(cache, guildId, e)
  }

  /** The comparator: a private line before a public one, otherwise by Pokémon. */
  function PrivateFirst(le: (String, String) -> bool): (ListItem, ListItem) -> bool {
    (a: ListItem, b: ListItem) =>
      || (a.typeText == PrivateLabel && b.typeText != PrivateLabel)
      || ((a.typeText == PrivateLabel) == (b.typeText == PrivateLabel) && le(a.pokemon, b.pokemon))
  }

  /** Putting private lines first keeps a consistent order on Pokémon consistent. */
  lemma PrivateFirstPreorder(le: (String, String) -> bool)
    requires TotalPreorder(le)
    ensures TotalPreorder(PrivateFirst(le))
  {
    var cmp := PrivateFirst(le);
    forall a: ListItem, b: ListItem, c: ListItem
      ensures cmp(a, b) || cmp(b, a)
      ensures cmp(a, b) && cmp(b, c) ==> cmp(a, c)
    {
      assert le(a.pokemon, b.pokemon) || le(b.pokemon, a.pokemon);
      if cmp(a, b) && cmp(b, c) {
        if (a.typeText == PrivateLabel) == (c.typeText == PrivateLabel) {
          assert le(a.pokemon, b.pokemon) && le(b.pokemon, c.pokemon);
        }
      }
    }
  }

  /**
   * `getLockedChannelsInGuild`: one line for each locked channel of the
   * guild, sorted private first and then by Pokémon.
   */
  function Lines(cache: ChannelCache, guildId: String, entries: LockedChannels, le: (String, String) -> bool)
    : (r: seq<ListItem>)
    requires TotalPreorder(le)
    ensures SortedBy(r, PrivateFirst(le))
    ensures multiset(r) == multiset(FilterMap(entries, LineFn(cache, guildId)))
    ensures forall x :: x in r <==> Produces(entries, LineFn(cache, guildId), x)
    ensures |r| == 0 <==> forall j :: 0 <= j < |entries| ==> LineOf(cache, guildId, entries[j]).None?
  {
    PrivateFirstPreorder(le);
    var kept := FilterMap(entries, LineFn(cache, guildId));
    FilterMapMembers(entries, LineFn(cache, guildId));
    var r := Sort(kept, PrivateFirst(le));
    SameMembers(r, kept);
    FilterMapEmpty(entries, LineFn(cache, guildId));
    r
  }

  /** In the list every private lock comes before every public one. */
  lemma PrivateLocksFirst(cache: ChannelCache, guildId: String, entries: LockedChannels, le: (String, String) -> bool)
    requires TotalPreorder(le)
    ensures var r := Lines(cache, guildId, entries, le);
      forall i, j :: 0 <= i < j < |r| && r[j].typeText == PrivateLabel ==> r[i].typeText == PrivateLabel
  {
    var r := Lines(cache, guildId, entries, le);
    forall i, j | 0 <= i < j < |r| && r[j].typeText == PrivateLabel
      ensures r[i].typeText == PrivateLabel
    {
      assert PrivateFirst(le)(r[i], r[j]);
    }
  }

  /** Among locks of the same kind the list follows the order on Pokémon. */
  lemma SameKindByPokemon(cache: ChannelCache, guildId: String, entries: LockedChannels, le: (String, String) -> bool)
    requires TotalPreorder(le)
    ensures var r := Lines(cache, guildId, entries, le);
      forall i, j :: 0 <= i < j < |r| && r[i].typeText == r[j].typeText ==> le(r[i].pokemon, r[j].pokemon)
  {
    var r := Lines(cache, guildId, entries, le);
    forall i, j | 0 <= i < j < |r| && r[i].typeText == r[j].typeText
      ensures le(r[i].pokemon, r[j].pokemon)
    {
      assert PrivateFirst(le)(r[i], r[j]);
    }
  }

  // ---------------------------------------------------------------------------
  // The list state
  // ---------------------------------------------------------------------------

  /** The state kept for a `!locks` message: only the page, and who ran it where. */
  datatype Board = Board(view: View, authorId: String, guildId: String)

  /** The message for a state, from the list as it is now. */
  function Output(s: Board, list: seq<ListItem>): (r: Rendered<ListItem>)
    ensures r.Gone? <==> |list| == 0
    ensures r.Page? && Fits(s.view, |list|) ==> |r.items| > 0
  {
    Render(list, s.view, LinkIn(s.guildId), Nav)
  }

  /** `generateListOutput`: rebuild the guild's list and fit the page; an empty list deletes the message. */
  function Regenerate(s: Board, page: nat, cache: ChannelCache, entries: LockedChannels, le: (String, String) -> bool)
    : (r: Reaction<Board>)
    requires TotalPreorder(le)
    ensures r.Deleted? || r.Saved?
    ensures r.Deleted? <==> |Lines(cache, s.guildId, entries, le)| == 0
    ensures r.Saved? ==> (
      && r.state.view == Refit(page, |Lines(cache, s.guildId, entries, le)|)
      && r.state.authorId == s.authorId && r.state.guildId == s.guildId
      && Output(r.state, Lines(cache, s.guildId, entries, le)).Page?
      && |Output(r.state, Lines(cache, s.guildId, entries, le)).items| > 0)
  {
    var list := Lines(cache, s.guildId, entries, le);
    if |list| == 0 then Deleted else Saved(s.(view := Refit(page, |list|)))
  }

  /**
   * The exported `updateActiveLists`, for one stored message: the stored page
   * is kept while it still exists and otherwise moves back to the last page;
   * the message goes once no locked channel of the guild is left.
   */
  function Refresh(s: Board, cache: ChannelCache, entries: LockedChannels, le: (String, String) -> bool)
    : (r: Reaction<Board>)
    requires TotalPreorder(le)
    ensures r.Deleted? || r.Saved?
    ensures r.Deleted? <==> forall j :: 0 <= j < |entries| ==> LineOf(cache, s.guildId, entries[j]).None?
    ensures r.Saved? ==> r.state.authorId == s.authorId && r.state.guildId == s.guildId
    ensures r.Saved? ==> Fits(r.state.view, |Lines(cache, s.guildId, entries, le)|) && r.state.view.page <= s.view.page
    ensures r.Saved? && s.view.page < r.state.view.totalPages ==> r.state.view.page == s.view.page
  {
    Regenerate(s, s.view.page, cache, entries, le)
  }

  /** Refreshing a refreshed state with an unchanged record saves the same state again. */
  lemma RefreshStable(s: Board, cache: ChannelCache, entries: LockedChannels, le: (String, String) -> bool)
    requires TotalPreorder(le)
    requires Refresh(s, cache, entries, le).Saved?
    ensures Refresh(Refresh(s, cache, entries, le).state, cache, entries, le) == Refresh(s, cache, entries, le)
  {
    var n := |Lines(cache, s.guildId, entries, le)|;
    ClampIdempotent(s.view.page, TotalPages(n, PerPage));
  }

  // ---------------------------------------------------------------------------
  // The command and its buttons
  // ---------------------------------------------------------------------------

  datatype Start =
    | NoPermission            // the author is not an administrator
    | Empty                   // "no locked channels in this guild"
    | Started(state: Board)   // stored under the reply's id

  /** `execute`: the state of a new `!locks` message, or why there is none. */
  function Execute(admin: bool, authorId: String, guildId: String, cache: ChannelCache,
                   entries: LockedChannels, le: (String, String) -> bool): (r: Start)
    requires TotalPreorder(le)
    ensures r.NoPermission? <==> !admin
    ensures r.Empty? <==> admin && forall j :: 0 <= j < |entries| ==> LineOf(cache, guildId, entries[j]).None?
    ensures r.Started? ==> (
      && r.state.view.page == 0 && r.state.authorId == authorId && r.state.guildId == guildId
      && Fits(r.state.view, |Lines(cache, guildId, entries, le)|)
      && Output(r.state, Lines(cache, guildId, entries, le)).Page?)
  {
    if !admin then NoPermission
    else
      match Regenerate(Board(View(0, 0), authorId, guildId), 0, cache, entries, le)
      case Saved(s) => Started(s)
      case _ => Empty
  }

  /**
   * `handlePagination`: anyone may close or turn a page within range; a
   * turn rebuilds the list from the record.
   */
  function HandlePress(s: Board, customId: String, cache: ChannelCache, entries: LockedChannels,
                       le: (String, String) -> bool): (r: Reaction<Board>)
    requires TotalPreorder(le)
    ensures !r.Expired? && !r.Refused?
    ensures customId == Nav.closeId ==> r.Deleted?
    ensures r.Ignored? <==> (customId != Nav.closeId
      && GuardedStep(s.view.page, s.view.totalPages, PressOf(Nav, customId)).None?)
    ensures r.Deleted? && customId != Nav.closeId ==> |Lines(cache, s.guildId, entries, le)| == 0
    ensures r.Saved? ==> r == Regenerate(s,
      GuardedStep(s.view.page, s.view.totalPages, PressOf(Nav, customId)).value, cache, entries, le)
  {
    if customId == Nav.closeId then Deleted
    else
      match GuardedStep(s.view.page, s.view.totalPages, PressOf(Nav, customId))
      case None => Ignored
      case Some(p) => Regenerate(s, p, cache, entries, le)
  }

  /** A turn within range while the guild still has a locked channel shows a page of the rebuilt list. */
  lemma TurnShowsPage(s: Board, customId: String, cache: ChannelCache, entries: LockedChannels,
                      le: (String, String) -> bool)
    requires TotalPreorder(le)
    requires customId != Nav.closeId && GuardedStep(s.view.page, s.view.totalPages, PressOf(Nav, customId)).Some?
    requires exists j :: 0 <= j < |entries| && LineOf(cache, s.guildId, entries[j]).Some?
    ensures HandlePress(s, customId, cache, entries, le).Saved?
    ensures Fits(HandlePress(s, customId, cache, entries, le).state.view, |Lines(cache, s.guildId, entries, le)|)
  {
    var j :| 0 <= j < |entries| && LineOf(cache, s.guildId, entries[j]).Some?;
    assert |Lines(cache, s.guildId, entries, le)| > 0;
  }

  /**
   * `handlePagination` as `index.js` calls it: the dependencies it is handed
   * hold no `lockedChannels`, so the list is rebuilt from nothing and every
   * turn within range deletes the message.
   */
  function HandlePressAsWired(s: Board, customId: String, cache: ChannelCache, le: (String, String) -> bool)
    : (r: Reaction<Board>)
    requires TotalPreorder(le)
    ensures !r.Saved?
    ensures r.Deleted? <==> (customId == Nav.closeId
      || GuardedStep(s.view.page, s.view.totalPages, PressOf(Nav, customId)).Some?)
  {
    HandlePress(s, customId, cache, [], le)
  }
}

=== FILE: help.dfy ===
/**
 * `!help`: a direct lookup of one command, or an interactive menu with one
 * button per command that switches between the list and a command's
 * details.
 */
module Help {
  import opened Wrappers
  import opened Text
  import opened Collections
  import opened Paging

  const MenuButtonsPerRow: nat := 3
  const CommandIdPrefix: String := "help_cmd_"
  const CloseId: String := "help_close"
  const BackId: String := "help_back"

  /** What the help shows for a command; `aliases` is empty for every command of the catalogue. */
  datatype CommandInfo = CommandInfo(
    key: String, description: String, usage: String, examples: seq<String>, aliases: seq<String>)

  function Info(key: String, description: String, usage: String, examples: seq<String>): CommandInfo {
    CommandInfo(key, description, usage, examples, [])
  }

  /** The catalogue of documented commands, in declaration order. */
  const Catalogue: seq<CommandInfo> := [
    Info("help", "Muestra esta lista de comandos", "!help [comando]", ["!help", "!help lb"]),
    Info("lb", "Menú interactivo para  marcar nombres para bloquear los spawns Pokémon",
      "!lb [nombre_pokemon]", ["!lb", "!lb rayquaza"]),
    Info("locklist", "Muestra los canales bloqueados (GLOBAL)", "!locklist", ["!locklist"]),
    Info("locks", "Muestra los canales bloqueados SOLO en este servidor", "!locks", ["!locks"]),
    Info("role", "Establece el rol a mencionar en bloqueos", "!role @rol", ["!role @Staff"]),
    Info("log", "Establece el canal para logs", "!log #canal", ["!log #logs"]),
    Info("lock", "Bloquea manualmente un canal de spawn y le asigna un nombre", "!lock [#canal] <nombre>",
      ["!lock", "!lock #canal2 Zygarde", "!lock Jirachi"]),
    Info("unlock", "Desbloquea manualmente un canal de spawn", "!unlock [#canal]", ["!unlock", "!unlock #canal2"]),
    Info("ls", "Busca canales bloqueados por un Pokémon específico en este servidor", "!ls <nombre>",
      ["!ls zygarde", "!ls pikachu"]),
    Info("ts", "Muestra el ranking de todos los Pokémon con canales bloqueados", "!ts", ["!ts"]),
    Info("spawn", "Busca un Pokémon en los últimos spawns del servidor actual", "!spawn <nombre>",
      ["!spawn rayquaza", "!spawn jirachi"]),
    Info("stats", "Muestra estadísticas avanzadas del bot (servidores, usuarios, canales bloqueados)", "!stats",
      ["!stats"])
  ]

  function Keys(catalogue: seq<CommandInfo>): (r: seq<String>)
    ensures |r| == |catalogue|
    ensures forall i :: 0 <= i < |catalogue| ==> r[i] == catalogue[i].key
  {
    seq(|catalogue|, i requires 0 <= i < |catalogue| => catalogue[i].key)
  }

  /** The keys of an object are distinct. */
  lemma CatalogueKeysDistinct()
    ensures Distinct(Keys(Catalogue))
  {
    var ks := Keys(Catalogue);
    assert ks == ["help", "lb", "locklist", "locks", "role", "log", "lock", "unlock", "ls", "ts", "spawn", "stats"];
  }

  // ---------------------------------------------------------------------------
  // Looking a command up
  // ---------------------------------------------------------------------------

  /** `COMMANDS_INFO[key]`. */
  function Entry(catalogue: seq<CommandInfo>, key: String): (r: Option<CommandInfo>)
    ensures r.Some? <==> key in Keys(catalogue)
    ensures r.Some? ==> r.value in catalogue && r.value.key == key
  {
    match FirstWhere(catalogue, (c: CommandInfo) => c.key == key, 0)
    case Some(i) => Some(catalogue[i])
    case None =>
      assert forall i :: 0 <= i < |catalogue| ==> Keys(catalogue)[i] != key;
      None
  }

  /** The first command whose key, or one of whose aliases, is `query`. */
  function Find(catalogue: seq<CommandInfo>, query: String): (r: Option<String>)
    ensures r.Some? <==> exists i :: 0 <= i < |catalogue| && (catalogue[i].key == query || query in catalogue[i].aliases)
    ensures r.Some? ==> r.value in Keys(catalogue)
  {
    match FirstWhere(catalogue, (c: CommandInfo) => c.key == query || query in c.aliases, 0)
    case Some(i) => Some(catalogue[i].key)
    case None => None
  }

  /** Without aliases, a lookup succeeds exactly for a documented key and finds that key. */
  lemma LookupIsByKey(catalogue: seq<CommandInfo>, query: String)
    requires forall i :: 0 <= i < |catalogue| ==> catalogue[i].aliases == []
    ensures Find(catalogue, query) == (if query in Keys(catalogue) then Some(query) else None)
  {
    if query in Keys(catalogue) {
      var i :| 0 <= i < |catalogue| && Keys(catalogue)[i] == query;
      assert catalogue[i].key == query;
    }
  }

  /** No command of the catalogue has an alias, so its lookups are by key alone. */
  lemma CatalogueLookup(query: String)
    ensures Find(Catalogue, query) == (if query in Keys(Catalogue) then Some(query) else None)
  {
    CatalogueWithoutAliases();
    LookupIsByKey(Catalogue, query);
  }

  /** Every command of the catalogue is built by `Info`, which gives it no alias. */
  lemma CatalogueWithoutAliases()
    ensures forall i :: 0 <= i < |Catalogue| ==> Catalogue[i].aliases == []
  {
  }

  datatype Embed = Embed(title: String, fields: seq<(String, String)>)

  /** `generateCommandEmbed`: the details of a command; `None` (`null`) for a key that is not documented. */
  function CommandEmbed(catalogue: seq<CommandInfo>, key: String): (r: Option<Embed>)
    ensures r.None? <==> key !in Keys(catalogue)
    ensures r.Some? ==> r.value.title == "Ayuda para: !" + key
    ensures r.Some? ==> 3 <= |r.value.fields| <= 4 && r.value.fields[0].0 == "Descripción"
  {
    match Entry(catalogue, key)
    case None => None
    case Some(cmd) =>
      var examples := seq(|cmd.examples|, i requires 0 <= i < |cmd.examples| => "`" + cmd.examples[i] + "`");
      var fields := [("Descripción", cmd.description), ("Uso", "`" + cmd.usage + "`"), ("Ejemplos", Join(examples, '\n'))];
      Some(Embed("Ayuda para: !" + key, fields + (if |cmd.aliases| > 0 then [("Alias", JoinWith(cmd.aliases, ", "))] else [])))
  }

  /** `parts.join(sep)` for a separator of any length. */
  function JoinWith(parts: seq<String>, sep: String): String
    decreases |parts|
  {
    if |parts| == 0 then []
    else if |parts| == 1 then parts[0]
    else parts[0] + sep + JoinWith(parts[1..], sep)
  }

  // ---------------------------------------------------------------------------
  // The menu
  // ---------------------------------------------------------------------------

  function CommandButton(key: String): Button {
    Action(CommandIdPrefix + key, "!" + key, false)
  }

  const CloseRow: seq<Button> := [Action(CloseId, "\U{274C} Cerrar Menú", false)]

  /** The buttons under a command's details. */
  const DetailRow: seq<Button> := [Action(BackId, "\U{1F519} Volver a la Lista", false), Action(CloseId, "\U{274C} Cerrar", false)]

  function CommandButtons(catalogue: seq<CommandInfo>): (r: seq<Button>)
    ensures |r| == |catalogue|
    ensures forall i :: 0 <= i < |catalogue| ==> r[i] == CommandButton(catalogue[i].key)
  {
    seq(|catalogue|, i requires 0 <= i < |catalogue| => CommandButton(catalogue[i].key))
  }

  /**
   * `generateMenuButtons`: one button per command in catalogue order, in rows
   * of three, then a row with the close button.
   */
  method MenuRows(catalogue: seq<CommandInfo>) returns (rows: seq<seq<Button>>)
    ensures |rows| >= 1 && rows[|rows| - 1] == CloseRow
    ensures Flatten(rows[..|rows| - 1]) == CommandButtons(catalogue)
    ensures forall k :: 0 <= k < |rows| - 1 ==> 0 < |rows[k]| <= MenuButtonsPerRow
    ensures forall k :: 0 <= k < |rows| - 2 ==> |rows[k]| == MenuButtonsPerRow
    ensures |rows| - 1 == CeilDiv(|catalogue|, MenuButtonsPerRow)
  {
    var buttons := CommandButtons(catalogue);
    var keyRows := RowsCheckingFirst(buttons, MenuButtonsPerRow);
    ChunkCount(buttons, MenuButtonsPerRow);
    rows := keyRows + [CloseRow];
    assert rows[..|rows| - 1] == keyRows;
  }

  // ---------------------------------------------------------------------------
  // The command and its buttons
  // ---------------------------------------------------------------------------

  datatype Mode = Menu | Detail

  /** The state of a help menu: its mode, who opened it, and the command shown last. */
  datatype HelpState = HelpState(mode: Mode, user: String, currentCommand: Option<String>)

  datatype Start =
    | NoInfo(query: String)       // the argument names no documented command
    | Shown(embed: Embed)         // the details, without buttons
    | Opened(state: HelpState)    // the menu, stored under the reply's id

  /** `execute`: with an argument, look it up lower-cased; without, open the menu. */
  function Execute(catalogue: seq<CommandInfo>, args: seq<String>, authorId: String): (r: Start)
    ensures r.Opened? <==> |args| == 0
    ensures r.Opened? ==> r.state == HelpState(Menu, authorId, None)
    ensures r.NoInfo? <==> |args| > 0 && Find(catalogue, ToLower(args[0])).None?
    ensures r.NoInfo? ==> r.query == args[0]
    ensures r.Shown? ==> CommandEmbed(catalogue, Find(catalogue, ToLower(args[0])).value) == Some(r.embed)
  {
    if |args| > 0 then
      match Find(catalogue, ToLower(args[0]))
      case None => NoInfo(args[0])
      case Some(key) => Shown(CommandEmbed(catalogue, key).value)
    else Opened(HelpState(Menu, authorId, None))
  }

  /** What a press does to a help message. */
  datatype Reply =
    | SessionExpired                          // no state: "session expired"
    | NotAuthor                               // not the author
    | Closed                                  // the state and the message are deleted
    | MenuShown(state: HelpState)             // back to the list
    | DetailShown(state: HelpState, embed: Embed)
    | UnknownCommand                          // "command not found"; the state is kept
    | Untouched                               // any other id: only the inactivity timer restarts

  /** The command a `help_cmd_<key>` id names. */
  function PressedCommand(customId: String): (r: Option<String>)
    ensures r.Some? <==> StartsWith(customId, CommandIdPrefix)
    ensures r.Some? ==> customId == CommandIdPrefix + r.value
  {
    if StartsWith(customId, CommandIdPrefix) then Some(customId[|CommandIdPrefix|..]) else None
  }

  /** `handleInteraction`. */
  function HandleInteraction(catalogue: seq<CommandInfo>, state: Option<HelpState>, customId: String, userId: String)
    : (r: Reply)
    ensures r.SessionExpired? <==> state.None?
    ensures r.NotAuthor? <==> state.Some? && userId != state.value.user
    ensures r.Closed? <==> state.Some? && userId == state.value.user && customId == CloseId
    ensures r.MenuShown? <==> state.Some? && userId == state.value.user && customId == BackId
    ensures r.MenuShown? ==> r.state == state.value.(mode := Menu)
    ensures r.DetailShown? ==> (
      && PressedCommand(customId).Some? && PressedCommand(customId).value in Keys(catalogue)
      && r.state == state.value.(mode := Detail, currentCommand := PressedCommand(customId))
      && Some(r.embed) == CommandEmbed(catalogue, PressedCommand(customId).value))
    ensures r.UnknownCommand? ==> PressedCommand(customId).Some? && PressedCommand(customId).value !in Keys(catalogue)
  {
    match state
    case None => SessionExpired
    case Some(s) =>
      if userId != s.user then NotAuthor
      else if customId == CloseId then Closed
      else if customId == BackId then MenuShown(s.(mode := Menu))
      else
        match PressedCommand(customId)
        case None => Untouched
        case Some(key) =>
          match CommandEmbed(catalogue, key)
          case None => UnknownCommand
          case Some(embed) => DetailShown(s.(mode := Detail, currentCommand := Some(key)), embed)
  }

  /** Every command button of the menu opens that command's details for its author. */
  lemma MenuButtonsOpenDetails(catalogue: seq<CommandInfo>, s: HelpState, i: nat)
    requires i < |catalogue|
    ensures var r := HandleInteraction(catalogue, Some(s), CommandButtons(catalogue)[i].customId, s.user);
      && r.DetailShown?
      && r.state == s.(mode := Detail, currentCommand := Some(catalogue[i].key))
      && Some(r.embed) == CommandEmbed(catalogue, catalogue[i].key)
  {
    var id := CommandIdPrefix + catalogue[i].key;
    assert id[6] == 'm';
    assert id != CloseId && id != BackId;
    assert StartsWith(id, CommandIdPrefix);
    assert id[|CommandIdPrefix|..] == catalogue[i].key;
    assert Keys(catalogue)[i] == catalogue[i].key;
  }

  /** Back, then a command, then back again returns to the menu with the last command remembered. */
  lemma BackAfterDetail(catalogue: seq<CommandInfo>, s: HelpState, i: nat)
    requires i < |catalogue|
    ensures var d := HandleInteraction(catalogue, Some(s), CommandButtons(catalogue)[i].customId, s.user);
      d.DetailShown? && HandleInteraction(catalogue, Some(d.state), BackId, s.user)
        == MenuShown(HelpState(Menu, s.user, Some(catalogue[i].key)))
  {
    MenuButtonsOpenDetails(catalogue, s, i);
  }
}

=== FILE: listing.dfy ===
/**
 * What the lock-list commands (`gls`, `ls`, `locklist`, `locks`) share: fifteen
 * items to a page, link buttons five to a row, the page fitted to a fresh
 * list, the rendered page, and JavaScript's default order on channel ids.
 */
module Listing {
  import opened Wrappers
  import opened Text
  import opened Collections
  import opened Paging
  import opened Locks

  const PerPage: nat := 15
  const LinksPerRow: nat := 5

  /** The page and page count a list state stores. */
  datatype View = View(page: nat, totalPages: nat)

  /** The page count is that of `n` items, and the page is one that exists (0 when there are none). */
  predicate Fits(v: View, n: nat) {
    v.totalPages == TotalPages(n, PerPage) && v.page == ClampPage(v.page, v.totalPages)
  }

  /** `Math.ceil(n / 15)` and the clamp of the stored page after the list was rebuilt with `n` items. */
  function Refit(page: nat, n: nat): (v: View)
    ensures Fits(v, n)
    ensures page < v.totalPages ==> v.page == page
    ensures v.page <= page
    ensures n > 0 ==> v.page * PerPage < n
  {
    var tp := TotalPages(n, PerPage);
    var v := View(ClampPage(page, tp), tp);
    PageNonEmpty(n, PerPage, v.page);
    v
  }

  /** A guarded prev/next press moves to a page that exists and keeps the page count. */
  lemma StepFits(v: View, n: nat, press: Press)
    requires Fits(v, n) && GuardedStep(v.page, v.totalPages, press).Some?
    ensures Fits(View(GuardedStep(v.page, v.totalPages, press).value, v.totalPages), n)
  {
  }

  /** A rendered list message: nothing (the message goes) or one page of it. */
  datatype Rendered<T> =
    | Gone
    | Page(items: seq<T>, start: nat, links: seq<seq<Button>>, nav: seq<Button>)

  /** The link buttons of a page: item `i` gets number `start + i + 1`. */
  function PageLinks<T>(items: seq<T>, start: nat, link: (T, nat) -> Button): (r: seq<Button>)
    ensures |r| == |items|
    ensures forall i :: 0 <= i < |items| ==> r[i] == link(items[i], start + i + 1)
  {
    seq(|items|, i requires 0 <= i < |items| => link(items[i], start + i + 1))
  }

  /**
   * The message for a list: nothing when it is empty; otherwise the slice of
   * the current page, its link buttons in rows of five, and the navigation row.
   */
  function Render<T>(list: seq<T>, v: View, link: (T, nat) -> Button, nav: NavStyle): (r: Rendered<T>)
    ensures r.Gone? <==> |list| == 0
    ensures r.Page? ==> r.start == v.page * PerPage
    ensures r.Page? ==> |r.items| <= PerPage
    ensures r.Page? ==> forall i :: 0 <= i < |r.items| ==> r.start + i < |list| && r.items[i] == list[r.start + i]
    ensures r.Page? && Fits(v, |list|) ==> |r.items| > 0
    ensures r.Page? ==> IsChunking(r.links, PageLinks(r.items, r.start, link), LinksPerRow)
    ensures r.Page? ==> r.nav == PaginationRow(v.page, v.totalPages, nav)
  {
    if |list| == 0 then Gone
    else
      var items := PageSlice(list, v.page, PerPage);
      var start := v.page * PerPage;
      assert Fits(v, |list|) ==> start < |list| by {
        PageNonEmpty(|list|, PerPage, v.page);
      }
      Page(items, start, Chunk(PageLinks(items, start, link), LinksPerRow), PaginationRow(v.page, v.totalPages, nav))
  }

  /** Pages shown one after the other, from 0 to the last, show every item exactly once and in order. */
  lemma PagesCoverList<T>(list: seq<T>)
    ensures IsChunking(Pages(list, PerPage), list, PerPage)
  {
    PagesAreChunking(list, PerPage);
  }

  /** `#<n>`: the caption of a numbered link. */
  function NumberCaption(n: nat): (r: String)
    ensures |r| >= 2 && r[0] == '#' && AllDigits(r[1..]) && DigitsValue(r[1..]) == n
  {
    var digits := NatToString(n);
    assert ("#" + digits)[1..] == digits;
    "#" + digits
  }

  /** The numbered link to a channel of the guild the list belongs to. */
  function NumberedLink(guildId: String, channelId: String, n: nat): Button {
    Link(NumberCaption(n), ChannelUrl(guildId, channelId))
  }

  /** The position of the first term contained in the lower-cased name. */
  function MatchedTerm(terms: seq<String>, pokemon: String): (r: Option<nat>)
    ensures r.Some? ==> r.value < |terms| && Contains(ToLower(pokemon), terms[r.value])
    ensures r.Some? ==> forall k :: 0 <= k < r.value ==> !Contains(ToLower(pokemon), terms[k])
    ensures r.None? <==> forall k :: 0 <= k < |terms| ==> !Contains(ToLower(pokemon), terms[k])
  {
    var lower := ToLower(pokemon);
    FirstWhere(terms, (t: String) => Contains(lower, t), 0)
  }

  /** The press a button's custom id stands for. */
  function PressOf(nav: NavStyle, customId: String): (r: Press)
    ensures r.PrevPress? <==> customId == nav.prevId
    ensures r.NextPress? <==> customId == nav.nextId && customId != nav.prevId
  {
    if customId == nav.prevId then PrevPress
    else if customId == nav.nextId then NextPress
    else OtherPress
  }

  /** `name.charAt(0).toUpperCase() + name.slice(1)`. */
  function Capitalize(name: String): (r: String)
    ensures |r| == |name|
    ensures |name| > 0 ==> r[0] == ToUpperChar(name[0]) && r[1..] == name[1..]
  {
    if |name| == 0 then "" else [ToUpperChar(name[0])] + name[1..]
  }

  /**
   * `getCountSummary`: each searched name, capitalised, beside the count
   * stored under its key (`counts[key] || 0`).
   */
  function Summary(shown: seq<String>, keys: seq<String>, counts: Table<String>): (r: seq<(String, nat)>)
    requires |shown| == |keys|
    ensures |r| == |shown|
    ensures forall i :: 0 <= i < |r| ==> r[i].0 == Capitalize(shown[i])
    ensures forall i :: 0 <= i < |r| ==> r[i].1 == Lookups(keys, counts)[i]
  {
    var n := Lookups(keys, counts);
    seq(|shown|, i requires 0 <= i < |shown| => (Capitalize(shown[i]), n[i]))
  }

  /** The numbers a summary shows. */
  function Shown(summary: seq<(String, nat)>): (r: seq<nat>)
    ensures |r| == |summary| && forall i :: 0 <= i < |r| ==> r[i] == summary[i].1
  {
    seq(|summary|, i requires 0 <= i < |summary| => summary[i].1)
  }

  /** A numbered link to a channel of the guild the command ran in. */
  function LinkIn(guildId: String): (ListItem, nat) -> Button {
    (item: ListItem, n: nat) => NumberedLink(guildId, item.id, n)
  }

  // ---------------------------------------------------------------------------
  // Channel ids in JavaScript's default order
  // ---------------------------------------------------------------------------

  /** The comparator of `ids.sort()`. */
  function IdOrder(): (String, String) -> bool {
    (a: String, b: String) => CodeUnitLe(a, b)
  }

  lemma IdOrderIsOrder()
    ensures TotalPreorder(IdOrder()) && Antisymmetric(IdOrder())
  {
    var le := IdOrder();
    forall a: String, b: String, c: String
      ensures le(a, b) || le(b, a)
      ensures le(a, b) && le(b, c) ==> le(a, c)
      ensures le(a, b) && le(b, a) ==> a == b
    {
      CodeUnitTotal(a, b);
      if le(a, b) && le(b, c) { CodeUnitTransitive(a, b, c); }
      if le(a, b) && le(b, a) { CodeUnitAntisymmetric(a, b); }
    }
  }

  /** `ids.sort().join(',')`: a fingerprint of a list of ids that ignores their order. */
  function IdFingerprint(ids: seq<String>): String {
    IdOrderIsOrder();
    Join(Sort(ids, IdOrder()), ',')
  }

  /**
   * For ids without commas, two lists of the same length have the
   * same fingerprint exactly when they hold the same ids.
   */
  lemma FingerprintIffSameIds(a: seq<String>, b: seq<String>)
    requires |a| == |b|
    requires forall k :: 0 <= k < |a| ==> ',' !in a[k]
    requires forall k :: 0 <= k < |b| ==> ',' !in b[k]
    ensures IdFingerprint(a) == IdFingerprint(b) <==> multiset(a) == multiset(b)
  {
    IdOrderIsOrder();
    var sa := Sort(a, IdOrder());
    var sb := Sort(b, IdOrder());
    if multiset(a) == multiset(b) {
      SortedUnique(sa, sb, IdOrder());
    }
    if IdFingerprint(a) == IdFingerprint(b) && |a| > 0 {
      SortedWithout(a, sa, ',');
      SortedWithout(b, sb, ',');
      SplitJoin(sa, ',');
      SplitJoin(sb, ',');
      assert sa == sb;
    }
  }

  lemma SortedWithout(s: seq<String>, t: seq<String>, c: char)
    requires multiset(t) == multiset(s)
    requires forall k :: 0 <= k < |s| ==> c !in s[k]
    ensures forall k :: 0 <= k < |t| ==> c !in t[k]
  {
    forall k | 0 <= k < |t| ensures c !in t[k] {
      assert t[k] in multiset(s);
      var j :| 0 <= j < |s| && s[j] == t[k];
    }
  }
}

=== FILE: locklist.dfy ===
/**
 * `!locklist`: every locked channel the bot can see, from any guild, sorted
 * by Pokémon and paged fifteen to a message. Page turns show the stored
 * list; the exported refresh function rebuilds it from the record.
 */
module LockList {
  import opened Wrappers
  import opened Text
  import opened Collections
  import opened Paging
  import opened Locks
  import opened Listing

  const Nav: NavStyle := NavStyle(
    "locklist_prev_page", "page_info_locklist_disabled", "locklist_next_page", "locklist_close_list",
    "\U{2B05}\U{FE0F}", "\U{27A1}\U{FE0F}", "\U{274C}")

  // ---------------------------------------------------------------------------
  // Building the list
  // ---------------------------------------------------------------------------

  /** The line of a locked channel when it is cached; these lines carry no guild. */
  function LineOf(cache: ChannelCache, e: (String, LockRecord)): (r: Option<ListItem>)
    ensures r.Some? <==> e.0 in cache
    ensures r.Some? ==> r.value.id == e.0 && r.value.channelName == cache[e.0].name
    ensures r.Some? ==> r.value.pokemon == KnownName(e.1.pokemon) && r.value.typeText == TypeLabel(e.1.lockType)
  {
    if e.0 in cache then Some(ListItem(e.0, cache[e.0].name, "", "", KnownName(e.1.pokemon), TypeLabel(e.1.lockType)))
    else None
  }

  function LineFn(cache: ChannelCache): ((String, LockRecord)) -> Option<ListItem> {
    (e: (String, LockRecord)) => LineOf(cache, e)
  }

  /**
   * The lines of the cached locked channels sorted by Pokémon: exactly one
   * line for each, and none when no locked channel is cached.
   */
  function Lines(cache: ChannelCache, entries: LockedChannels, le: (String, String) -> bool): (r: seq<ListItem>)
    requires TotalPreorder(le)
    ensures SortedBy(r, ByPokemon(le))
    ensures multiset(r) == multiset(FilterMap(entries, LineFn(cache)))
    ensures forall x :: x in r <==> Produces(entries, LineFn(cache), x)
    ensures |r| == 0 <==> forall j :: 0 <= j < |entries| ==> entries[j].0 !in cache
  {
    ByPokemonPreorder(le);
    var kept := FilterMap(entries, LineFn(cache));
    FilterMapMembers(entries, LineFn(cache));
    var r := Sort(kept, ByPokemon(le));
    SameMembers(r, kept);
    FilterMapEmpty(entries, LineFn(cache));
    r
  }

  // ---------------------------------------------------------------------------
  // The list state
  // ---------------------------------------------------------------------------

  /** The state kept for a `!locklist` message: the page, the stored list, and who may turn it. */
  datatype Board = Board(view: View, list: seq<ListItem>, authorId: String, guildId: String)

  /**
   * The page fitting of a refresh: a page past the end moves to the last
   * page; an empty list keeps the page and stores a page count of 1.
   */
  function UpdatedView(page: nat, n: nat): (r: View)
    ensures n > 0 ==> r == Refit(page, n)
    ensures n == 0 ==> r == View(page, 1)
  {
    var tp := TotalPages(n, PerPage);
    if page >= tp && tp > 0 then View(tp - 1, tp)
    else if tp == 0 then View(page, 1)
    else View(page, tp)
  }

  /** The message for a state: nothing for an empty list, else the current page linking into the command's guild. */
  function Output(s: Board): (r: Rendered<ListItem>)
    ensures r.Gone? <==> |s.list| == 0
    ensures r.Page? && Fits(s.view, |s.list|) ==> |r.items| > 0
  {
    Render(s.list, s.view, LinkIn(s.guildId), Nav)
  }

  /** A refresh with the current record: the list is rebuilt and the page fitted; an empty list deletes the message. */
  function Refresh(s: Board, cache: ChannelCache, entries: LockedChannels, le: (String, String) -> bool): (r: Reaction<Board>)
    requires TotalPreorder(le)
    ensures r.Deleted? <==> forall j :: 0 <= j < |entries| ==> entries[j].0 !in cache
    ensures r.Deleted? || r.Saved?
    ensures r.Saved? ==> (
      && r.state.list == Lines(cache, entries, le)
      && r.state.view == Refit(s.view.page, |r.state.list|)
      && r.state.authorId == s.authorId && r.state.guildId == s.guildId
      && Fits(r.state.view, |r.state.list|))
  {
    var list := Lines(cache, entries, le);
    var v := UpdatedView(s.view.page, |list|);
    if |list| == 0 then Deleted else Saved(s.(view := v, list := list))
  }

  // ---------------------------------------------------------------------------
  // The command and its buttons
  // ---------------------------------------------------------------------------

  datatype Start =
    | NoPermission            // the author is not an administrator
    | Empty                   // "no locked channels"
    | Started(state: Board)   // stored under the reply's id

  /** `execute`: the state of a new `!locklist` message, or why there is none. */
  function Execute(admin: bool, authorId: String, guildId: String, cache: ChannelCache,
                   entries: LockedChannels, le: (String, String) -> bool): (r: Start)
    requires TotalPreorder(le)
    ensures r.NoPermission? <==> !admin
    ensures r.Empty? <==> admin && forall j :: 0 <= j < |entries| ==> entries[j].0 !in cache
    ensures r.Started? ==> (
      && r.state.list == Lines(cache, entries, le) && r.state.view.page == 0
      && Fits(r.state.view, |r.state.list|) && Output(r.state).Page?
      && r.state.authorId == authorId && r.state.guildId == guildId)
  {
    if !admin then NoPermission
    else
      var list := Lines(cache, entries, le);
      if |list| == 0 then Empty
      else Started(Board(View(0, TotalPages(|list|, PerPage)), list, authorId, guildId))
  }

  /**
   * `handlePagination`: no state means the list expired; only the author may
   * use the buttons; close deletes; a page turn within range shows the
   * stored list at the new page.
   */
  function HandlePress(state: Option<Board>, customId: String, userId: String): (r: Reaction<Board>)
    ensures r.Expired? <==> state.None?
    ensures r.Refused? <==> state.Some? && userId != state.value.authorId
    ensures r.Deleted? <==> state.Some? && userId == state.value.authorId && customId == Nav.closeId
    ensures r.Ignored? <==> (state.Some? && userId == state.value.authorId && customId != Nav.closeId
      && GuardedStep(state.value.view.page, state.value.view.totalPages, PressOf(Nav, customId)).None?)
    ensures r.Saved? ==> (
      && r.state.list == state.value.list && r.state.authorId == state.value.authorId
      && r.state.guildId == state.value.guildId
      && r.state.view.totalPages == state.value.view.totalPages
      && (r.state.view.page + 1 == state.value.view.page || r.state.view.page == state.value.view.page + 1))
  {
    match state
    case None => Expired
    case Some(s) =>
      if userId != s.authorId then Refused
      else if customId == Nav.closeId then Deleted
      else
        match GuardedStep(s.view.page, s.view.totalPages, PressOf(Nav, customId))
        case None => Ignored
        case Some(p) => Saved(s.(view := View(p, s.view.totalPages)))
  }

  /** Every state this command stores fits its list, so every page it shows has lines. */
  predicate Sound(s: Board) {
    Fits(s.view, |s.list|) && |s.list| > 0
  }

  /** A stored state stays sound under every press and every refresh that keeps it. */
  lemma StatesStaySound(s: Board, customId: String, userId: String, cache: ChannelCache,
                        entries: LockedChannels, le: (String, String) -> bool)
    requires TotalPreorder(le)
    requires Sound(s)
    ensures var r := HandlePress(Some(s), customId, userId);
      r.Saved? ==> Sound(r.state) && |Output(r.state).items| > 0
    ensures var r := Refresh(s, cache, entries, le);
      r.Saved? ==> Sound(r.state) && |Output(r.state).items| > 0
  {
    var r := HandlePress(Some(s), customId, userId);
    if r.Saved? {
      StepFits(s.view, |s.list|, PressOf(Nav, customId));
    }
  }
}

=== FILE: locks.dfy ===
/**
 * The records the bot keeps: the lock status of each Pokémon, the channels it
 * has locked, and the channels and guilds the Discord client has cached.
 */
module Locks {
  import opened Wrappers
  import opened Text
  import opened Collections

  /** An entry of the lock status file: whether a Pokémon is locked, and how (`public`/`private`). */
  datatype LockStatus = LockStatus(isLocked: bool, lockType: String)

  /**
   * An entry of the locked-channel map: the lock type and the Pokémon the
   * channel was locked for. A missing name is the empty string, which
   * JavaScript treats as false just like a missing one.
   */
  datatype LockRecord = LockRecord(lockType: String, pokemon: String)

  datatype Guild = Guild(id: String, name: String)

  /** A cached channel: its name, its Discord type (0 is a text channel) and its guild, if any. */
  datatype Channel = Channel(name: String, kind: nat, guild: Option<Guild>)

  /** The lock status file, key by key in file order. */
  type StatusTable = Assoc<String, LockStatus>

  /** The locked channels by channel id, in insertion order. */
  type LockedChannels = Assoc<String, LockRecord>

  /** The client's channel cache by channel id. */
  type ChannelCache = map<String, Channel>

  const PrivateType: String := "private"

  /** The label a list shows for a lock type. */
  function TypeLabel(lockType: String): (r: String)
    ensures r == "Privado" <==> lockType == PrivateType
    ensures r == "Privado" || r == "Público"
  {
    if lockType == PrivateType then "Privado" else "Público"
  }

  /** `pokemon || 'Desconocido'`. */
  function KnownName(pokemon: String): (r: String)
    ensures |r| > 0
    ensures pokemon != [] ==> r == pokemon
  {
    if pokemon == [] then "Desconocido" else pokemon
  }

  /** One line of a lock list, as the list commands build it; `typeText` is the type as the list shows it. */
  datatype ListItem = ListItem(
    id: String, channelName: String, guildId: String, guildName: String,
    pokemon: String, typeText: String)

  /** The order of `a.pokemon.localeCompare(b.pokemon)`, from an order on names. */
  function ByPokemon(le: (String, String) -> bool): (ListItem, ListItem) -> bool {
    (a: ListItem, b: ListItem) => le(a.pokemon, b.pokemon)
  }

  lemma ByPokemonPreorder(le: (String, String) -> bool)
    requires TotalPreorder(le)
    ensures TotalPreorder(ByPokemon(le))
  {
    var order := ByPokemon(le);
    forall a: ListItem, b: ListItem, c: ListItem
      ensures order(a, b) || order(b, a)
      ensures order(a, b) && order(b, c) ==> order(a, c)
    {
      assert order(a, b) == le(a.pokemon, b.pokemon);
      assert order(b, c) == le(b.pokemon, c.pokemon);
      assert order(a, c) == le(a.pokemon, c.pokemon);
      assert order(b, a) == le(b.pokemon, a.pokemon);
    }
  }

  /** The ids of a list, in order. */
  function Ids(items: seq<ListItem>): (r: seq<String>)
    ensures |r| == |items| && forall i :: 0 <= i < |items| ==> r[i] == items[i].id
  {
    seq(|items|, i requires 0 <= i < |items| => items[i].id)
  }
}

=== FILE: ls.dfy ===
/**
 * `!ls`: the channels of the current guild locked for any of several
 * Pokémon, in record order, with a count per search term, paged fifteen to
 * a message and rebuilt from the record on every page turn and refresh.
 */
module LocalSearch {
  import opened Wrappers
  import opened Text
  import opened Collections
  import opened Paging
  import opened Locks
  import opened Listing

  const Nav: NavStyle := NavStyle(
    "ls_prev_page", "page_info_ls_disabled", "ls_next_page", "ls_close_list",
    "Anterior", "Siguiente", "\U{274C} Cerrar")

  // ---------------------------------------------------------------------------
  // Search terms
  // ---------------------------------------------------------------------------

  /** `args.join(' ').trim()`: the text after the command. */
  function SearchText(args: seq<String>): (r: String)
    ensures NoEdgeSpace(r)
    ensures forall ch :: ch in r ==> ch in Join(args, ' ')
  {
    Trim(Join(args, ' '))
  }

  /** The text split at commas, each piece trimmed and empty pieces dropped; the case is kept. */
  function SearchTerms(args: seq<String>): (r: seq<String>)
    ensures forall k :: 0 <= k < |r| ==> |r[k]| > 0 && NoEdgeSpace(r[k]) && ',' !in r[k]
    ensures |SearchText(args)| == 0 ==> |r| == 0
  {
    var parts := Split(SearchText(args), ',');
    TrimmedPiecesWithout(parts, ',');
    TrimmedPieces(parts)
  }

  /** A comma-separated list of trimmed names is read back as those names, case and all. */
  lemma SearchTermsOfList(names: seq<String>)
    requires |names| > 0
    requires forall k :: 0 <= k < |names| ==> |names[k]| > 0 && NoEdgeSpace(names[k]) && ',' !in names[k]
    ensures SearchTerms([Join(names, ',')]) == names
  {
    var text := Join(names, ',');
    assert Join([text], ' ') == text;
    JoinEdges(names, ',');
    assert NoEdgeSpace(text);
    SplitJoin(names, ',');
    TrimmedPiecesKeep(names);
  }

  /** `searchTerms.map(t => t.toLowerCase())`. */
  function LowerTerms(terms: seq<String>): (r: seq<String>)
    ensures |r| == |terms|
    ensures forall k :: 0 <= k < |terms| ==> r[k] == ToLower(terms[k])
  {
    seq(|terms|, k requires 0 <= k < |terms| => ToLower(terms[k]))
  }

  // ---------------------------------------------------------------------------
  // Building the list
  // ---------------------------------------------------------------------------

  /** A locked channel that is cached, belongs to guild `guildId` and has a Pokémon name. */
  predicate InGuild(cache: ChannelCache, guildId: String, e: (String, LockRecord)) {
    && e.0 in cache && cache[e.0].guild.Some? && cache[e.0].guild.value.id == guildId
    && e.1.pokemon != ""
  }

  /** A locked channel of the guild whose lower-cased Pokémon contains some lower-cased term. */
  predicate Listed(cache: ChannelCache, guildId: String, terms: seq<String>, e: (String, LockRecord)) {
    && InGuild(cache, guildId, e)
    && exists k :: 0 <= k < |terms| && Contains(ToLower(e.1.pokemon), ToLower(terms[k]))
  }

  /** The list line of a locked channel: its record's Pokémon and type as stored. */
  function ItemOf(cache: ChannelCache, e: (String, LockRecord)): ListItem
    requires e.0 in cache && cache[e.0].guild.Some?
  {
    var channel := cache[e.0];
    var guild := channel.guild.value;
    ListItem(e.0, channel.name, guild.id, guild.name, e.1.pokemon, e.1.lockType)
  }

  /**
   * The list and two count tables: `counts` under the lower-cased term each
   * channel matched first, and `byName` under the lower-cased Pokémon name,
   * which is what the command keeps.
   */
  datatype Tally = Tally(items: seq<ListItem>, counts: Table<String>, byName: Table<String>)

  /** One more channel taken: its line appended, one more under its term and one more under its name. */
  function Counted(prior: Tally, key: String, name: String, item: ListItem): (r: Tally)
    ensures r.items == prior.items + [item]
    ensures Sum(r.counts) == Sum(prior.counts) + 1 && Sum(r.byName) == Sum(prior.byName) + 1
    ensures KeySet(r.counts) == KeySet(prior.counts) + {key}
    ensures DistinctKeys(prior.counts) ==> DistinctKeys(r.counts)
  {
    SumBump(prior.counts, key);
    SumBump(prior.byName, name);
    Tally(prior.items + [item],
          Set(prior.counts, key, Get(prior.counts, key) + 1),
          Set(prior.byName, name, Get(prior.byName, name) + 1))
  }

  /** `getLockedChannelsInGuild`: the matching channels in record order, each taken once. */
  function Scan(cache: ChannelCache, guildId: String, terms: seq<String>, entries: LockedChannels): (r: Tally)
    ensures Sum(r.counts) == |r.items| && Sum(r.byName) == |r.items|
    ensures DistinctKeys(r.counts)
    ensures forall t :: t in KeySet(r.counts) ==> t in LowerTerms(terms)
    ensures |r.items| <= |entries|
    decreases |entries|
  {
    if |entries| == 0 then Tally([], [], [])
    else
      var e := entries[|entries| - 1];
      var prior := Scan(cache, guildId, terms, entries[..|entries| - 1]);
      if InGuild(cache, guildId, e) then
        match MatchedTerm(LowerTerms(terms), e.1.pokemon)
        case Some(k) => Counted(prior, LowerTerms(terms)[k], ToLower(e.1.pokemon), ItemOf(cache, e))
        case None => prior
      else prior
  }

  /** `x` is the line of some locked channel that is listed. */
  predicate FromRecord(cache: ChannelCache, guildId: String, terms: seq<String>, entries: LockedChannels, x: ListItem) {
    exists j :: 0 <= j < |entries| && Listed(cache, guildId, terms, entries[j]) && x == ItemOf(cache, entries[j])
  }

  /** Whether a channel is taken, and what its line is. */
  lemma ScanStep(cache: ChannelCache, guildId: String, terms: seq<String>, entries: LockedChannels)
    requires |entries| > 0
    ensures var e := entries[|entries| - 1];
      var items := Scan(cache, guildId, terms, entries[..|entries| - 1]).items;
      var r := Scan(cache, guildId, terms, entries).items;
      (Listed(cache, guildId, terms, e) ==> r == items + [ItemOf(cache, e)])
      && (!Listed(cache, guildId, terms, e) ==> r == items)
  {
    var e := entries[|entries| - 1];
    if InGuild(cache, guildId, e) {
      var lower := LowerTerms(terms);
      assert (exists k :: 0 <= k < |terms| && Contains(ToLower(e.1.pokemon), ToLower(terms[k])))
        <==> (exists k :: 0 <= k < |lower| && Contains(ToLower(e.1.pokemon), lower[k]));
    }
  }

  /** Every line comes from a listed locked channel. */
  lemma {:induction false} ScanSound(cache: ChannelCache, guildId: String, terms: seq<String>, entries: LockedChannels)
    ensures forall x :: x in Scan(cache, guildId, terms, entries).items ==> FromRecord(cache, guildId, terms, entries, x)
    decreases |entries|
  {
    if |entries| > 0 {
      var front := entries[..|entries| - 1];
      var e := entries[|entries| - 1];
      ScanSound(cache, guildId, terms, front);
      ScanStep(cache, guildId, terms, entries);
      var items := Scan(cache, guildId, terms, front).items;
      var r := Scan(cache, guildId, terms, entries).items;
      forall x | x in r ensures FromRecord(cache, guildId, terms, entries, x) {
        if x in items {
          EarlierFromRecord(cache, guildId, terms, entries, x);
        } else {
          LastFromRecord(cache, guildId, terms, entries, x);
        }
      }
    }
  }

  /** A line that comes from the earlier channels comes from the record. */
  lemma EarlierFromRecord(cache: ChannelCache, guildId: String, terms: seq<String>, entries: LockedChannels, x: ListItem)
    requires |entries| > 0 && FromRecord(cache, guildId, terms, entries[..|entries| - 1], x)
    ensures FromRecord(cache, guildId, terms, entries, x)
  {
    var front := entries[..|entries| - 1];
    var j :| 0 <= j < |front| && Listed(cache, guildId, terms, front[j]) && x == ItemOf(cache, front[j]);
    assert front[j] == entries[j];
  }

  /** The line of the last channel, when it is listed, comes from the record. */
  lemma LastFromRecord(cache: ChannelCache, guildId: String, terms: seq<String>, entries: LockedChannels, x: ListItem)
    requires |entries| > 0 && Listed(cache, guildId, terms, entries[|entries| - 1])
    requires x == ItemOf(cache, entries[|entries| - 1])
    ensures FromRecord(cache, guildId, terms, entries, x)
  {
  }

  /** Every listed locked channel has its line in the list. */
  lemma {:induction false} ScanComplete(cache: ChannelCache, guildId: String, terms: seq<String>, entries: LockedChannels)
    ensures forall j :: 0 <= j < |entries| && Listed(cache, guildId, terms, entries[j]) ==>
      ItemOf(cache, entries[j]) in Scan(cache, guildId, terms, entries).items
    decreases |entries|
  {
    if |entries| > 0 {
      var front := entries[..|entries| - 1];
      ScanComplete(cache, guildId, terms, front);
      forall j | 0 <= j < |entries| && Listed(cache, guildId, terms, entries[j])
        ensures ItemOf(cache, entries[j]) in Scan(cache, guildId, terms, entries).items
      {
        if j < |front| {
          assert front[j] == entries[j];
        }
        CompleteAt(cache, guildId, terms, entries, j);
      }
    }
  }

  /** The step of `ScanComplete` for one listed channel, given the earlier channels' lines. */
  lemma CompleteAt(cache: ChannelCache, guildId: String, terms: seq<String>, entries: LockedChannels, j: nat)
    requires j < |entries| && Listed(cache, guildId, terms, entries[j])
    requires j < |entries| - 1 ==>
      ItemOf(cache, entries[j]) in Scan(cache, guildId, terms, entries[..|entries| - 1]).items
    ensures ItemOf(cache, entries[j]) in Scan(cache, guildId, terms, entries).items
  {
    var e := entries[|entries| - 1];
    var items := Scan(cache, guildId, terms, entries[..|entries| - 1]).items;
    ScanStep(cache, guildId, terms, entries);
    if j < |entries| - 1 {
      var x := ItemOf(cache, entries[j]);
      if Listed(cache, guildId, terms, e) {
        assert x in items + [ItemOf(cache, e)];
      }
    } else {
      assert entries[j] == e;
    }
  }

  /** The list holds exactly the lines of the listed channels, and is empty exactly when none is listed. */
  lemma ScanMembers(cache: ChannelCache, guildId: String, terms: seq<String>, entries: LockedChannels)
    ensures forall x :: x in Scan(cache, guildId, terms, entries).items <==> FromRecord(cache, guildId, terms, entries, x)
    ensures |Scan(cache, guildId, terms, entries).items| == 0 <==>
      forall j :: 0 <= j < |entries| ==> !Listed(cache, guildId, terms, entries[j])
  {
    ScanSound(cache, guildId, terms, entries);
    ScanComplete(cache, guildId, terms, entries);
    var items := Scan(cache, guildId, terms, entries).items;
    assert |items| > 0 ==> FromRecord(cache, guildId, terms, entries, items[0]);
  }

  // ---------------------------------------------------------------------------
  // The count summary
  // ---------------------------------------------------------------------------

  /**
   * `getCountSummary` as the command calls it: each term as typed, looked
   * up in the table keyed by lower-cased Pokémon names.
   */
  function SummaryAsWritten(terms: seq<String>, byName: Table<String>): seq<(String, nat)> {
    Summary(terms, terms, byName)
  }

  /** The summary shown: each term as typed, beside the channels it matched first. */
  function CountSummary(terms: seq<String>, counts: Table<String>): seq<(String, nat)> {
    Summary(terms, LowerTerms(terms), counts)
  }

  /**
   * When no two terms are equal once lower-cased, the numbers of the summary
   * add up to the number of channels listed.
   */
  lemma SummaryAddsUp(cache: ChannelCache, guildId: String, terms: seq<String>, entries: LockedChannels)
    requires Distinct(LowerTerms(terms))
    ensures var t := Scan(cache, guildId, terms, entries);
      Total(Shown(CountSummary(terms, t.counts))) == |t.items|
  {
    var t := Scan(cache, guildId, terms, entries);
    assert Shown(CountSummary(terms, t.counts)) == Lookups(LowerTerms(terms), t.counts);
    LookupsTotal(LowerTerms(terms), t.counts);
  }

  /**
   * `!ls Pikachu` with one channel of the guild locked for "Pikachu": the list
   * has that channel, but the summary as written shows 0 for it.
   */
  lemma SummaryAsWrittenMisses()
    ensures var cache := map["1" := Channel("1", 0, Some(Guild("9", "G")))];
      var t := Scan(cache, "9", ["Pikachu"], [("1", LockRecord("public", "Pikachu"))]);
      && |t.items| == 1
      && Total(Shown(SummaryAsWritten(["Pikachu"], t.byName))) == 0
      && Total(Shown(CountSummary(["Pikachu"], t.counts))) == 1
  {
    var cache := map["1" := Channel("1", 0, Some(Guild("9", "G")))];
    var e := ("1", LockRecord("public", "Pikachu"));
    var lower := ToLower("Pikachu");
    assert lower == "pikachu" by {
      assert ToLowerChar('P') == 'p';
    }
    PikachuScan(cache, e, lower);
    var t := Scan(cache, "9", ["Pikachu"], [e]);
    PikachuSummaries(t.byName, t.counts, lower);
  }

  /** The scan of that one channel lists it, counted under "pikachu". */
  lemma PikachuScan(cache: ChannelCache, e: (String, LockRecord), lower: String)
    requires cache == map["1" := Channel("1", 0, Some(Guild("9", "G")))]
    requires e == ("1", LockRecord("public", "Pikachu"))
    requires lower == ToLower("Pikachu") && lower == "pikachu"
    ensures var t := Scan(cache, "9", ["Pikachu"], [e]);
      |t.items| == 1 && t.byName == [(lower, 1)] && t.counts == [(lower, 1)]
  {
    var entries := [e];
    assert entries[..0] == [];
    assert Contains(lower, lower) by {
      assert StartsWith(lower, lower);
    }
    assert LowerTerms(["Pikachu"]) == [lower];
    assert MatchedTerm([lower], "Pikachu") == Some(0);
    assert Scan(cache, "9", ["Pikachu"], entries[..0]) == Tally([], [], []);
    assert InGuild(cache, "9", e);
  }

  /** Looked up under "Pikachu" the count is missed; under the lower-cased term it is found. */
  lemma PikachuSummaries(byName: Table<String>, counts: Table<String>, lower: String)
    requires lower == ToLower("Pikachu") && lower == "pikachu"
    requires byName == [(lower, 1)] && counts == byName
    ensures Total(Shown(SummaryAsWritten(["Pikachu"], byName))) == 0
    ensures Total(Shown(CountSummary(["Pikachu"], counts))) == 1
  {
    assert LowerTerms(["Pikachu"]) == [lower];
    assert "Pikachu" != lower by {
      assert "Pikachu"[0] != lower[0];
    }
    assert Shown(SummaryAsWritten(["Pikachu"], byName)) == [0];
    assert Shown(CountSummary(["Pikachu"], counts)) == [1];
  }

  // ---------------------------------------------------------------------------
  // The list state
  // ---------------------------------------------------------------------------

  /**
   * The state kept for an `!ls` message: the page, the last list, the
   * channel counts under each lower-cased Pokémon name, and what to search
   * for where.
   */
  datatype Search = Search(view: View, list: seq<ListItem>, byName: Table<String>,
                           terms: seq<String>, authorId: String, guildId: String)

  /** `generateListOutput`'s state update: rebuild from the record and fit the page to the new list. */
  function Regenerate(s: Search, cache: ChannelCache, entries: LockedChannels): (r: Search)
    ensures Fits(r.view, |r.list|)
    ensures r.view == Refit(s.view.page, |r.list|)
    ensures r.list == Scan(cache, s.guildId, s.terms, entries).items
    ensures r.byName == Scan(cache, s.guildId, s.terms, entries).byName
    ensures Sum(r.byName) == |r.list|
    ensures r.terms == s.terms && r.authorId == s.authorId && r.guildId == s.guildId
  {
    var t := Scan(cache, s.guildId, s.terms, entries);
    s.(view := Refit(s.view.page, |t.items|), list := t.items, byName := t.byName)
  }

  /** Rebuilding twice from the same record is rebuilding once. */
  lemma RegenerateIdempotent(s: Search, cache: ChannelCache, entries: LockedChannels)
    ensures Regenerate(Regenerate(s, cache, entries), cache, entries) == Regenerate(s, cache, entries)
  {
    var r := Regenerate(s, cache, entries);
    ClampIdempotent(s.view.page, r.view.totalPages);
  }

  /** The message for a state: nothing for an empty list, else the current page. */
  function Output(s: Search): (r: Rendered<ListItem>)
    ensures r.Gone? <==> |s.list| == 0
    ensures r.Page? && Fits(s.view, |s.list|) ==> |r.items| > 0
  {
    Render(s.list, s.view, LinkIn(s.guildId), Nav)
  }

  // ---------------------------------------------------------------------------
  // The command and its buttons
  // ---------------------------------------------------------------------------

  datatype Start =
    | NoPermission              // the author lacks ManageChannels
    | NoText                    // nothing after the command
    | NoTerms                   // only commas and spaces after it
    | NoneFound                 // "no locked channels in this guild for ..."
    | Started(state: Search)    // stored under the reply's id

  /** `execute`: the state of a new `!ls` message, or why there is none. */
  function Execute(args: seq<String>, staff: bool, authorId: String, guildId: String,
                   cache: ChannelCache, entries: LockedChannels): (r: Start)
    ensures r.NoPermission? <==> !staff
    ensures r.NoText? <==> staff && |SearchText(args)| == 0
    ensures r.NoTerms? <==> staff && |SearchText(args)| > 0 && |SearchTerms(args)| == 0
    ensures r.NoneFound? <==> (staff && |SearchTerms(args)| > 0 &&
      forall j :: 0 <= j < |entries| ==> !Listed(cache, guildId, SearchTerms(args), entries[j]))
    ensures r.Started? ==> r.state.view.page == 0 && Fits(r.state.view, |r.state.list|) && |r.state.list| > 0
    ensures r.Started? ==> r.state.terms == SearchTerms(args) && r.state.authorId == authorId && r.state.guildId == guildId
    ensures r.Started? ==> Output(r.state).Page?
  {
    if !staff then NoPermission
    else if |SearchText(args)| == 0 then NoText
    else
      var terms := SearchTerms(args);
      if |terms| == 0 then NoTerms
      else
        var s := Regenerate(Search(View(0, 0), [], [], terms, authorId, guildId), cache, entries);
        ScanMembers(cache, guildId, terms, entries);
        if |s.list| == 0 then NoneFound else Started(s)
  }

  /**
   * `handlePagination` for a button press: any user may close (any id that
   * contains the close id) or turn a page within range; the list is then
   * rebuilt from the record and the page fitted to it.
   */
  function HandlePress(s: Search, customId: String, cache: ChannelCache, entries: LockedChannels): (r: Reaction<Search>)
    ensures !r.Expired? && !r.Refused?
    ensures Contains(customId, Nav.closeId) ==> r.Deleted?
    ensures r.Ignored? <==> (!Contains(customId, Nav.closeId)
      && GuardedStep(s.view.page, s.view.totalPages, PressOf(Nav, customId)).None?)
    ensures r.Deleted? && !Contains(customId, Nav.closeId) ==> |Scan(cache, s.guildId, s.terms, entries).items| == 0
    ensures r.Saved? ==> (
      && r.state == Regenerate(s.(view := View(GuardedStep(s.view.page, s.view.totalPages, PressOf(Nav, customId)).value,
                                               s.view.totalPages)), cache, entries)
      && |r.state.list| > 0 && Output(r.state).Page? && |Output(r.state).items| > 0)
  {
    if Contains(customId, Nav.closeId) then Deleted
    else
      match GuardedStep(s.view.page, s.view.totalPages, PressOf(Nav, customId))
      case None => Ignored
      case Some(p) =>
        var t := Regenerate(s.(view := View(p, s.view.totalPages)), cache, entries);
        if |t.list| == 0 then Deleted else Saved(t)
  }

  /** A refresh with the current record (an internal update, or the exported refresh function): delete when empty, else save. */
  function Refresh(s: Search, cache: ChannelCache, entries: LockedChannels): (r: Reaction<Search>)
    ensures r.Deleted? <==> |Scan(cache, s.guildId, s.terms, entries).items| == 0
    ensures r.Saved? ==> r.state == Regenerate(s, cache, entries) && Output(r.state).Page?
    ensures r.Deleted? || r.Saved?
  {
    var t := Regenerate(s, cache, entries);
    if |t.list| == 0 then Deleted else Saved(t)
  }

  /** Refreshing a refreshed state with an unchanged record saves the same state again. */
  lemma RefreshStable(s: Search, cache: ChannelCache, entries: LockedChannels)
    requires Refresh(s, cache, entries).Saved?
    ensures Refresh(Refresh(s, cache, entries).state, cache, entries) == Refresh(s, cache, entries)
  {
    RegenerateIdempotent(s, cache, entries);
  }
}

=== FILE: paging.dfy ===
/**
 * The paging machinery every list command repeats: the page count, the page
 * clamp after a refresh, the slice shown on a page, link buttons cut into rows,
 * the prev/info/next/close row and the guarded prev/next move, and what a
 * button press does to the table of live paginated messages.
 */
module Paging {
  import opened Wrappers
  import opened Text
  import opened Collections

  // ---------------------------------------------------------------------------
  // Page count, clamp and slice
  // ---------------------------------------------------------------------------

  /** `Math.ceil(n / perPage)`. */
  function TotalPages(n: nat, perPage: nat): nat
    requires perPage > 0
  {
    CeilDiv(n, perPage)
  }

  /** Page `p` holds at least one item exactly when `p` is below the page count. */
  lemma PageNonEmpty(n: nat, perPage: nat, p: nat)
    requires perPage > 0
    ensures p < TotalPages(n, perPage) <==> p * perPage < n
  {
    var tp := TotalPages(n, perPage);
    if p < tp {
      assert p * perPage <= (tp - 1) * perPage by {
        MulMono(p, tp - 1, perPage);
      }
    } else {
      assert tp * perPage <= p * perPage by {
        MulMono(tp, p, perPage);
      }
    }
  }

  lemma MulMono(a: nat, b: nat, c: nat)
    requires a <= b
    ensures a * c <= b * c
  {
  }

  /**
   * The page after a refresh: an out-of-range page moves to the last page, and
   * an empty list puts the page at 0.
   */
  function ClampPage(page: nat, totalPages: nat): (p: nat)
    ensures totalPages > 0 ==> p < totalPages
    ensures totalPages == 0 ==> p == 0
    ensures page < totalPages ==> p == page
    ensures p <= page
  {
    if page >= totalPages && totalPages > 0 then totalPages - 1
    else if totalPages == 0 then 0
    else page
  }

  /** Clamping a clamped page changes nothing. */
  lemma ClampIdempotent(page: nat, totalPages: nat)
    ensures ClampPage(ClampPage(page, totalPages), totalPages) == ClampPage(page, totalPages)
  {
  }

  /** `list.slice(start, start + len)`, with JavaScript's clamping of both ends. */
  function Window<T>(s: seq<T>, start: nat, len: nat): (r: seq<T>)
    ensures |r| <= len
    ensures forall i :: 0 <= i < |r| ==> start + i < |s| && r[i] == s[start + i]
    ensures start + len <= |s| ==> |r| == len
    ensures len > 0 ==> (start >= |s| <==> |r| == 0)
  {
    var from := if start < |s| then start else |s|;
    var to := if start + len < |s| then start + len else |s|;
    s[from..to]
  }

  /** The items of page `page`: `list.slice(page * perPage, page * perPage + perPage)`. */
  function PageSlice<T>(s: seq<T>, page: nat, perPage: nat): (r: seq<T>)
    ensures |r| <= perPage
    ensures forall i :: 0 <= i < |r| ==> page * perPage + i < |s| && r[i] == s[page * perPage + i]
    ensures page * perPage + perPage <= |s| ==> |r| == perPage
    ensures perPage > 0 ==> (page * perPage >= |s| <==> |r| == 0)
  {
    Window(s, page * perPage, perPage)
  }

  lemma WindowShift<T>(s: seq<T>, start: nat, len: nat)
    requires len <= |s|
    ensures Window(s, start + len, len) == Window(s[len..], start, len)
  {
  }

  /** The slice shown on page `p` is row `p` of the one way to cut the list into pages. */
  lemma {:induction false} PageSliceIsChunkRow<T>(s: seq<T>, perPage: nat, p: nat)
    requires perPage > 0 && p < |Chunk(s, perPage)|
    ensures PageSlice(s, p, perPage) == Chunk(s, perPage)[p]
    decreases p
  {
    if p > 0 {
      ChunkRowShift(s, perPage, p);
      PageSliceIsChunkRow(s[perPage..], perPage, p - 1);
      PageSliceShift(s, perPage, p);
    } else {
      assert p * perPage == 0;
    }
  }

  /** Past the first row, row `p` of a chunking is row `p - 1` of the remainder's. */
  lemma ChunkRowShift<T>(s: seq<T>, perPage: nat, p: nat)
    requires perPage > 0 && 0 < p < |Chunk(s, perPage)|
    ensures |s| > perPage
    ensures p - 1 < |Chunk(s[perPage..], perPage)|
    ensures Chunk(s, perPage)[p] == Chunk(s[perPage..], perPage)[p - 1]
  {
    assert |s| > perPage;
    assert Chunk(s, perPage) == [s[..perPage]] + Chunk(s[perPage..], perPage);
  }

  /** Page `p` of a list is page `p - 1` of the list without its first page. */
  lemma PageSliceShift<T>(s: seq<T>, perPage: nat, p: nat)
    requires 0 < p && perPage <= |s|
    ensures PageSlice(s, p, perPage) == PageSlice(s[perPage..], p - 1, perPage)
  {
    var q := (p - 1) * perPage;
    assert p * perPage == q + perPage by { MulSucc(p, perPage); }
    WindowShift(s, q, perPage);
  }

  lemma MulSucc(p: nat, w: nat)
    requires p > 0
    ensures p * w == (p - 1) * w + w
  {
  }

  /** All pages, in order: `pages[i]` is the slice of page `i`. */
  function Pages<T>(s: seq<T>, perPage: nat): (pages: seq<seq<T>>)
    requires perPage > 0
    ensures |pages| == TotalPages(|s|, perPage)
  {
    seq(TotalPages(|s|, perPage), p requires 0 <= p < TotalPages(|s|, perPage) => PageSlice(s, p, perPage))
  }

  /**
   * The pages cut the list into rows of `perPage`: reading them in order gives
   * the list back, and every page but the last is full.
   */
  lemma PagesAreChunking<T>(s: seq<T>, perPage: nat)
    requires perPage > 0
    ensures Pages(s, perPage) == Chunk(s, perPage)
    ensures IsChunking(Pages(s, perPage), s, perPage)
  {
    ChunkCount(s, perPage);
    var pages := Pages(s, perPage);
    forall p | 0 <= p < |pages|
      ensures pages[p] == Chunk(s, perPage)[p]
    {
      PageSliceIsChunkRow(s, perPage, p);
    }
  }

  // ---------------------------------------------------------------------------
  // Buttons and rows
  // ---------------------------------------------------------------------------

  /** The logical content of a message button: an action button, or a link. */
  datatype Button =
    | Action(customId: String, caption: String, disabled: bool)
    | Link(caption: String, url: String)

  /** The address of a channel in the Discord client. */
  function ChannelUrl(guildId: String, channelId: String): String {
    "https://discord.com/channels/" + guildId + "/" + channelId
  }

  /** Every row holds exactly `width` buttons. */
  ghost predicate FullRows<T>(rows: seq<seq<T>>, width: nat) {
    forall k :: 0 <= k < |rows| ==> |rows[k]| == width
  }

  /** Pushing a full row keeps every row full and appends its buttons. */
  lemma PushFull<T>(rows: seq<seq<T>>, row: seq<T>, width: nat)
    requires FullRows(rows, width) && |row| == width
    ensures FullRows(rows + [row], width)
    ensures Flatten(rows + [row]) == Flatten(rows) + row
  {
    FlattenAppend(rows, row);
  }

  /**
   * Full rows followed by a last, possibly empty, row no wider than `width` are
   * the one way to cut the buttons into rows, once an empty last row is dropped.
   */
  lemma RowsDone<T>(rows: seq<seq<T>>, current: seq<T>, items: seq<T>, width: nat)
    requires width > 0 && FullRows(rows, width) && |current| <= width
    requires Flatten(rows) + current == items
    ensures |current| > 0 ==> rows + [current] == Chunk(items, width)
    ensures |current| == 0 ==> rows == Chunk(items, width)
  {
    if |current| > 0 {
      FlattenAppend(rows, current);
      ChunkingUnique(rows + [current], Chunk(items, width), items, width);
    } else {
      assert Flatten(rows) == items;
      ChunkingUnique(rows, Chunk(items, width), items, width);
    }
  }

  /**
   * Rows built by checking for a full row before adding each button (`if
   * (count >= width) { push; reset }`), then pushing the last row if non-empty.
   */
  method RowsCheckingFirst<T>(items: seq<T>, width: nat) returns (rows: seq<seq<T>>)
    requires width > 0
    ensures rows == Chunk(items, width)
  {
    rows := [];
    var current: seq<T> := [];
    var i := 0;
    while i < |items|
      invariant 0 <= i <= |items|
      invariant Flatten(rows) + current == items[..i]
      invariant FullRows(rows, width)
      invariant |current| <= width
    {
      if |current| >= width {
        PushFull(rows, current, width);
        rows := rows + [current];
        current := [];
      }
      assert items[..i + 1] == items[..i] + [items[i]];
      current := current + [items[i]];
      i := i + 1;
    }
    assert items[..i] == items;
    RowsDone(rows, current, items, width);
    if |current| > 0 {
      rows := rows + [current];
    }
  }

  /**
   * Rows built by adding each button and then pushing the row as soon as it
   * holds `width` buttons, then pushing the last row if non-empty.
   */
  method RowsPushingFull<T>(items: seq<T>, width: nat) returns (rows: seq<seq<T>>)
    requires width > 0
    ensures rows == Chunk(items, width)
  {
    rows := [];
    var current: seq<T> := [];
    var i := 0;
    while i < |items|
      invariant 0 <= i <= |items|
      invariant Flatten(rows) + current == items[..i]
      invariant FullRows(rows, width)
      invariant |current| < width
    {
      assert items[..i + 1] == items[..i] + [items[i]];
      current := current + [items[i]];
      if |current| >= width {
        PushFull(rows, current, width);
        rows := rows + [current];
        current := [];
      }
      i := i + 1;
    }
    assert items[..i] == items;
    RowsDone(rows, current, items, width);
    if |current| > 0 {
      rows := rows + [current];
    }
  }

  /** The ids and labels of one command's navigation row. */
  datatype NavStyle = NavStyle(
    prevId: String, infoId: String, nextId: String, closeId: String,
    prevLabel: String, nextLabel: String, closeLabel: String)

  /** `Pág <page+1>/<totalPages>`. */
  function PageInfoLabel(page: nat, totalPages: nat): String {
    "Pág " + NatToString(page + 1) + "/" + NatToString(totalPages)
  }

  /**
   * The navigation row: prev, page info and next only when there is more than
   * one page, and always a close button last.
   */
  function PaginationRow(page: nat, totalPages: nat, nav: NavStyle): (row: seq<Button>)
    ensures |row| == (if totalPages > 1 then 4 else 1)
    ensures row[|row| - 1] == Action(nav.closeId, nav.closeLabel, false)
    ensures totalPages > 1 ==> row[1] == Action(nav.infoId, PageInfoLabel(page, totalPages), true)
  {
    var close := Action(nav.closeId, nav.closeLabel, false);
    if totalPages > 1 then
      [ Action(nav.prevId, nav.prevLabel, page == 0),
        Action(nav.infoId, PageInfoLabel(page, totalPages), true),
        Action(nav.nextId, nav.nextLabel, page == totalPages - 1),
        close ]
    else [close]
  }

  // ---------------------------------------------------------------------------
  // Moving between pages
  // ---------------------------------------------------------------------------

  datatype Press = PrevPress | NextPress | OtherPress

  /**
   * A prev/next press guarded by `page > 0` and `page < totalPages - 1`;
   * `None` is the press that does nothing.
   */
  function GuardedStep(page: nat, totalPages: nat, press: Press): (r: Option<nat>)
    ensures page < totalPages && r.Some? ==> r.value < totalPages
    ensures r.Some? ==> r.value + 1 == page || r.value == page + 1
    ensures r.None? <==> press.OtherPress? || (press.PrevPress? && page == 0) || (press.NextPress? && page + 1 >= totalPages)
  {
    match press
    case PrevPress => if page > 0 then Some(page - 1) else None
    case NextPress => if page < totalPages - 1 then Some(page + 1) else None
    case OtherPress => None
  }

  /** On a page in range, a navigation button is disabled exactly when pressing it would do nothing. */
  lemma DisabledIffNoStep(page: nat, totalPages: nat, nav: NavStyle)
    requires 1 < totalPages && page < totalPages
    ensures PaginationRow(page, totalPages, nav)[0].disabled <==> GuardedStep(page, totalPages, PrevPress).None?
    ensures PaginationRow(page, totalPages, nav)[2].disabled <==> GuardedStep(page, totalPages, NextPress).None?
  {
  }

  /** A page that starts in range stays in range under any sequence of presses. */
  lemma {:induction false} StepsStayInRange(page: nat, totalPages: nat, presses: seq<Press>)
    requires page < totalPages
    ensures Walk(page, totalPages, presses) < totalPages
    decreases |presses|
  {
    if |presses| > 0 {
      var next := GuardedStep(page, totalPages, presses[0]).GetOr(page);
      StepsStayInRange(next, totalPages, presses[1..]);
    }
  }

  /** The page after a sequence of presses, each ignored when it does nothing. */
  function Walk(page: nat, totalPages: nat, presses: seq<Press>): nat
    decreases |presses|
  {
    if |presses| == 0 then page
    else Walk(GuardedStep(page, totalPages, presses[0]).GetOr(page), totalPages, presses[1..])
  }

  // ---------------------------------------------------------------------------
  // The table of live paginated messages
  // ---------------------------------------------------------------------------

  /** What a button handler does with the state of the message it belongs to. */
  datatype Reaction<S> =
    | Expired          // no state: "this list has expired"
    | Refused          // not the author: an ephemeral refusal
    | Deleted          // closed or emptied: the message and its state go away
    | Ignored          // the press changes nothing
    | Saved(state: S)  // the state is written back

  /** The table of paginated messages after a handler's reaction to a press on `messageId`. */
  function Apply<S>(states: map<String, S>, messageId: String, reaction: Reaction<S>): (r: map<String, S>)
    ensures forall k :: k != messageId ==> (k in r <==> k in states) && (k in r ==> r[k] == states[k])
    ensures reaction.Deleted? ==> messageId !in r
    ensures reaction.Saved? ==> messageId in r && r[messageId] == reaction.state
    ensures !reaction.Deleted? && !reaction.Saved? ==> r == states
  {
    match reaction
    case Deleted => states - {messageId}
    case Saved(s) => states[messageId := s]
    case _ => states
  }
}

=== FILE: ranking.dfy ===
/**
 * `!ts`: a ranking of the Pokémon with locked channels, by the number of
 * channels locked for each, ten to a page.
 */
module Ranking {
  import opened Wrappers
  import opened Text
  import opened Collections
  import opened Paging
  import opened Locks
  import Listing

  const PerPage: nat := 10

  const Nav: NavStyle := NavStyle(
    "ts_prev_page", "page_info_ts_disabled", "ts_next_page", "ts_close_list",
    "\U{2B05}\U{FE0F}", "\U{27A1}\U{FE0F}", "\U{274C}")

  // ---------------------------------------------------------------------------
  // Counting and sorting
  // ---------------------------------------------------------------------------

  /** The Pokémon of every locked channel, in the order of the record. */
  function Names(entries: LockedChannels): (r: seq<String>)
    ensures |r| == |entries|
    ensures forall j :: 0 <= j < |entries| ==> r[j] == entries[j].1.pokemon
  {
    seq(|entries|, j requires 0 <= j < |entries| => entries[j].1.pokemon)
  }

  /** `t` counts `names`: one key per name, each holding the number of its occurrences. */
  ghost predicate Tallies(t: Table<String>, names: seq<String>) {
    && DistinctKeys(t)
    && Sum(t) == |names|
    && (forall k :: Get(t, k) == multiset(names)[k])
    && (forall k :: k in KeySet(t) <==> k in names)
    && Positive(t)
  }

  /** Counting one more name bumps its count. */
  lemma Bump(t: Table<String>, names: seq<String>, name: String, r: Table<String>, more: seq<String>)
    requires Tallies(t, names) && more == names + [name]
    requires Bumped(t, name, r) && Positive(r)
    ensures Tallies(r, more)
  {
    assert multiset(more) == multiset(names) + multiset{name};
    assert forall k :: k in more <==> k in names || k == name;
  }

  /** The names of a longer record are those of the shorter one and the last name. */
  lemma NamesSnoc(entries: LockedChannels)
    requires |entries| > 0
    ensures Names(entries) == Names(entries[..|entries| - 1]) + [entries[|entries| - 1].1.pokemon]
  {
  }

  /**
   * `pokemonCounts[pokemon] = (pokemonCounts[pokemon] || 0) + 1` over the
   * record: each Pokémon's count is the number of channels locked for it,
   * and a Pokémon is a key exactly when some channel is locked for it.
   */
  function Counts(entries: LockedChannels): (t: Table<String>)
    ensures Tallies(t, Names(entries))
    decreases |entries|
  {
    if |entries| == 0 then []
    else
      var front := entries[..|entries| - 1];
      var name := entries[|entries| - 1].1.pokemon;
      var prior := Counts(front);
      var r := Set(prior, name, Get(prior, name) + 1);
      NamesSnoc(entries);
      SetBumps(prior, name);
      SetPositive(prior, name, Get(prior, name) + 1);
      Bump(prior, Names(front), name, r, Names(entries));
      r
  }

  /** The comparator `b[1] - a[1]`: the larger count first. */
  function MoreFirst(): ((String, nat), (String, nat)) -> bool {
    (a: (String, nat), b: (String, nat)) => a.1 >= b.1
  }

  lemma MoreFirstPreorder()
    ensures TotalPreorder(MoreFirst())
  {
  }

  /**
   * `sortedPokemon`: one entry per locked Pokémon with its count, counts
   * non-increasing; equal counts keep their order in `Counts` (`RankingTies`).
   */
  function Ranking(entries: LockedChannels): (r: seq<(String, nat)>)
    ensures forall i, j :: 0 <= i < j < |r| ==> r[i].1 >= r[j].1
    ensures multiset(r) == multiset(Counts(entries))
    ensures |r| == |Counts(entries)|
    ensures |r| == 0 <==> |entries| == 0
  {
    MoreFirstPreorder();
    var r := Sort(Counts(entries), MoreFirst());
    assert SortedBy(r, MoreFirst());
    if |entries| > 0 then
      assert entries[0].1.pokemon in Names(entries);
      assert entries[0].1.pokemon in KeySet(Counts(entries));
      r
    else r
  }

  /**
   * Equal counts keep the order they have in `Counts`, which, like
   * `pokemonCounts`, adds a Pokémon's key when it is first counted.
   */
  lemma RankingTies(entries: LockedChannels, e: (String, nat))
    ensures TiedWith(Ranking(entries), MoreFirst(), e) == TiedWith(Counts(entries), MoreFirst(), e)
  {
    MoreFirstPreorder();
    SortStable(Counts(entries), MoreFirst(), e);
  }

  /** Each ranked entry is a locked Pokémon with its number of locked channels. */
  lemma RankingEntries(entries: LockedChannels)
    ensures forall i :: 0 <= i < |Ranking(entries)| ==>
      Ranking(entries)[i].0 in Names(entries)
      && Ranking(entries)[i].1 == multiset(Names(entries))[Ranking(entries)[i].0]
    ensures forall name :: name in Names(entries) ==> exists i :: 0 <= i < |Ranking(entries)| && Ranking(entries)[i].0 == name
  {
    var r := Ranking(entries);
    var t := Counts(entries);
    forall i | 0 <= i < |r|
      ensures r[i].0 in Names(entries) && r[i].1 == multiset(Names(entries))[r[i].0]
    {
      assert r[i] in multiset(r);
      assert r[i] in t;
      var j :| 0 <= j < |t| && t[j] == r[i];
      TableEntry(t, j);
    }
    forall name | name in Names(entries)
      ensures exists i :: 0 <= i < |r| && r[i].0 == name
    {
      assert name in KeySet(t);
      var j := KeyIndex(t, name);
      assert t[j] in multiset(r);
      assert t[j] in r;
    }
  }

  /** An entry of a table with distinct keys holds the count its key reads as. */
  lemma {:induction false} TableEntry(t: Table<String>, j: nat)
    requires DistinctKeys(t) && j < |t|
    ensures Get(t, t[j].0) == t[j].1 && t[j].0 in KeySet(t)
    decreases |t|
  {
    if j > 0 {
      TableEntry(t[1..], j - 1);
      assert t[1..][j - 1] == t[j];
    }
  }

  /** A key of a table sits at some position. */
  lemma {:induction false} KeyIndex(t: Table<String>, k: String) returns (j: nat)
    requires k in KeySet(t)
    ensures j < |t| && t[j].0 == k
    decreases |t|
  {
    if t[0].0 == k {
      j := 0;
    } else {
      var i := KeyIndex(t[1..], k);
      j := i + 1;
    }
  }

  // ---------------------------------------------------------------------------
  // One page of the ranking
  // ---------------------------------------------------------------------------

  /** The medal for a position: a crown, silver, bronze, a star to tenth place, then a diamond. */
  function RankEmoji(position: nat): (r: String)
    ensures r == "\U{1F536}" <==> position > 10
    ensures 4 <= position <= 10 ==> r == "\U{2733}\U{FE0F}"
  {
    if position == 1 then "\U{1F451}"
    else if position == 2 then "\U{1F948}"
    else if position == 3 then "\U{1F949}"
    else if position <= 10 then "\U{2733}\U{FE0F}"
    else "\U{1F536}"
  }

  /** `word.charAt(0).toUpperCase() + word.slice(1).toLowerCase()`. */
  function CapitalizeWord(w: String): (r: String)
    ensures |r| == |w|
    ensures ' ' in r <==> ' ' in w
  {
    if |w| == 0 then "" else [ToUpperChar(w[0])] + ToLower(w[1..])
  }

  function Capitalized(ws: seq<String>): (r: seq<String>)
    ensures |r| == |ws|
    ensures forall i :: 0 <= i < |ws| ==> r[i] == CapitalizeWord(ws[i])
  {
    seq(|ws|, i requires 0 <= i < |ws| => CapitalizeWord(ws[i]))
  }

  /** `formatName`: capitalize every space-separated word. */
  function FormatName(name: String): (r: String)
    ensures Split(r, ' ') == Capitalized(Split(name, ' '))
    ensures |Split(r, ' ')| == |Split(name, ' ')|
  {
    var ws := Split(name, ' ');
    var r := Join(Capitalized(ws), ' ');
    SplitJoin(Capitalized(ws), ' ');
    r
  }

  /** A capitalized word is left alone by capitalizing again. */
  lemma CapitalizeTwice(w: String)
    ensures CapitalizeWord(CapitalizeWord(w)) == CapitalizeWord(w)
  {
    if |w| > 0 {
      var c := CapitalizeWord(w);
      assert c[1..] == ToLower(w[1..]);
      ToLowerOfLower(ToLower(w[1..]));
    }
  }

  /** Formatting a formatted name changes nothing. */
  lemma FormatNameIdempotent(name: String)
    ensures FormatName(FormatName(name)) == FormatName(name)
  {
    var ws := Split(name, ' ');
    var once := Capitalized(ws);
    forall i | 0 <= i < |once| ensures Capitalized(once)[i] == once[i] {
      CapitalizeTwice(ws[i]);
    }
    assert Capitalized(once) == once;
    JoinSplit(FormatName(name), ' ');
  }

  /** One field of the ranking message. */
  datatype Field = Field(emoji: String, position: nat, name: String, count: nat)

  /** The fields of page `page`: positions counted from 1 across the whole ranking. */
  function PageFields(ranking: seq<(String, nat)>, page: nat): (r: seq<Field>)
    ensures |r| == |PageSlice(ranking, page, PerPage)|
    ensures forall i :: 0 <= i < |r| ==> (
      && r[i].position == page * PerPage + i + 1
      && r[i].emoji == RankEmoji(r[i].position)
      && r[i].name == FormatName(ranking[page * PerPage + i].0)
      && r[i].count == ranking[page * PerPage + i].1)
  {
    var slice := PageSlice(ranking, page, PerPage);
    seq(|slice|, i requires 0 <= i < |slice| =>
      Field(RankEmoji(page * PerPage + i + 1), page * PerPage + i + 1, FormatName(slice[i].0), slice[i].1))
  }

  /** Medals appear only on the first page; every later field carries the diamond. */
  lemma MedalsOnFirstPage(ranking: seq<(String, nat)>, page: nat)
    ensures forall i :: 0 <= i < |PageFields(ranking, page)| ==>
      (PageFields(ranking, page)[i].emoji == "\U{1F536}" <==> page > 0)
  {
    var r := PageFields(ranking, page);
    forall i | 0 <= i < |r| ensures r[i].emoji == "\U{1F536}" <==> page > 0 {
      assert |r| <= PerPage;
      if page > 0 {
        assert page * PerPage >= PerPage;
      }
    }
  }

  // ---------------------------------------------------------------------------
  // The command and its buttons
  // ---------------------------------------------------------------------------

  /** The state kept for a ranking message. */
  datatype Board = Board(page: nat, totalPages: nat, ranking: seq<(String, nat)>, authorId: String)

  datatype Start =
    | Empty                  // "no Pokémon are locked"
    | Started(state: Board)  // always stored, even for a single page

  /** `execute`: the state of a new ranking message, or why there is none. */
  function Execute(entries: LockedChannels, authorId: String): (r: Start)
    ensures r.Empty? <==> |entries| == 0
    ensures r.Started? ==> (
      && r.state.page == 0 && r.state.ranking == Ranking(entries) && r.state.authorId == authorId
      && r.state.totalPages == TotalPages(|Ranking(entries)|, PerPage) && r.state.totalPages > 0)
  {
    var ranking := Ranking(entries);
    if |ranking| == 0 then Empty
    else Started(Board(0, TotalPages(|ranking|, PerPage), ranking, authorId))
  }

  /** The message of a state: the fields of its page and its button row. */
  function Output(s: Board): (r: (seq<Field>, seq<Button>))
    ensures r.1 == PaginationRow(s.page, s.totalPages, Nav)
    ensures s.page < s.totalPages && s.totalPages == TotalPages(|s.ranking|, PerPage) ==> |r.0| > 0
  {
    PageNonEmpty(|s.ranking|, PerPage, s.page);
    (PageFields(s.ranking, s.page), PaginationRow(s.page, s.totalPages, Nav))
  }

  /** The page a press asks for: prev is `max(0, p - 1)`, next is `min(totalPages - 1, p + 1)`. */
  function Requested(s: Board, customId: String): (r: Option<int>)
    ensures r.Some? <==> customId == Nav.prevId || customId == Nav.nextId
  {
    if customId == Nav.prevId then Some(if s.page - 1 > 0 then s.page - 1 else 0)
    else if customId == Nav.nextId then Some(if s.totalPages - 1 < s.page + 1 then s.totalPages - 1 else s.page + 1)
    else None
  }

  /**
   * `handlePagination`: no state means the message expired; only the author
   * may press; close deletes; prev and next clamp, and a press that keeps
   * the page saves nothing.
   */
  function HandlePress(state: Option<Board>, customId: String, userId: String): (r: Reaction<Board>)
    requires state.Some? ==> state.value.totalPages > 0
    ensures r.Expired? <==> state.None?
    ensures r.Refused? <==> state.Some? && userId != state.value.authorId
    ensures r.Deleted? <==> state.Some? && userId == state.value.authorId && customId == Nav.closeId
    ensures r.Saved? ==> (
      && Requested(state.value, customId) == Some(r.state.page as int)
      && r.state.page != state.value.page
      && r.state == state.value.(page := r.state.page))
    ensures r.Ignored? ==> (state.Some? && customId != Nav.closeId
      && Requested(state.value, customId) in {None, Some(state.value.page as int)})
  {
    match state
    case None => Expired
    case Some(s) =>
      if userId != s.authorId then Refused
      else if customId == Nav.closeId then Deleted
      else
        match Requested(s, customId)
        case None => Ignored
        case Some(p) => if p == s.page as int then Ignored else Saved(s.(page := p as nat))
  }

  /**
   * On a page in range the clamped step agrees with the guarded step of the
   * other lists, so prev and next are disabled exactly on the presses that
   * change nothing, and a saved page stays in range.
   */
  lemma ClampedMatchesGuarded(s: Board, customId: String)
    requires 0 < s.totalPages && s.page < s.totalPages
    ensures var r := HandlePress(Some(s), customId, s.authorId);
      && (r.Saved? <==> customId != Nav.closeId && GuardedStep(s.page, s.totalPages, Listing.PressOf(Nav, customId)).Some?)
      && (r.Saved? ==> r.state.page == GuardedStep(s.page, s.totalPages, Listing.PressOf(Nav, customId)).value)
      && (r.Saved? ==> r.state.page < r.state.totalPages)
  {
  }

  /** A state on a page in range stays so under every press, and its page always has fields. */
  lemma PressesKeepPageShown(s: Board, customId: String, userId: String)
    requires 0 < s.totalPages && s.page < s.totalPages && s.totalPages == TotalPages(|s.ranking|, PerPage)
    ensures var r := HandlePress(Some(s), customId, userId);
      r.Saved? ==> r.state.page < r.state.totalPages && |Output(r.state).0| > 0
  {
    ClampedMatchesGuarded(s, customId);
  }
}

=== FILE: router.dfy ===
/**
 * The button dispatcher of the bot: which handler a button press reaches,
 * judged from its custom id alone, and the author gate in front of the
 * list commands' page turns.
 */
module Router {
  import opened Wrappers
  import opened Text
  import opened Paging
  import opened Collections
  import opened Locks
  import GlobalSearch
  import LocalSearch
  import LockList
  import GuildLocks
  import Ranking
  import Help

  datatype Route =
    | UnlockRoute       // an unlock button under a lock message
    | LeaderboardRoute  // a button of the `lb` command
    | PaginationRoute   // a page turn or close of a list command
    | NoRoute           // nothing handles the press

  /** A page-turn or close id: it mentions `_prev_page`, `_next_page` or `_close_list`. */
  predicate PaginationId(customId: String) {
    Contains(customId, "_prev_page") || Contains(customId, "_next_page") || Contains(customId, "_close_list")
  }

  /** The branch of the dispatcher a press takes, tried in order. */
  function RouteOf(customId: String): (r: Route)
    ensures r.UnlockRoute? <==> StartsWith(customId, "unlock_")
    ensures r.LeaderboardRoute? <==> !StartsWith(customId, "unlock_") && StartsWith(customId, "bl_")
    ensures r.NoRoute? <==> !StartsWith(customId, "unlock_") && !StartsWith(customId, "bl_") && !PaginationId(customId)
  {
    if StartsWith(customId, "unlock_") then UnlockRoute
    else if StartsWith(customId, "bl_") then LeaderboardRoute
    else if PaginationId(customId) then PaginationRoute
    else NoRoute
  }

  datatype Gate =
    | Silent       // no state for the message: the press is dropped
    | AuthorOnly   // someone else pressed: refused before the command sees it
    | ToCommand    // the command's own handler runs

  /** The gate in front of a page turn, given the author of the stored state, if any. */
  function PaginationGate(stateAuthor: Option<String>, userId: String): (r: Gate)
    ensures r.Silent? <==> stateAuthor.None?
    ensures r.ToCommand? <==> stateAuthor == Some(userId)
  {
    match stateAuthor
    case None => Silent
    case Some(author) => if author == userId then ToCommand else AuthorOnly
  }

  // ---------------------------------------------------------------------------
  // Facts about custom ids
  // ---------------------------------------------------------------------------

  /** An id that ends with `p` mentions `p`. */
  lemma {:induction false} ContainsSuffix(a: String, p: String)
    ensures Contains(a + p, p)
    decreases |a|
  {
    if |a| == 0 {
      assert a + p == p;
    } else {
      assert (a + p)[1..] == a[1..] + p;
      ContainsSuffix(a[1..], p);
    }
  }

  /** `p` occurs in `s` at position `i`. */
  predicate OccursAt(s: String, p: String, i: nat) {
    i + |p| <= |s| && s[i..i + |p|] == p
  }

  /** An id in which `p` occurs at no position does not mention `p`. */
  lemma {:induction false} NotContained(s: String, p: String)
    requires forall i: nat :: !OccursAt(s, p, i)
    ensures !Contains(s, p)
    decreases |s|
  {
    assert !OccursAt(s, p, 0);
    if |s| > 0 {
      forall i: nat
        ensures !OccursAt(s[1..], p, i)
      {
        if i + |p| <= |s| - 1 {
          assert s[1..][i..i + |p|] == s[i + 1..i + 1 + |p|];
          assert !OccursAt(s, p, i + 1);
        }
      }
      NotContained(s[1..], p);
    }
  }

  /** An id that mentions one of the markers and starts with neither `u` nor `b` reaches the pagination branch. */
  lemma MarkedIdRouted(id: String, marker: String)
    requires marker == "_prev_page" || marker == "_next_page" || marker == "_close_list"
    requires Contains(id, marker) && |id| > 0 && id[0] != 'u' && id[0] != 'b'
    ensures RouteOf(id) == PaginationRoute
  {
  }

  /**
   * The page-turn and close ids of a list, `<prefix>_prev_page`,
   * `<prefix>_next_page` and `<prefix>_close_list`, reach the list's handler
   * when the prefix starts with neither `u` nor `b`, as `gls`, `ls`,
   * `locklist`, `locks`, `ts` and `spawn` do.
   */
  lemma ListIdsRouted(prefix: String, marker: String)
    requires marker == "_prev_page" || marker == "_next_page" || marker == "_close_list"
    requires |prefix| > 0 && prefix[0] != 'u' && prefix[0] != 'b'
    ensures RouteOf(prefix + marker) == PaginationRoute
  {
    ContainsSuffix(prefix, marker);
    assert (prefix + marker)[0] == prefix[0];
    MarkedIdRouted(prefix + marker, marker);
  }

  /** An id with exactly the underscores of `help_cmd_` mentions none of the three page-turn markers. */
  lemma HelpIdNotPagination(key: String)
    requires '_' !in key
    ensures !PaginationId(Help.CommandIdPrefix + key)
  {
    var s := Help.CommandIdPrefix + key;
    forall p | p in ["_prev_page", "_next_page", "_close_list"]
      ensures !Contains(s, p)
    {
      forall i: nat
        ensures !OccursAt(s, p, i)
      {
        if i + |p| <= |s| {
          // a position where the id and the marker differ
          var k := if i == 4 then 2 else if i == 8 then (if p == "_close_list" then 6 else 5) else 0;
          if i + k >= 9 {
            assert s[i + k] == key[i + k - 9];
          } else {
            assert s[i + k] == Help.CommandIdPrefix[i + k];
          }
          assert s[i..i + |p|][k] == s[i + k] != p[k];
        }
      }
      NotContained(s, p);
    }
  }

  /** A command button of the help menu, for a command key without `_`, reaches no branch of the dispatcher. */
  lemma HelpCommandUnrouted(key: String)
    requires '_' !in key
    ensures RouteOf(Help.CommandIdPrefix + key) == NoRoute
  {
    HelpIdNotPagination(key);
    assert (Help.CommandIdPrefix + key)[0] == 'h';
  }

  /**
   * An id of at most ten characters starting with `h`, as the help menu's
   * close and back buttons are, reaches no branch of the dispatcher.
   */
  lemma ShortHelpIdUnrouted(id: String)
    requires 0 < |id| <= 10 && id[0] == 'h'
    ensures RouteOf(id) == NoRoute
  {
    forall p | p in ["_prev_page", "_next_page", "_close_list"]
      ensures !Contains(id, p)
    {
      forall i: nat
        ensures !OccursAt(id, p, i)
      {
        if i + |p| <= |id| {
          assert id[i..i + |p|][0] == id[i] != p[0];
        }
      }
      NotContained(id, p);
    }
  }

  /** The close and back ids of the help menu are such ids. */
  lemma HelpFixedIdsShort()
    ensures |Help.CloseId| <= 10 && Help.CloseId[0] == 'h'
    ensures |Help.BackId| <= 10 && Help.BackId[0] == 'h'
  {
  }

  /**
   * The gate answers every press by someone other than the command's author
   * before the command sees it, so what the handlers of `!gls` (staff and a
   * close for anyone), `!locks` and `!ls` (anyone) would accept never reaches them.
   */
  lemma GateStopsOthers(g: GlobalSearch.Search, b: GuildLocks.Board, l: LocalSearch.Search, customId: String,
                        userId: String, cache: ChannelCache, entries: LockedChannels, le: (String, String) -> bool)
    requires TotalPreorder(le)
    requires g.authorId != userId && b.authorId != userId && l.authorId != userId
    ensures PaginationGate(Some(g.authorId), userId) == AuthorOnly
    ensures !GlobalSearch.HandlePress(g, customId, userId, true).Refused?
    ensures PaginationGate(Some(b.authorId), userId) == AuthorOnly
    ensures !GuildLocks.HandlePress(b, customId, cache, entries, le).Refused?
    ensures PaginationGate(Some(l.authorId), userId) == AuthorOnly
    ensures !LocalSearch.HandlePress(l, customId, cache, entries).Refused?
  {
  }
}

=== FILE: spawn.dfy ===
/**
 * `!spawn`: look through the recent messages of the guild's unlocked spawn
 * channels for a name bot that announced the searched Pokémon for the
 * channel's latest spawn, skipping channels where it was already caught.
 */
module SpawnSearch {
  import opened Wrappers
  import opened Text
  import opened Collections
  import opened Paging
  import opened Locks
  import opened Extraction
  import opened Trigger

  const CaptureKeyword: String := "you caught a"
  const SpawnKeyword: String := "a wild pok\U{E9}mon has appeared"
  const ResultsPerPage: nat := 5

  /** A channel of the guild: its id, name and Discord type (0 is a text channel). */
  datatype GuildChannel = GuildChannel(id: String, name: String, kind: nat)

  /**
   * A fetched message. `createdAt` is in milliseconds; `embedShown` says the
   * first embed has an image, a title or a description.
   */
  datatype Post = Post(id: String, authorId: String, content: String, createdAt: nat, embedShown: bool)

  /** One result: the channel, a link to the name bot's message, its time, and the name it gave. */
  datatype Hit = Hit(channel: String, url: String, time: nat, pokemonName: Option<String>)

  /** The guild name as the progress message shows it: at most 20 characters. */
  function ShortGuildName(name: String): (r: String)
    ensures |r| <= 20
    ensures |name| <= 20 ==> r == name
    ensures |name| > 20 ==> r == name[..17] + "..."
  {
    if |name| > 20 then name[..17] + "..." else name
  }

  // ---------------------------------------------------------------------------
  // Which channels are scanned
  // ---------------------------------------------------------------------------

  /** A text channel named by a number from 0 to 450 that is not locked. */
  predicate Scannable(c: GuildChannel, locked: LockedChannels) {
    c.kind == 0 && IsSpawnChannel(c.name) && Lookup(locked, c.id).None?
  }

  /** `parseInt` of a channel name; only all-digit names are ever compared. */
  function Numeral(name: String): nat {
    if AllDigits(name) then DigitsValue(name) else 0
  }

  /** The comparator `parseInt(a.name) - parseInt(b.name)`. */
  function ByNumber(): (GuildChannel, GuildChannel) -> bool {
    (a: GuildChannel, b: GuildChannel) => Numeral(a.name) <= Numeral(b.name)
  }

  lemma ByNumberPreorder()
    ensures TotalPreorder(ByNumber())
  {
  }

  function KeepScannable(locked: LockedChannels): GuildChannel -> Option<GuildChannel> {
    (c: GuildChannel) => if Scannable(c, locked) then Some(c) else None
  }

  /** The channels to scan, in the order of their numbers. */
  function ScanList(channels: seq<GuildChannel>, locked: LockedChannels): (r: seq<GuildChannel>)
    ensures forall c :: c in r <==> c in channels && Scannable(c, locked)
    ensures forall i, j :: 0 <= i < j < |r| ==> Numeral(r[i].name) <= Numeral(r[j].name)
  {
    ByNumberPreorder();
    var kept := FilterMap(channels, KeepScannable(locked));
    FilterMapMembers(channels, KeepScannable(locked));
    var r := Sort(kept, ByNumber());
    forall c ensures c in r <==> c in channels && Scannable(c, locked) {
      assert c in r <==> c in multiset(r);
      assert c in kept <==> c in multiset(kept);
      if c in channels && Scannable(c, locked) {
        var j :| 0 <= j < |channels| && channels[j] == c;
        assert KeepScannable(locked)(channels[j]) == Some(c);
      }
    }
    assert forall i :: 0 <= i < |r| ==> r[i] in r;
    r
  }

  // ---------------------------------------------------------------------------
  // One channel
  // ---------------------------------------------------------------------------

  /** A Pokétwo message saying a Pokémon was caught. */
  predicate IsCapture(p: Post, poketwoId: String) {
    p.authorId == poketwoId && Contains(ToLower(p.content), CaptureKeyword)
  }

  /** A Pokétwo message that is a spawn: the spawn text, or an embed with content. */
  predicate IsSpawn(p: Post, poketwoId: String) {
    p.authorId == poketwoId && (Contains(ToLower(p.content), SpawnKeyword) || p.embedShown)
  }

  predicate Captured(posts: seq<Post>, poketwoId: String) {
    exists i :: 0 <= i < |posts| && IsCapture(posts[i], poketwoId)
  }

  /** Some spawn message was sent at `t`. */
  predicate SpawnAt(posts: seq<Post>, poketwoId: String, t: nat) {
    exists i :: 0 <= i < |posts| && IsSpawn(posts[i], poketwoId) && posts[i].createdAt == t
  }

  /** The time of the latest spawn message, 0 when there is none. */
  function LatestSpawn(posts: seq<Post>, poketwoId: String): (r: nat)
    ensures forall i :: 0 <= i < |posts| && IsSpawn(posts[i], poketwoId) ==> posts[i].createdAt <= r
    ensures r == 0 || SpawnAt(posts, poketwoId, r)
    decreases |posts|
  {
    if |posts| == 0 then 0
    else
      var front := posts[..|posts| - 1];
      var last := posts[|posts| - 1];
      var prior := LatestSpawn(front, poketwoId);
      assert forall i :: 0 <= i < |front| ==> front[i] == posts[i];
      if IsSpawn(last, poketwoId) && last.createdAt > prior then last.createdAt
      else
        assert prior == 0 || SpawnAt(posts, poketwoId, prior) by {
          if prior != 0 {
            var i :| 0 <= i < |front| && IsSpawn(front[i], poketwoId) && front[i].createdAt == prior;
          }
        }
        prior
  }

  /**
   * A name-bot message that gives the searched name and is not older than
   * the latest spawn.
   */
  predicate Qualifies(p: Post, bots: Bots, rule: TagRule, search: String, latest: nat) {
    && p.authorId in bots.nameBotIds
    && NormalizeExtracted(ExtractWith(p.content, p.authorId, rule)) == search
    && !(latest > p.createdAt)
  }

  function QualifiesFn(bots: Bots, rule: TagRule, search: String, latest: nat): Post -> bool {
    (p: Post) => Qualifies(p, bots, rule, search, latest)
  }

  /** The result for a name-bot message. */
  function HitOf(c: GuildChannel, p: Post, rule: TagRule, guildId: String): Hit {
    Hit("#" + c.name, ChannelUrl(guildId, c.id) + "/" + p.id, p.createdAt, ExtractWith(p.content, p.authorId, rule))
  }

  /**
   * The result of a channel: none when a catch is among its messages; else
   * the first qualifying name-bot message, if any.
   */
  function ChannelHit(c: GuildChannel, posts: seq<Post>, bots: Bots, rule: TagRule, search: String, guildId: String): (r: Option<Hit>)
    ensures Captured(posts, bots.poketwoId) ==> r.None?
    ensures r.Some? <==> (!Captured(posts, bots.poketwoId)
      && exists i :: 0 <= i < |posts| && Qualifies(posts[i], bots, rule, search, LatestSpawn(posts, bots.poketwoId)))
  {
    if Captured(posts, bots.poketwoId) then None
    else
      match FirstWhere(posts, QualifiesFn(bots, rule, search, LatestSpawn(posts, bots.poketwoId)), 0)
      case Some(i) => Some(HitOf(c, posts[i], rule, guildId))
      case None => None
  }

  /** The first loop: stop at a catch, otherwise track the latest spawn. */
  method Survey(posts: seq<Post>, poketwoId: String) returns (captured: bool, latest: nat)
    ensures captured <==> Captured(posts, poketwoId)
    ensures !captured ==> latest == LatestSpawn(posts, poketwoId)
  {
    captured := false;
    latest := 0;
    var i := 0;
    while i < |posts|
      invariant 0 <= i <= |posts|
      invariant !Captured(posts[..i], poketwoId)
      invariant latest == LatestSpawn(posts[..i], poketwoId)
    {
      if IsCapture(posts[i], poketwoId) {
        captured := true;
        CaptureAt(posts, poketwoId, i);
        return;
      }
      CapturedSnoc(posts, poketwoId, i);
      LatestSpawnSnoc(posts, poketwoId, i);
      if IsSpawn(posts[i], poketwoId) && posts[i].createdAt > latest {
        latest := posts[i].createdAt;
      }
      i := i + 1;
    }
    assert posts[..i] == posts;
  }

  /** One more message is a catch among them exactly when it or an earlier one is. */
  lemma CapturedSnoc(posts: seq<Post>, poketwoId: String, i: nat)
    requires i < |posts|
    ensures Captured(posts[..i + 1], poketwoId) <==> Captured(posts[..i], poketwoId) || IsCapture(posts[i], poketwoId)
  {
    var more := posts[..i + 1];
    if Captured(more, poketwoId) && !IsCapture(posts[i], poketwoId) {
      var k :| 0 <= k < |more| && IsCapture(more[k], poketwoId);
      assert k < i && posts[..i][k] == more[k];
    }
    if Captured(posts[..i], poketwoId) {
      var k :| 0 <= k < i && IsCapture(posts[..i][k], poketwoId);
      assert more[k] == posts[..i][k];
    }
    if IsCapture(posts[i], poketwoId) {
      assert more[i] == posts[i];
    }
  }

  /** A catch at position `i` is a catch among the messages. */
  lemma CaptureAt(posts: seq<Post>, poketwoId: String, i: nat)
    requires i < |posts| && IsCapture(posts[i], poketwoId)
    ensures Captured(posts, poketwoId)
  {
  }

  /** One more message moves the latest spawn only when it is a later spawn. */
  lemma LatestSpawnSnoc(posts: seq<Post>, poketwoId: String, i: nat)
    requires i < |posts|
    ensures LatestSpawn(posts[..i + 1], poketwoId)
      == if IsSpawn(posts[i], poketwoId) && posts[i].createdAt > LatestSpawn(posts[..i], poketwoId)
         then posts[i].createdAt else LatestSpawn(posts[..i], poketwoId)
  {
    assert posts[..i + 1][..i] == posts[..i];
  }

  /** The second loop: the first qualifying name-bot message, skipping older ones. */
  method FirstMatch(posts: seq<Post>, bots: Bots, rule: TagRule, search: String, latest: nat) returns (found: Option<nat>)
    ensures found.Some? ==> found.value < |posts| && Qualifies(posts[found.value], bots, rule, search, latest)
    ensures found.Some? ==> forall k :: 0 <= k < found.value ==> !Qualifies(posts[k], bots, rule, search, latest)
    ensures found.None? <==> forall k :: 0 <= k < |posts| ==> !Qualifies(posts[k], bots, rule, search, latest)
  {
    var i := 0;
    while i < |posts|
      invariant 0 <= i <= |posts|
      invariant forall k :: 0 <= k < i ==> !Qualifies(posts[k], bots, rule, search, latest)
    {
      if Qualifies(posts[i], bots, rule, search, latest) {
        return Some(i);
      }
      i := i + 1;
    }
    return None;
  }

  /** Both loops over one channel's messages. */
  method ScanChannel(c: GuildChannel, posts: seq<Post>, bots: Bots, rule: TagRule, search: String, guildId: String)
    returns (hit: Option<Hit>)
    ensures hit == ChannelHit(c, posts, bots, rule, search, guildId)
  {
    var captured, latest := Survey(posts, bots.poketwoId);
    if captured {
      return None;
    }
    var found := FirstMatch(posts, bots, rule, search, latest);
    FirstMatchIsFirst(posts, bots, rule, search, latest, found);
    match found
    case Some(i) =>
      hit := Some(HitOf(c, posts[i], rule, guildId));
    case None =>
      hit := None;
  }

  /** What `FirstMatch` finds is the first qualifying message `ChannelHit` looks for. */
  lemma FirstMatchIsFirst(posts: seq<Post>, bots: Bots, rule: TagRule, search: String, latest: nat, found: Option<nat>)
    requires found.Some? ==> found.value < |posts| && Qualifies(posts[found.value], bots, rule, search, latest)
    requires found.Some? ==> forall k :: 0 <= k < found.value ==> !Qualifies(posts[k], bots, rule, search, latest)
    requires found.None? ==> forall k :: 0 <= k < |posts| ==> !Qualifies(posts[k], bots, rule, search, latest)
    ensures found == FirstWhere(posts, QualifiesFn(bots, rule, search, latest), 0)
  {
    FirstWhereUnique(posts, QualifiesFn(bots, rule, search, latest), found);
  }

  // ---------------------------------------------------------------------------
  // All channels, the result pages and their buttons
  // ---------------------------------------------------------------------------

  /** The messages fetched from a channel; a failed fetch gives none. */
  function History(fetched: map<String, seq<Post>>, channelId: String): seq<Post> {
    if channelId in fetched then fetched[channelId] else []
  }

  function HitFn(fetched: map<String, seq<Post>>, bots: Bots, rule: TagRule, search: String, guildId: String)
    : GuildChannel -> Option<Hit>
  {
    (c: GuildChannel) => ChannelHit(c, History(fetched, c.id), bots, rule, search, guildId)
  }

  /** The results, at most one per scanned channel, in scan order. */
  function Results(scanned: seq<GuildChannel>, fetched: map<String, seq<Post>>, bots: Bots, rule: TagRule, search: String,
                   guildId: String): (r: seq<Hit>)
    ensures |r| <= |scanned|
  {
    FilterMap(scanned, HitFn(fetched, bots, rule, search, guildId))
  }

  /** The comparator `b.time - a.time`: newest first. */
  function NewestFirst(): (Hit, Hit) -> bool {
    (a: Hit, b: Hit) => a.time >= b.time
  }

  lemma NewestFirstPreorder()
    ensures TotalPreorder(NewestFirst())
  {
  }

  /** The results sorted newest first; equal times keep their scan order. */
  function NewestOrder(results: seq<Hit>): (r: seq<Hit>)
    ensures multiset(r) == multiset(results)
    ensures forall i, j :: 0 <= i < j < |r| ==> r[i].time >= r[j].time
  {
    NewestFirstPreorder();
    var r := Sort(results, NewestFirst());
    assert SortedBy(r, NewestFirst());
    r
  }

  /** Result `i` goes on page `floor(i / 5)`. */
  method PagesByIndex<T>(items: seq<T>) returns (pages: seq<seq<T>>)
    ensures pages == Chunk(items, ResultsPerPage)
  {
    pages := [];
    var i := 0;
    while i < |items|
      invariant 0 <= i <= |items|
      invariant Flatten(pages) == items[..i]
      invariant Paged(pages, i)
    {
      assert items[..i + 1] == items[..i] + [items[i]];
      if i % ResultsPerPage == 0 {
        PagedOpen(pages, i, [items[i]]);
        pages := pages + [[items[i]]];
      } else {
        PagedFill(pages, i, items[i]);
        pages := pages[..|pages| - 1] + [pages[|pages| - 1] + [items[i]]];
      }
      i := i + 1;
    }
    assert items[..i] == items;
    PagedChunk(pages, items);
  }

  /**
   * `pages` holds the first `n` results five to a page: every page but the
   * last is full and the last holds the rest.
   */
  ghost predicate Paged<T>(pages: seq<seq<T>>, n: nat) {
    && (|pages| == 0 <==> n == 0)
    && (|pages| > 0 ==>
          && FullRows(pages[..|pages| - 1], ResultsPerPage)
          && 0 < |pages[|pages| - 1]| <= ResultsPerPage
          && n == ResultsPerPage * (|pages| - 1) + |pages[|pages| - 1]|)
  }

  /** At a multiple of five the last page is full, so the next result opens a page. */
  lemma PagedOpen<T>(pages: seq<seq<T>>, n: nat, row: seq<T>)
    requires Paged(pages, n) && n % ResultsPerPage == 0 && |row| == 1
    ensures Paged(pages + [row], n + 1)
    ensures Flatten(pages + [row]) == Flatten(pages) + row
  {
    FlattenAppend(pages, row);
    var more := pages + [row];
    assert more[..|more| - 1] == pages;
    if |pages| > 0 {
      var q := |pages| - 1;
      var last := |pages[q]|;
      assert last == ResultsPerPage by {
        LastPageSize(q, last, n);
      }
      assert pages == pages[..q] + [pages[q]];
      forall k | 0 <= k < |pages|
        ensures |pages[k]| == ResultsPerPage
      {
        if k < q {
          assert pages[k] == pages[..q][k];
        }
      }
    }
  }

  /** Off a multiple of five there is a last page with room for one more. */
  lemma PagedFill<T>(pages: seq<seq<T>>, n: nat, x: T)
    requires Paged(pages, n) && n % ResultsPerPage != 0
    ensures |pages| > 0 && |pages[|pages| - 1]| < ResultsPerPage
    ensures Paged(pages[..|pages| - 1] + [pages[|pages| - 1] + [x]], n + 1)
    ensures Flatten(pages[..|pages| - 1] + [pages[|pages| - 1] + [x]]) == Flatten(pages) + [x]
  {
    var q := |pages| - 1;
    assert pages == pages[..q] + [pages[q]];
    FlattenAppend(pages[..q], pages[q]);
    FlattenAppend(pages[..q], pages[q] + [x]);
    var last := |pages[q]|;
    assert last != ResultsPerPage by {
      if last == ResultsPerPage {
        LastPageSize(q, last, n);
      }
    }
    var more := pages[..q] + [pages[q] + [x]];
    assert more[..|more| - 1] == pages[..q];
  }

  /** `5 * q + last` is a multiple of five, for a last page of one to five, exactly when that page is full. */
  lemma LastPageSize(q: nat, last: nat, n: nat)
    requires 0 < last <= ResultsPerPage && n == ResultsPerPage * q + last
    ensures n % ResultsPerPage == 0 <==> last == ResultsPerPage
  {
    assert n == ResultsPerPage * (q + 1) + (last - ResultsPerPage);
  }

  /** Pages filled five at a time are the one way to cut the results into pages. */
  lemma PagedChunk<T>(pages: seq<seq<T>>, items: seq<T>)
    requires Paged(pages, |items|) && Flatten(pages) == items
    ensures pages == Chunk(items, ResultsPerPage)
  {
    if |pages| > 0 {
      var q := |pages| - 1;
      forall k | 0 <= k < |pages|
        ensures 0 < |pages[k]| <= ResultsPerPage
        ensures k < q ==> |pages[k]| == ResultsPerPage
      {
        if k < q {
          assert pages[k] == pages[..q][k];
        }
      }
    }
    ChunkingUnique(pages, Chunk(items, ResultsPerPage), items, ResultsPerPage);
  }

  /** The state kept when the results take more than one page. */
  datatype Browse = Browse(page: nat, totalPages: nat, pages: seq<seq<Hit>>, authorId: String, query: String)

  datatype Reply =
    | ConfigError                                         // a helper or the Pokétwo id is missing
    | NoQuery                                             // nothing after the command
    | NoChannels                                          // no channel to scan
    | NotFound                                            // no result
    | Found(pages: seq<seq<Hit>>, stored: Option<Browse>) // page 0 is shown

  /**
   * `execute`: scan every channel and page the results, newest first. `rule`
   * is the tag rule of the extraction the command is given; index.js hands
   * it the one that runs `TagAfterAnyName`.
   */
  method Execute(configured: bool, args: seq<String>, authorId: String, guildId: String,
                 channels: seq<GuildChannel>, locked: LockedChannels, fetched: map<String, seq<Post>>, bots: Bots,
                 rule: TagRule)
    returns (r: Reply)
    ensures r.ConfigError? <==> !configured
    ensures r.NoQuery? <==> configured && |args| == 0
    ensures r.NoChannels? <==> configured && |args| > 0 && |ScanList(channels, locked)| == 0
    ensures r.NotFound? <==> (configured && |args| > 0 && |ScanList(channels, locked)| > 0
      && |Results(ScanList(channels, locked), fetched, bots, rule, NormalizeForComparison(Join(args, ' ')), guildId)| == 0)
    ensures r.Found? ==> (
      var results := Results(ScanList(channels, locked), fetched, bots, rule, NormalizeForComparison(Join(args, ' ')), guildId);
      && |results| > 0
      && r.pages == Chunk(NewestOrder(results), ResultsPerPage))
    ensures r.Found? ==> (r.stored.Some? <==> |r.pages| > 1)
    ensures r.Found? && r.stored.Some? ==> (
      && r.stored.value == Browse(0, |r.pages|, r.pages, authorId, Join(args, ' ')))
  {
    if !configured {
      return ConfigError;
    }
    if |args| == 0 {
      return NoQuery;
    }
    var search := NormalizeForComparison(Join(args, ' '));
    var scanned := ScanList(channels, locked);
    if |scanned| == 0 {
      return NoChannels;
    }
    var results := ScanAll(scanned, fetched, bots, rule, search, guildId);
    if |results| == 0 {
      return NotFound;
    }
    var pages := PagesByIndex(NewestOrder(results));
    var stored := if |pages| > 1 then Some(Browse(0, |pages|, pages, authorId, Join(args, ' '))) else None;
    return Found(pages, stored);
  }

  /** The loop over the scanned channels, one at a time. */
  method ScanAll(scanned: seq<GuildChannel>, fetched: map<String, seq<Post>>, bots: Bots, rule: TagRule, search: String,
                 guildId: String) returns (results: seq<Hit>)
    ensures results == Results(scanned, fetched, bots, rule, search, guildId)
  {
    results := [];
    var i := 0;
    while i < |scanned|
      invariant 0 <= i <= |scanned|
      invariant results == Results(scanned[..i], fetched, bots, rule, search, guildId)
    {
      var hit := ScanChannel(scanned[i], History(fetched, scanned[i].id), bots, rule, search, guildId);
      ResultsSnoc(scanned, i, fetched, bots, rule, search, guildId);
      if hit.Some? {
        results := results + [hit.value];
      }
      i := i + 1;
    }
    assert scanned[..i] == scanned;
  }

  /** Scanning one more channel appends its result, if any. */
  lemma {:induction false} ResultsSnoc(scanned: seq<GuildChannel>, i: nat, fetched: map<String, seq<Post>>, bots: Bots,
                                       rule: TagRule, search: String, guildId: String)
    requires i < |scanned|
    ensures var f := HitFn(fetched, bots, rule, search, guildId);
      Results(scanned[..i + 1], fetched, bots, rule, search, guildId)
        == Results(scanned[..i], fetched, bots, rule, search, guildId) + (if f(scanned[i]).Some? then [f(scanned[i]).value] else [])
  {
    FilterMapSnoc(scanned[..i], scanned[i], HitFn(fetched, bots, rule, search, guildId));
    assert scanned[..i + 1] == scanned[..i] + [scanned[i]];
  }

  /** `spawn_prev_page` and `spawn_next_page` move by one; other buttons keep the page. */
  function Target(page: nat, customId: String): int {
    if customId == "spawn_prev_page" then page - 1
    else if customId == "spawn_next_page" then page + 1
    else page
  }

  /**
   * `handlePagination`: any id containing `_close_list` closes; otherwise the
   * page is shown and saved when the target page exists.
   */
  function HandlePress(s: Browse, customId: String): (r: Reaction<Browse>)
    ensures !r.Expired? && !r.Refused?
    ensures r.Deleted? <==> Contains(customId, "_close_list")
    ensures r.Saved? ==> (
      && r.state.page as int == Target(s.page, customId) && r.state.page < s.totalPages
      && r.state.pages == s.pages && r.state.totalPages == s.totalPages && r.state.authorId == s.authorId)
    ensures r.Ignored? <==> !Contains(customId, "_close_list") && !(0 <= Target(s.page, customId) < s.totalPages)
  {
    if Contains(customId, "_close_list") then Deleted
    else
      var p := Target(s.page, customId);
      if 0 <= p < s.totalPages then Saved(s.(page := p as nat)) else Ignored
  }
}

=== FILE: text.dfy ===
/**
 * Character classes and string operations the bot relies on: JavaScript's
 * whitespace class, case mapping, `trim`, `split`/`join`, the `/\s+/g` collapse,
 * and a leftmost-first scanner that models a global regular-expression replace.
 * Strings are sequences of Unicode code points.
 */
module Text {
  import opened Wrappers

  type String = seq<char>

  // ---------------------------------------------------------------------------
  // Character classes
  // ---------------------------------------------------------------------------

  /** ECMAScript WhiteSpace and LineTerminator: the set `\s` matches and `trim` strips. */
  predicate IsSpace(c: char) {
    || c == ' ' || c == '\t' || c == '\n' || c == '\r'
    || c == '\U{000B}' || c == '\U{000C}' || c == '\U{00A0}' || c == '\U{1680}'
    || ('\U{2000}' <= c <= '\U{200A}')
    || c == '\U{2028}' || c == '\U{2029}' || c == '\U{202F}' || c == '\U{205F}'
    || c == '\U{3000}' || c == '\U{FEFF}'
  }

  /** The characters a regular-expression `.` refuses to match. */
  predicate IsLineTerminator(c: char) {
    c == '\n' || c == '\r' || c == '\U{2028}' || c == '\U{2029}'
  }

  predicate IsUpper(c: char) { 'A' <= c <= 'Z' }

  predicate IsLowerLetter(c: char) { 'a' <= c <= 'z' }

  predicate IsAsciiLetter(c: char) { IsUpper(c) || IsLowerLetter(c) }

  predicate IsDigit(c: char) { '0' <= c <= '9' }

  function ToLowerChar(c: char): (r: char)
    ensures !IsUpper(r)
    ensures IsSpace(r) <==> IsSpace(c)
    ensures r == ' ' <==> c == ' '
    ensures IsUpper(c) || r == c
    ensures IsUpper(c) ==> IsLowerLetter(r) && r as int == c as int + 32
  {
    if IsUpper(c) then (c as int + 32) as char else c
  }

  function ToUpperChar(c: char): (r: char)
    ensures !IsLowerLetter(r)
    ensures r == ' ' <==> c == ' '
    ensures IsLowerLetter(c) || r == c
  {
    if IsLowerLetter(c) then (c as int - 32) as char else c
  }

  // ---------------------------------------------------------------------------
  // Case mapping on strings
  // ---------------------------------------------------------------------------

  /** No upper-case letter anywhere in `s`. */
  predicate IsLower(s: String) {
    forall i :: 0 <= i < |s| ==> !IsUpper(s[i])
  }

  /** `toLowerCase`, restricted to the ASCII letters. */
  function ToLower(s: String): (r: String)
    ensures |r| == |s| && IsLower(r)
    ensures forall i :: 0 <= i < |s| ==> r[i] == ToLowerChar(s[i])
  {
    seq(|s|, i requires 0 <= i < |s| => ToLowerChar(s[i]))
  }

  /** Lower-casing a string with no upper-case letter changes nothing. */
  lemma ToLowerOfLower(s: String)
    requires IsLower(s)
    ensures ToLower(s) == s
  {
  }

  /** `s` starts with `p`. */
  predicate StartsWith(s: String, p: String) {
    |p| <= |s| && s[..|p|] == p
  }

  /** `s` starts with `p` when case is ignored; `p` is given in lower case. */
  predicate StartsWithIgnoringCase(s: String, p: String) {
    |p| <= |s| && ToLower(s[..|p|]) == p
  }

  /** JavaScript `s.includes(sub)`. */
  predicate Contains(s: String, sub: String)
    decreases |s|
  {
    StartsWith(s, sub) || (|s| > 0 && Contains(s[1..], sub))
  }

  /** A string shorter than `sub` does not contain it. */
  lemma {:induction false} ShortNotContains(s: String, sub: String)
    requires |s| < |sub|
    ensures !Contains(s, sub)
    decreases |s|
  {
    if |s| > 0 {
      ShortNotContains(s[1..], sub);
    }
  }

  // ---------------------------------------------------------------------------
  // Cutting at a character
  // ---------------------------------------------------------------------------

  /** The text before the first `c`, i.e. `s.split(c)[0]`. */
  function Before(s: String, c: char): (r: String)
    ensures |r| <= |s| && r == s[..|r|]
    ensures c !in r
    ensures |r| < |s| ==> s[|r|] == c
    ensures c !in s <==> r == s
    decreases |s|
  {
    if |s| == 0 then []
    else if s[0] == c then []
    else [s[0]] + Before(s[1..], c)
  }

  /** `s.split(c)`: the maximal `c`-free pieces, in order. */
  function Split(s: String, c: char): (r: seq<String>)
    ensures |r| >= 1
    ensures forall k :: 0 <= k < |r| ==> c !in r[k]
    decreases |s|
  {
    var h := Before(s, c);
    if |h| == |s| then [s] else [h] + Split(s[|h| + 1..], c)
  }

  /** `parts.join(c)`. */
  function Join(parts: seq<String>, c: char): String
    decreases |parts|
  {
    if |parts| == 0 then []
    else if |parts| == 1 then parts[0]
    else parts[0] + [c] + Join(parts[1..], c)
  }

  /** The non-empty runs of non-`' '` characters, i.e. `s.split(/ +/)` without empty ends. */
  function Words(s: String): (r: seq<String>)
    ensures forall k :: 0 <= k < |r| ==> |r[k]| > 0 && ' ' !in r[k]
    ensures |s| > 0 && s[0] != ' ' ==> |r| > 0
    decreases |s|
  {
    if |s| == 0 then []
    else if s[0] == ' ' then Words(s[1..])
    else
      var w := Before(s, ' ');
      [w] + Words(s[|w|..])
  }

  /** Lower-case pieces joined by a character that is not an upper-case letter give a lower-case string. */
  lemma {:induction false} JoinLower(parts: seq<String>, c: char)
    requires forall k :: 0 <= k < |parts| ==> IsLower(parts[k])
    requires !IsUpper(c)
    ensures IsLower(Join(parts, c))
    decreases |parts|
  {
    if |parts| > 1 {
      JoinLower(parts[1..], c);
      var t := Join(parts[1..], c);
      var j := parts[0] + [c] + t;
      assert Join(parts, c) == j;
      assert forall i :: 0 <= i < |j| ==> j[i] == (if i < |parts[0]| then parts[0][i] else if i == |parts[0]| then c else t[i - |parts[0]| - 1]);
    }
  }

  /** Words joined by single spaces split back into the same words. */
  lemma {:induction false} WordsOfJoin(ws: seq<String>)
    requires forall k :: 0 <= k < |ws| ==> |ws[k]| > 0 && ' ' !in ws[k]
    ensures Words(Join(ws, ' ')) == ws
    decreases |ws|
  {
    if |ws| == 1 {
      assert Join(ws, ' ') == ws[0];
      assert Before(ws[0], ' ') == ws[0];
      assert ws[0][|ws[0]|..] == [];
    } else if |ws| > 1 {
      var tail := ws[1..];
      assert forall k :: 0 <= k < |tail| ==> tail[k] == ws[k + 1];
      WordsOfJoin(tail);
      WordsCons(ws[0], Join(tail, ' '));
      assert ws == [ws[0]] + tail;
    }
  }

  /** A word, a space and the rest split into that word and the words of the rest. */
  lemma WordsCons(w: String, t: String)
    requires |w| > 0 && ' ' !in w
    ensures Words(w + [' '] + t) == [w] + Words(t)
  {
    var j := w + [' '] + t;
    BeforeOfPrefix(w, ' ', t);
    assert j[0] == w[0];
    assert j[|w|..] == [' '] + t;
    assert ([' '] + t)[1..] == t;
  }

  /** Splitting and joining again on the same character gives back the string. */
  lemma {:induction false} JoinSplit(s: String, c: char)
    ensures Join(Split(s, c), c) == s
    decreases |s|
  {
    var h := Before(s, c);
    if |h| < |s| {
      var rest := s[|h| + 1..];
      JoinSplit(rest, c);
      var parts := Split(s, c);
      assert parts == [h] + Split(rest, c);
      assert parts[0] == h && parts[1..] == Split(rest, c);
      assert Join(parts, c) == h + [c] + Join(Split(rest, c), c);
      assert s == h + [c] + rest;
    }
  }

  /** The first and last characters of non-empty pieces joined by `c` are those of the first and last piece. */
  lemma {:induction false} JoinEdges(ws: seq<String>, c: char)
    requires |ws| > 0 && forall k :: 0 <= k < |ws| ==> |ws[k]| > 0
    ensures var j := Join(ws, c);
      |j| > 0 && j[0] == ws[0][0] && j[|j| - 1] == ws[|ws| - 1][|ws[|ws| - 1]| - 1]
    decreases |ws|
  {
    if |ws| > 1 {
      JoinEdges(ws[1..], c);
      assert ws[1..][|ws[1..]| - 1] == ws[|ws| - 1];
    }
  }

  /** The pieces of a lower-case string are lower case. */
  lemma {:induction false} SplitKeepsLower(s: String, c: char)
    requires IsLower(s)
    ensures forall k :: 0 <= k < |Split(s, c)| ==> IsLower(Split(s, c)[k])
    decreases |s|
  {
    var h := Before(s, c);
    assert IsLower(h) by {
      assert forall i :: 0 <= i < |h| ==> h[i] == s[i];
    }
    if |h| < |s| {
      var rest := s[|h| + 1..];
      assert IsLower(rest) by {
        assert forall i :: 0 <= i < |rest| ==> rest[i] == s[|h| + 1 + i];
      }
      SplitKeepsLower(rest, c);
      var tail := Split(rest, c);
      var parts := Split(s, c);
      assert parts == [h] + tail;
      forall k | 0 <= k < |parts|
        ensures IsLower(parts[k])
      {
        if k > 0 {
          assert parts[k] == tail[k - 1];
        }
      }
    } else {
      assert Split(s, c) == [s];
    }
  }

  /** Joining pieces that do not contain `c` and splitting again gives back the pieces. */
  lemma {:induction false} SplitJoin(parts: seq<String>, c: char)
    requires |parts| >= 1
    requires forall k :: 0 <= k < |parts| ==> c !in parts[k]
    ensures Split(Join(parts, c), c) == parts
    decreases |parts|
  {
    if |parts| == 1 {
      assert Join(parts, c) == parts[0];
    } else {
      var tail := parts[1..];
      assert forall k :: 0 <= k < |tail| ==> tail[k] == parts[k + 1];
      SplitJoin(tail, c);
      SplitCons(parts[0], c, Join(tail, c));
      assert parts == [parts[0]] + tail;
    }
  }

  /** A `c`-free piece, `c` and the rest split into that piece and the pieces of the rest. */
  lemma SplitCons(h: String, c: char, t: String)
    requires c !in h
    ensures Split(h + [c] + t, c) == [h] + Split(t, c)
  {
    var j := h + [c] + t;
    BeforeOfPrefix(h, c, t);
    assert j[|h| + 1..] == t;
  }

  lemma {:induction false} BeforeOfPrefix(h: String, c: char, t: String)
    requires c !in h
    ensures Before(h + [c] + t, c) == h
    decreases |h|
  {
    if |h| > 0 {
      assert (h + [c] + t)[1..] == h[1..] + [c] + t;
      BeforeOfPrefix(h[1..], c, t);
    }
  }

  // ---------------------------------------------------------------------------
  // Whitespace: trim and collapse
  // ---------------------------------------------------------------------------

  /** Neither the first nor the last character is whitespace. */
  predicate NoEdgeSpace(s: String) {
    |s| == 0 || (!IsSpace(s[0]) && !IsSpace(s[|s| - 1]))
  }

  /** The only whitespace is the plain space, and never two in a row. */
  predicate SingleSpaced(s: String) {
    && (forall i :: 0 <= i < |s| && IsSpace(s[i]) ==> s[i] == ' ')
    && (forall i :: 0 <= i < |s| - 1 && s[i] == ' ' ==> s[i + 1] != ' ')
  }

  function TrimStart(s: String): (r: String)
    ensures |r| <= |s| && r == s[|s| - |r|..]
    ensures |r| > 0 ==> !IsSpace(r[0])
    ensures forall i :: 0 <= i < |s| - |r| ==> IsSpace(s[i])
    decreases |s|
  {
    if |s| > 0 && IsSpace(s[0]) then TrimStart(s[1..]) else s
  }

  /** The first index at or after `i` that does not hold whitespace, or `|s|`. */
  function SkipSpaces(s: String, i: nat): (j: nat)
    requires i <= |s|
    ensures i <= j <= |s|
    ensures forall k :: i <= k < j ==> IsSpace(s[k])
    ensures j < |s| ==> !IsSpace(s[j])
    decreases |s| - i
  {
    if i < |s| && IsSpace(s[i]) then SkipSpaces(s, i + 1) else i
  }

  /** The end of `s[lo..j]` once the whitespace at its back is dropped. */
  function SkipSpacesBack(s: String, lo: nat, j: nat): (k: nat)
    requires lo <= j <= |s|
    ensures lo <= k <= j
    ensures forall m :: k <= m < j ==> IsSpace(s[m])
    ensures k > lo ==> !IsSpace(s[k - 1])
    decreases j
  {
    if j > lo && IsSpace(s[j - 1]) then SkipSpacesBack(s, lo, j - 1) else j
  }

  /** Where `Trim(s)` starts inside `s`. */
  function TrimOffset(s: String): (o: nat)
    ensures o <= |s|
  {
    SkipSpaces(s, 0)
  }

  /** `s.trim()`: the longest infix with no whitespace at either end. */
  function Trim(s: String): (r: String)
    ensures NoEdgeSpace(r)
    ensures TrimOffset(s) + |r| <= |s| && r == s[TrimOffset(s)..TrimOffset(s) + |r|]
    ensures |r| == 0 <==> forall i :: 0 <= i < |s| ==> IsSpace(s[i])
    ensures NoEdgeSpace(s) ==> r == s
  {
    var a := TrimOffset(s);
    var b := SkipSpacesBack(s, a, |s|);
    assert |s| > 0 && !IsSpace(s[0]) ==> a == 0;
    assert a < b ==> !IsSpace(s[a]);
    s[a..b]
  }

  /** Trimming keeps only characters of the string. */
  lemma TrimChars(s: String)
    ensures forall ch :: ch in Trim(s) ==> ch in s
  {
    var r := Trim(s);
    var o := TrimOffset(s);
    forall ch | ch in r
      ensures ch in s
    {
      var i :| 0 <= i < |r| && r[i] == ch;
      assert s[o + i] == ch;
    }
  }

  /** An infix of a single-spaced string is single-spaced. */
  lemma SingleSpacedInfix(s: String, a: int, b: int)
    requires 0 <= a <= b <= |s|
    requires SingleSpaced(s)
    ensures SingleSpaced(s[a..b])
  {
    var t := s[a..b];
    forall i | 0 <= i < |t| - 1 && t[i] == ' '
      ensures t[i + 1] != ' '
    {
      assert t[i] == s[a + i] && t[i + 1] == s[a + i + 1];
    }
  }

  /** Drop the whitespace at the front of `s`. */
  function DropSpaces(s: String): (r: String)
    ensures |r| <= |s| && r == s[|s| - |r|..]
    ensures |r| > 0 ==> !IsSpace(r[0])
    ensures |s| > 0 && IsSpace(s[0]) ==> |r| < |s|
  {
    TrimStart(s)
  }

  /** `s.replace(/\s+/g, ' ')`: every maximal whitespace run becomes one space. */
  function Collapse(s: String): (r: String)
    ensures SingleSpaced(r)
    ensures |r| == 0 <==> |s| == 0
    ensures |s| > 0 ==> (IsSpace(r[0]) <==> IsSpace(s[0]))
    ensures |s| > 0 ==> (IsSpace(r[|r| - 1]) <==> IsSpace(s[|s| - 1]))
    ensures forall ch :: ch in r ==> ch in s || ch == ' '
    decreases |s|
  {
    if |s| == 0 then []
    else if IsSpace(s[0]) then
      var rest := DropSpaces(s);
      var t := Collapse(rest);
      ConsSpaced(' ', t);
      assert forall ch :: ch in rest ==> ch in s;
      [' '] + t
    else
      var t := Collapse(s[1..]);
      ConsSpaced(s[0], t);
      assert forall ch :: ch in s[1..] ==> ch in s;
      [s[0]] + t
  }

  /** A character put in front of a single-spaced string keeps it single-spaced, unless it is a second space. */
  lemma ConsSpaced(c: char, t: String)
    requires SingleSpaced(t)
    requires IsSpace(c) ==> c == ' ' && (|t| == 0 || !IsSpace(t[0]))
    ensures SingleSpaced([c] + t)
  {
    var r := [c] + t;
    forall i | 0 <= i < |r| - 1 && r[i] == ' '
      ensures r[i + 1] != ' '
    {
      assert r[i + 1] == t[i];
    }
  }

  /** A single-spaced string collapses to itself. */
  lemma {:induction false} CollapseOfSingleSpaced(s: String)
    requires SingleSpaced(s)
    ensures Collapse(s) == s
    decreases |s|
  {
    if |s| > 0 {
      SingleSpacedInfix(s, 1, |s|);
      if IsSpace(s[0]) {
        assert s[0] == ' ';
        if |s| > 1 {
          assert s[1] != ' ' && !IsSpace(s[1]);
        }
        assert DropSpaces(s) == s[1..];
      }
      CollapseOfSingleSpaced(s[1..]);
    }
  }

  /** Collapsing and then trimming leaves a string in the form `Collapse` and `Trim` promise. */
  function Squeeze(s: String): (r: String)
    ensures SingleSpaced(r) && NoEdgeSpace(r)
    ensures forall ch :: ch in r ==> ch in s || ch == ' '
  {
    var c := Collapse(s);
    var r := Trim(c);
    SqueezeShape(s, c, r);
    r
  }

  lemma SqueezeShape(s: String, c: String, r: String)
    requires c == Collapse(s) && r == Trim(c)
    ensures SingleSpaced(r) && NoEdgeSpace(r)
    ensures forall ch :: ch in r ==> ch in s || ch == ' '
  {
    SqueezeSpacing(c, r);
    forall ch | ch in r
      ensures ch in s || ch == ' '
    {
      assert ch in c;
    }
  }

  lemma SqueezeSpacing(c: String, r: String)
    requires SingleSpaced(c) && r == Trim(c)
    ensures SingleSpaced(r) && NoEdgeSpace(r)
  {
    SingleSpacedInfix(c, TrimOffset(c), TrimOffset(c) + |r|);
  }

  /** Squeezing a single-spaced string with no white space at its ends changes nothing. */
  lemma SqueezeTidy(s: String)
    requires SingleSpaced(s) && NoEdgeSpace(s)
    ensures Squeeze(s) == s
  {
    CollapseOfSingleSpaced(s);
  }

  /** Lower-casing keeps a string single-spaced and keeps its edges free of whitespace. */
  lemma LowerKeepsSpacing(s: String)
    ensures SingleSpaced(s) ==> SingleSpaced(ToLower(s))
    ensures NoEdgeSpace(s) ==> NoEdgeSpace(ToLower(s))
  {
  }

  // ---------------------------------------------------------------------------
  // Filtering and rewriting
  // ---------------------------------------------------------------------------

  /** Remove every character `drop` selects: a regex character class replaced by ''. */
  function RemoveChars(s: String, drop: char -> bool): (r: String)
    ensures forall ch :: ch in r ==> ch in s && !drop(ch)
    ensures (forall i :: 0 <= i < |s| ==> !drop(s[i])) ==> r == s
    decreases |s|
  {
    if |s| == 0 then []
    else
      assert forall ch :: ch in s[1..] ==> ch in s;
      (if drop(s[0]) then [] else [s[0]]) + RemoveChars(s[1..], drop)
  }

  /**
   * A global regular-expression replace, `s.replace(/re/g, rep)`, for a pattern
   * that never matches the empty string. `matchLen(t)` is the length of the
   * pattern's preferred match at the very start of `t`, or 0 when none starts
   * there; the scan takes the leftmost match, replaces it, and resumes after it.
   */
  function Rewrite(s: String, matchLen: String -> nat, rep: String): (r: String)
    ensures forall ch :: ch in r ==> ch in s || ch in rep
    decreases |s|
  {
    if |s| == 0 then []
    else if 0 < matchLen(s) <= |s| then
      assert forall ch :: ch in s[matchLen(s)..] ==> ch in s;
      rep + Rewrite(s[matchLen(s)..], matchLen, rep)
    else
      assert forall ch :: ch in s[1..] ==> ch in s;
      [s[0]] + Rewrite(s[1..], matchLen, rep)
  }

  /** A rewrite whose pattern matches nowhere in `s` leaves `s` unchanged. */
  lemma {:induction false} RewriteNoMatch(s: String, matchLen: String -> nat, rep: String)
    requires forall i :: 0 <= i < |s| ==> matchLen(s[i..]) == 0
    ensures Rewrite(s, matchLen, rep) == s
    decreases |s|
  {
    if |s| > 0 {
      assert matchLen(s[0..]) == 0;
      assert s[0..] == s;
      forall i | 0 <= i < |s| - 1
        ensures matchLen(s[1..][i..]) == 0
      {
        assert s[1..][i..] == s[i + 1..];
      }
      RewriteNoMatch(s[1..], matchLen, rep);
    }
  }

  /** A pattern that can only match text containing `c` leaves a string without `c` unchanged. */
  lemma RewriteWithout(s: String, matchLen: String -> nat, rep: String, c: char)
    requires forall t :: matchLen(t) > 0 ==> c in t
    requires c !in s
    ensures Rewrite(s, matchLen, rep) == s
  {
    forall i | 0 <= i < |s|
      ensures matchLen(s[i..]) == 0
    {
      assert forall ch :: ch in s[i..] ==> ch in s;
    }
    RewriteNoMatch(s, matchLen, rep);
  }

  /** A pattern whose matches start with `c` leaves a string without `c` unchanged. */
  lemma RewriteWithoutLead(s: String, matchLen: String -> nat, rep: String, c: char)
    requires forall t :: matchLen(t) > 0 ==> |t| > 0 && t[0] == c
    requires c !in s
    ensures Rewrite(s, matchLen, rep) == s
  {
    forall i | 0 <= i < |s|
      ensures matchLen(s[i..]) == 0
    {
      assert s[i..][0] == s[i];
    }
    RewriteNoMatch(s, matchLen, rep);
  }

  /** Text before the first position where a match can start comes through unchanged. */
  lemma {:induction false} RewriteKeepsPrefix(a: String, b: String, matchLen: String -> nat, rep: String)
    requires forall i :: 0 <= i < |a| ==> matchLen((a + b)[i..]) == 0
    ensures Rewrite(a + b, matchLen, rep) == a + Rewrite(b, matchLen, rep)
    decreases |a|
  {
    if |a| > 0 {
      assert (a + b)[0..] == a + b;
      assert (a + b)[1..] == a[1..] + b;
      forall i | 0 <= i < |a[1..]|
        ensures matchLen((a[1..] + b)[i..]) == 0
      {
        assert (a[1..] + b)[i..] == (a + b)[i + 1..];
      }
      RewriteKeepsPrefix(a[1..], b, matchLen, rep);
      assert a == [a[0]] + a[1..];
    }
  }

  /** A pattern that can only match text containing `c1` or `c2` leaves a string without either unchanged. */
  lemma RewriteWithoutEither(s: String, matchLen: String -> nat, rep: String, c1: char, c2: char)
    requires forall t :: matchLen(t) > 0 ==> c1 in t || c2 in t
    requires c1 !in s && c2 !in s
    ensures Rewrite(s, matchLen, rep) == s
  {
    forall i | 0 <= i < |s|
      ensures matchLen(s[i..]) == 0
    {
      assert forall ch :: ch in s[i..] ==> ch in s;
    }
    RewriteNoMatch(s, matchLen, rep);
  }

  /** No match inside `a` and one match covering `b`: `a` is kept and `b` replaced. */
  lemma RewritePrefixThenWhole(a: String, b: String, matchLen: String -> nat, rep: String)
    requires forall i :: 0 <= i < |a| ==> matchLen((a + b)[i..]) == 0
    requires 0 < matchLen(b) == |b|
    ensures Rewrite(a + b, matchLen, rep) == a + rep
  {
    RewriteKeepsPrefix(a, b, matchLen, rep);
    RewriteWhole(b, matchLen, rep);
  }

  /** A match covering the whole string replaces all of it. */
  lemma RewriteWhole(s: String, matchLen: String -> nat, rep: String)
    requires 0 < matchLen(s) == |s|
    ensures Rewrite(s, matchLen, rep) == rep
  {
    assert s[matchLen(s)..] == [];
  }

  /** Length of the match of a literal pattern `pat` at the start of `t`. */
  function LiteralMatch(t: String, pat: String): (n: nat)
    ensures n == 0 || (n == |pat| && StartsWith(t, pat))
  {
    if StartsWith(t, pat) then |pat| else 0
  }

  /** Number of whitespace characters at the front of `s` (what a greedy `\s*` takes). */
  function LeadingSpaces(s: String): (n: nat)
    ensures n <= |s|
    ensures forall i :: 0 <= i < n ==> IsSpace(s[i])
    ensures n < |s| ==> !IsSpace(s[n])
    decreases |s|
  {
    if |s| > 0 && IsSpace(s[0]) then 1 + LeadingSpaces(s[1..]) else 0
  }

  /** The white space in front of a non-space character is all counted. */
  lemma LeadingSpacesOf(sp: String, rest: String)
    requires forall i :: 0 <= i < |sp| ==> IsSpace(sp[i])
    requires |rest| > 0 && !IsSpace(rest[0])
    ensures LeadingSpaces(sp + rest) == |sp|
  {
    var s := sp + rest;
    assert forall i :: 0 <= i < |sp| ==> s[i] == sp[i];
    assert s[|sp|] == rest[0];
  }


  /**
   * Index of the first `close` in `t`, provided no character before it is
   * `blocked`; the lazy `.*?` and the negated classes `[^>]+`, `[^)]*` scan this way.
   */
  function FindClose(t: String, close: char, blocked: char -> bool): (r: Option<nat>)
    ensures r.Some? ==> r.value < |t| && t[r.value] == close
    ensures r.Some? ==> forall i :: 0 <= i < r.value ==> t[i] != close && !blocked(t[i])
    ensures r.None? ==> forall i :: 0 <= i < |t| && t[i] == close ==> exists k :: 0 <= k < i && blocked(t[k])
    decreases |t|
  {
    if |t| == 0 then None
    else if t[0] == close then Some(0)
    else if blocked(t[0]) then None
    else
      match FindClose(t[1..], close, blocked)
      case Some(j) => Some(j + 1)
      case None =>
        assert forall i :: 1 <= i < |t| && t[i] == close ==> t[1..][i - 1] == close;
        None
  }

  // ---------------------------------------------------------------------------
  // Decimal numerals
  // ---------------------------------------------------------------------------

  /** Every character of `s` is a decimal digit. */
  predicate AllDigits(s: String) {
    forall i :: 0 <= i < |s| ==> IsDigit(s[i])
  }

  /** The value of a string of decimal digits (what `parseInt` gives for it). */
  function DigitsValue(s: String): nat
    requires AllDigits(s)
    decreases |s|
  {
    if |s| == 0 then 0
    else DigitsValue(s[..|s| - 1]) * 10 + (s[|s| - 1] as int - '0' as int)
  }

  /** Decimal spelling of `n`, as template literals render numbers. */
  function NatToString(n: nat): (r: String)
    ensures |r| >= 1 && AllDigits(r)
    ensures DigitsValue(r) == n
    decreases n
  {
    var d := [(('0' as int) + n % 10) as char];
    if n < 10 then d
    else
      var h := NatToString(n / 10);
      assert (h + d)[..|h + d| - 1] == h;
      h + d
  }

  // ---------------------------------------------------------------------------
  // Comma-separated lists
  // ---------------------------------------------------------------------------

  /** `parts.map(p => p.trim()).filter(p => p.length > 0)`. */
  function TrimmedPieces(parts: seq<String>): (r: seq<String>)
    ensures |r| <= |parts|
    ensures forall k :: 0 <= k < |r| ==> |r[k]| > 0 && NoEdgeSpace(r[k])
    decreases |parts|
  {
    if |parts| == 0 then []
    else
      var rest := TrimmedPieces(parts[1..]);
      var t := Trim(parts[0]);
      if |t| == 0 then rest else [t] + rest
  }

  /** The pieces of lower-case parts are lower case. */
  lemma {:induction false} TrimmedPiecesLower(parts: seq<String>)
    requires forall j :: 0 <= j < |parts| ==> IsLower(parts[j])
    ensures forall k :: 0 <= k < |TrimmedPieces(parts)| ==> IsLower(TrimmedPieces(parts)[k])
    decreases |parts|
  {
    if |parts| > 0 {
      TrimmedPiecesLower(parts[1..]);
      TrimLower(parts[0]);
    }
  }

  /** Trimming keeps a string lower case. */
  lemma TrimLower(s: String)
    ensures IsLower(s) ==> IsLower(Trim(s))
  {
    var t := Trim(s);
    assert forall i :: 0 <= i < |t| ==> t[i] == s[TrimOffset(s) + i];
  }

  /** A character in none of the parts is in none of the pieces. */
  lemma {:induction false} TrimmedPiecesWithout(parts: seq<String>, c: char)
    requires forall j :: 0 <= j < |parts| ==> c !in parts[j]
    ensures forall k :: 0 <= k < |TrimmedPieces(parts)| ==> c !in TrimmedPieces(parts)[k]
    decreases |parts|
  {
    if |parts| > 0 {
      TrimmedPiecesWithout(parts[1..], c);
      assert c !in Trim(parts[0]);
    }
  }

  /** Pieces that are already trimmed and non-empty pass through unchanged. */
  lemma {:induction false} TrimmedPiecesKeep(parts: seq<String>)
    requires forall k :: 0 <= k < |parts| ==> |parts[k]| > 0 && NoEdgeSpace(parts[k])
    ensures TrimmedPieces(parts) == parts
    decreases |parts|
  {
    if |parts| > 0 {
      TrimmedPiecesKeep(parts[1..]);
      assert parts == [parts[0]] + parts[1..];
    }
  }

  // ---------------------------------------------------------------------------
  // JavaScript's default string order
  // ---------------------------------------------------------------------------

  /** `a` sorts before or with `b` under `Array.prototype.sort` without a comparator: a prefix first, else by the first differing character. */
  predicate CodeUnitLe(a: String, b: String)
    decreases |a|
  {
    |a| == 0 || (|b| > 0 && (a[0] < b[0] || (a[0] == b[0] && CodeUnitLe(a[1..], b[1..]))))
  }

  lemma {:induction false} CodeUnitTotal(a: String, b: String)
    ensures CodeUnitLe(a, b) || CodeUnitLe(b, a)
    decreases |a|
  {
    if |a| > 0 && |b| > 0 && a[0] == b[0] {
      CodeUnitTotal(a[1..], b[1..]);
    }
  }

  lemma {:induction false} CodeUnitTransitive(a: String, b: String, c: String)
    requires CodeUnitLe(a, b) && CodeUnitLe(b, c)
    ensures CodeUnitLe(a, c)
    decreases |a|
  {
    if |a| > 0 && a[0] == b[0] && b[0] == c[0] {
      CodeUnitTransitive(a[1..], b[1..], c[1..]);
    }
  }

  lemma {:induction false} CodeUnitAntisymmetric(a: String, b: String)
    requires CodeUnitLe(a, b) && CodeUnitLe(b, a)
    ensures a == b
    decreases |a|
  {
    if |a| > 0 {
      CodeUnitAntisymmetric(a[1..], b[1..]);
      assert a == [a[0]] + a[1..] && b == [b[0]] + b[1..];
    }
  }
}

=== FILE: trigger.dfy ===
/**
 * The message handler of the bot: prefix commands, the spawn-channel test,
 * and the decision to lock a channel when a name bot announces a Pokémon
 * whose lock is on, together with the per-channel cooldown, the record of
 * locked channels, and who may press the unlock button.
 */
module Trigger {
  import opened Wrappers
  import opened Text
  import opened Collections
  import opened Extraction
  import ExtractionFacts
  import opened Locks

  // ---------------------------------------------------------------------------
  // Prefix commands
  // ---------------------------------------------------------------------------

  const Prefix: char := '!'

  /** A prefix command: its lower-cased name and the remaining arguments. */
  datatype Command = Command(name: String, args: seq<String>)

  /** `t.split(/ +/)` of a trimmed string: the empty string gives one empty piece. */
  function SplitSpaces(t: String): (r: seq<String>)
    requires NoEdgeSpace(t)
    ensures |r| >= 1
    ensures forall k :: 0 <= k < |r| ==> ' ' !in r[k]
    ensures |t| > 0 ==> forall k :: 0 <= k < |r| ==> |r[k]| > 0
  {
    if |t| == 0 then [""] else Words(t)
  }

  /**
   * A message is a command exactly when it starts with `!`; the command name
   * is the first space-separated piece after the prefix, lower-cased.
   */
  function ParseCommand(content: String): (r: Option<Command>)
    ensures r.Some? <==> |content| > 0 && content[0] == Prefix
    ensures r.Some? ==> IsLower(r.value.name) && ' ' !in r.value.name
  {
    if |content| > 0 && content[0] == Prefix then
      var args := SplitSpaces(Trim(content[1..]));
      var name := ToLower(args[0]);
      assert forall i :: 0 <= i < |name| ==> name[i] != ' ' by {
        forall i | 0 <= i < |name| ensures name[i] != ' ' {
          assert args[0][i] in args[0];
        }
      }
      Some(Command(name, args[1..]))
    else None
  }

  /** `!` followed by space-separated words parses back into the lower-cased first word and the rest. */
  lemma ParseJoined(ws: seq<String>)
    requires |ws| > 0
    requires forall k :: 0 <= k < |ws| ==> |ws[k]| > 0 && forall i :: 0 <= i < |ws[k]| ==> !IsSpace(ws[k][i])
    ensures ParseCommand([Prefix] + Join(ws, ' ')) == Some(Command(ToLower(ws[0]), ws[1..]))
  {
    var j := Join(ws, ' ');
    var content := [Prefix] + j;
    assert content[1..] == j;
    JoinEdges(ws, ' ');
    assert NoEdgeSpace(j);
    assert Trim(j) == j;
    forall k | 0 <= k < |ws| ensures ' ' !in ws[k] {
      assert forall i :: 0 <= i < |ws[k]| ==> ws[k][i] != ' ';
    }
    WordsOfJoin(ws);
  }

  // ---------------------------------------------------------------------------
  // Spawn channels
  // ---------------------------------------------------------------------------

  const LastSpawnChannel: nat := 450

  /** `/^\d{1,3}$/` and `parseInt(name) <= 450`. */
  predicate IsSpawnChannel(name: String) {
    1 <= |name| <= 3 && AllDigits(name) && DigitsValue(name) <= LastSpawnChannel
  }

  lemma {:induction false} ShortNumeral(n: nat)
    requires n < 1000
    ensures |NatToString(n)| <= 3
  {
    if n >= 10 {
      if n >= 100 {
        assert |NatToString(n / 100)| == 1;
      }
      assert |NatToString(n / 10)| <= 2;
    }
  }

  /** The channel named by the decimal numeral of `n` is a spawn channel exactly when `n <= 450`. */
  lemma SpawnChannelNumbers(n: nat)
    ensures IsSpawnChannel(NatToString(n)) <==> n <= LastSpawnChannel
  {
    if n <= LastSpawnChannel {
      ShortNumeral(n);
    }
  }

  // ---------------------------------------------------------------------------
  // The lock decision
  // ---------------------------------------------------------------------------

  /** A message as the handler sees it. */
  datatype Message = Message(content: String, authorId: String, channelId: String, channelName: String)

  /** The configured bot accounts: Pokétwo and the name bots. */
  datatype Bots = Bots(poketwoId: String, nameBotIds: seq<String>)

  /** The name bot's replies that carry no Pokémon name, tested on the lower-cased text. */
  predicate IsRefusal(content: String) {
    var lower := ToLower(content);
    Contains(lower, "is not a valid pokemon name") || Contains(lower, "you are already collecting this pokemon")
  }

  /** The normalised keys of the status file, in file order. */
  function NormalizedKeys(statuses: StatusTable): (r: seq<String>)
    ensures |r| == |statuses|
    ensures forall j :: 0 <= j < |statuses| ==> r[j] == NormalizeForComparison(statuses[j].0)
  {
    seq(|statuses|, j requires 0 <= j < |statuses| => NormalizeForComparison(statuses[j].0))
  }

  /** The position of the first key, in file order, that normalises to `target`. */
  function FirstKey(statuses: StatusTable, target: String): (r: Option<nat>)
    ensures r.Some? ==> r.value < |statuses| && NormalizeForComparison(statuses[r.value].0) == target
    ensures r.Some? ==> forall j :: 0 <= j < r.value ==> NormalizeForComparison(statuses[j].0) != target
    ensures r.None? <==> forall j :: 0 <= j < |statuses| ==> NormalizeForComparison(statuses[j].0) != target
  {
    var keys := NormalizedKeys(statuses);
    FirstWhere(keys, (k: String) => k == target, 0)
  }

  const CooldownMs: int := 30000

  /** The cooldown entry of a channel. */
  function CooldownKey(channelId: String): String {
    "lock_" + channelId
  }

  /** A lock of the channel happened less than 30 seconds before `now`. */
  predicate CoolingDown(cooldowns: map<String, int>, channelId: String, now: int) {
    var key := CooldownKey(channelId);
    key in cooldowns && now < cooldowns[key] + CooldownMs
  }

  /** What the handler does with one message. */
  datatype Outcome =
    | RunCommand(command: Command)
    | NotSpawnChannel
    | FromPoketwo
    | NotNameBot
    | Refusal
    | NoName
    | NoKey
    | NotLocked(key: String)
    | OnCooldown
    | WarningShown
    | Lock(key: String, lockType: String)

  /** The conditions under which a name-bot message reaches the key lookup with `name`. */
  predicate Announces(msg: Message, bots: Bots, rule: TagRule, name: String) {
    && ParseCommand(msg.content).None?
    && IsSpawnChannel(msg.channelName)
    && msg.authorId != bots.poketwoId && msg.authorId in bots.nameBotIds
    && !IsRefusal(msg.content)
    && ExtractWith(msg.content, msg.authorId, rule) == Some(name)
  }

  /** Either the handler stops before the key lookup, or it has a name to look up. */
  datatype Gate = Stop(outcome: Outcome) | Named(name: String)

  /** The checks before the key lookup: command, channel, author, refusal, extraction. */
  function Screen(msg: Message, bots: Bots, rule: TagRule): (g: Gate)
    ensures g.Named? ==> Announces(msg, bots, rule, g.name)
    ensures forall name :: Announces(msg, bots, rule, name) ==> g == Named(name)
    ensures g.Stop? ==> !g.outcome.Lock?
    ensures g.Stop? && g.outcome.RunCommand? <==> |msg.content| > 0 && msg.content[0] == Prefix
  {
    match ParseCommand(msg.content)
    case Some(command) => Stop(RunCommand(command))
    case None =>
      if !IsSpawnChannel(msg.channelName) then Stop(NotSpawnChannel)
      else if msg.authorId == bots.poketwoId then Stop(FromPoketwo)
      else if msg.authorId !in bots.nameBotIds then Stop(NotNameBot)
      else if IsRefusal(msg.content) then Stop(Refusal)
      else
        match ExtractWith(msg.content, msg.authorId, rule)
        case None => Stop(NoName)
        case Some(name) => Named(name)
  }

  /**
   * The key lookup and the checks after it, for the normalised name
   * `target`; `cooling` is whether the channel's cooldown is running.
   */
  function Choose(statuses: StatusTable, target: String, cooling: bool, hasWarning: bool): (r: Outcome)
    ensures r.Lock? ==>
      && !cooling && !hasWarning
      && (r.key, LockStatus(true, r.lockType)) in statuses
      && NormalizeForComparison(r.key) == target
    ensures r.NoKey? <==> forall j :: 0 <= j < |statuses| ==> NormalizeForComparison(statuses[j].0) != target
    ensures r.Lock? || r.NoKey? || r.NotLocked? || r.OnCooldown? || r.WarningShown?
  {
    match FirstKey(statuses, target)
    case None => NoKey
    case Some(i) =>
      var (key, status) := statuses[i];
      if !status.isLocked then NotLocked(key)
      else if cooling then OnCooldown
      else if hasWarning then WarningShown
      else
        assert statuses[i] == (key, LockStatus(true, status.lockType));
        Lock(key, status.lockType)
  }

  /**
   * The decision for a message. `rule` is the gender-tag rule of the name
   * extraction (the program runs `TagAfterAnyName`), `statuses` the lock
   * status file as read from disk, `cooldowns` the cooldown stamps, `now` the
   * clock, and `hasWarning` whether one of the channel's last five messages
   * is a button message of this bot.
   */
  function Decide(msg: Message, bots: Bots, rule: TagRule, statuses: StatusTable, cooldowns: map<String, int>,
                  now: int, hasWarning: bool): (r: Outcome)
    ensures r.RunCommand? <==> |msg.content| > 0 && msg.content[0] == Prefix
    ensures r.Lock? ==>
      && IsSpawnChannel(msg.channelName)
      && msg.authorId != bots.poketwoId && msg.authorId in bots.nameBotIds
      && !IsRefusal(msg.content)
      && !CoolingDown(cooldowns, msg.channelId, now) && !hasWarning
      && (r.key, LockStatus(true, r.lockType)) in statuses
      && ExtractWith(msg.content, msg.authorId, rule).Some?
      && NormalizeForComparison(r.key) == NormalizeForComparison(ExtractWith(msg.content, msg.authorId, rule).value)
  {
    match Screen(msg, bots, rule)
    case Stop(outcome) => outcome
    case Named(name) =>
      Choose(statuses, NormalizeForComparison(name), CoolingDown(cooldowns, msg.channelId, now), hasWarning)
  }

  /**
   * Once a name is announced, the first key in file order whose normalised
   * form matches decides: a lock if its status is on and neither the
   * cooldown nor a warning is in the way, and no lock otherwise.
   */
  lemma FirstMatchDecides(msg: Message, bots: Bots, rule: TagRule, statuses: StatusTable, cooldowns: map<String, int>,
                          now: int, hasWarning: bool, name: String, i: nat)
    requires Announces(msg, bots, rule, name)
    requires i < |statuses| && NormalizeForComparison(statuses[i].0) == NormalizeForComparison(name)
    requires forall j :: 0 <= j < i ==> NormalizeForComparison(statuses[j].0) != NormalizeForComparison(name)
    ensures var d := Decide(msg, bots, rule, statuses, cooldowns, now, hasWarning);
      var (key, status) := statuses[i];
      && (!status.isLocked ==> d == NotLocked(key))
      && (status.isLocked && CoolingDown(cooldowns, msg.channelId, now) ==> d == OnCooldown)
      && (status.isLocked && !CoolingDown(cooldowns, msg.channelId, now) && hasWarning ==> d == WarningShown)
      && (status.isLocked && !CoolingDown(cooldowns, msg.channelId, now) && !hasWarning ==>
            d == Lock(key, status.lockType))
  {
    assert Screen(msg, bots, rule) == Named(name);
    var f := FirstKey(statuses, NormalizeForComparison(name));
    assert f.Some?;
    assert f.value == i;
  }

  /** No key normalises to the announced name: nothing is locked. */
  lemma NoMatchNoLock(msg: Message, bots: Bots, rule: TagRule, statuses: StatusTable, cooldowns: map<String, int>,
                      now: int, hasWarning: bool, name: String)
    requires Announces(msg, bots, rule, name)
    requires forall j :: 0 <= j < |statuses| ==> NormalizeForComparison(statuses[j].0) != NormalizeForComparison(name)
    ensures Decide(msg, bots, rule, statuses, cooldowns, now, hasWarning) == NoKey
  {
    assert Screen(msg, bots, rule) == Named(name);
  }

  /**
   * "Nidoran (F)" from bot 874910942490677270, in a spawn channel, against a
   * status file whose only key is `nidoran♀` with its lock on: the tag rule
   * as written finds no key, while the corrected rule locks the channel.
   */
  lemma NidoranFemaleMissed(p: String, msg: Message, bots: Bots, key: String, lockType: String,
                            statuses: StatusTable, cooldowns: map<String, int>, now: int, hasWarning: bool)
    requires ExtractionFacts.NidoranWord(p)
    requires msg.content == p + " (F)" && msg.authorId == NidoranBotId
    requires IsSpawnChannel(msg.channelName)
    requires msg.authorId != bots.poketwoId && msg.authorId in bots.nameBotIds
    requires !CoolingDown(cooldowns, msg.channelId, now) && !hasWarning
    requires key == "nidoran" + [Female] && statuses == [(key, LockStatus(true, lockType))]
    ensures Decide(msg, bots, TagAfterAnyName, statuses, cooldowns, now, hasWarning) == NoKey
    ensures Decide(msg, bots, TagAfterNidoran, statuses, cooldowns, now, hasWarning) == Lock(key, lockType)
  {
    var doubled := "nidoran nidoran" + [Female];
    NidoranAnnounced(p, msg, bots);
    FemaleForms(key, doubled);
    MissedAsWritten(msg, bots, key, doubled, statuses, cooldowns, now, hasWarning);
    FirstMatchDecides(msg, bots, TagAfterNidoran, statuses, cooldowns, now, hasWarning, key, 0);
  }

  /** A one-key table whose key compares unequal to the announced name decides nothing. */
  lemma MissedAsWritten(msg: Message, bots: Bots, key: String, name: String, statuses: StatusTable,
                        cooldowns: map<String, int>, now: int, hasWarning: bool)
    requires Announces(msg, bots, TagAfterAnyName, name)
    requires |statuses| == 1 && statuses[0].0 == key
    requires NormalizeForComparison(key) != NormalizeForComparison(name)
    ensures Decide(msg, bots, TagAfterAnyName, statuses, cooldowns, now, hasWarning) == NoKey
  {
    forall j | 0 <= j < |statuses| ensures NormalizeForComparison(statuses[j].0) != NormalizeForComparison(name) {
      assert j == 0;
    }
    NoMatchNoLock(msg, bots, TagAfterAnyName, statuses, cooldowns, now, hasWarning, name);
  }

  /** The female key is in comparison form, and the doubled name is not the same key. */
  lemma FemaleForms(key: String, doubled: String)
    requires key == "nidoran" + [Female] && doubled == "nidoran nidoran" + [Female]
    ensures NormalizeForComparison(key) == key
    ensures NormalizeForComparison(key) != NormalizeForComparison(doubled)
  {
    FemaleKeyTidy(key);
    FemaleKeyTidy(doubled);
    assert |doubled| != |key|;
  }

  /** Both spellings of the female key are already in comparison form. */
  lemma FemaleKeyTidy(w: String)
    requires w == "nidoran" + [Female] || w == "nidoran nidoran" + [Female]
    ensures NormalizeForComparison(w) == w
  {
    NormalizeTidy(w);
  }

  /** The message passes the screen, as `nidoran nidoran♀` as written and as `nidoran♀` corrected. */
  lemma NidoranAnnounced(p: String, msg: Message, bots: Bots)
    requires ExtractionFacts.NidoranWord(p)
    requires msg.content == p + " (F)" && msg.authorId == NidoranBotId
    requires IsSpawnChannel(msg.channelName)
    requires msg.authorId != bots.poketwoId && msg.authorId in bots.nameBotIds
    ensures Announces(msg, bots, TagAfterAnyName, "nidoran nidoran" + [Female])
    ensures Announces(msg, bots, TagAfterNidoran, "nidoran" + [Female])
  {
    assert msg.content[0] == p[0];
    ExtractionFacts.NidoranWordLetters(p);
    ShortNotContains(ToLower(msg.content), "is not a valid pokemon name");
    ShortNotContains(ToLower(msg.content), "you are already collecting this pokemon");
    ExtractionFacts.NidoranTagCounterexample(p);
  }

  // ---------------------------------------------------------------------------
  // Applying the decision
  // ---------------------------------------------------------------------------

  /** The handler's memory: cooldown stamps and the channels it has locked. */
  datatype Watch = Watch(cooldowns: map<String, int>, locked: LockedChannels)

  /** Lock the channel when the decision says so: stamp the cooldown and record the lock. */
  function Step(w: Watch, msg: Message, bots: Bots, rule: TagRule, statuses: StatusTable, now: int, hasWarning: bool): (r: Watch)
    ensures Decide(msg, bots, rule, statuses, w.cooldowns, now, hasWarning).Lock? ==>
      var d := Decide(msg, bots, rule, statuses, w.cooldowns, now, hasWarning);
      && r.cooldowns == w.cooldowns[CooldownKey(msg.channelId) := now]
      && Lookup(r.locked, msg.channelId) == Some(LockRecord(d.lockType, d.key))
      && forall c :: c != msg.channelId ==> Lookup(r.locked, c) == Lookup(w.locked, c)
    ensures !Decide(msg, bots, rule, statuses, w.cooldowns, now, hasWarning).Lock? ==> r == w
  {
    match Decide(msg, bots, rule, statuses, w.cooldowns, now, hasWarning)
    case Lock(key, lockType) =>
      Watch(w.cooldowns[CooldownKey(msg.channelId) := now],
            Put(w.locked, msg.channelId, LockRecord(lockType, key)))
    case _ => w
  }

  /** A channel locked at `now` is not locked again by any message in it during the next 30 seconds. */
  lemma CooldownBlocks(w: Watch, msg: Message, bots: Bots, rule: TagRule, statuses: StatusTable, now: int, hasWarning: bool,
                       later: Message, statuses2: StatusTable, now2: int, hasWarning2: bool)
    requires Decide(msg, bots, rule, statuses, w.cooldowns, now, hasWarning).Lock?
    requires later.channelId == msg.channelId
    requires now <= now2 < now + CooldownMs
    ensures !Decide(later, bots, rule, statuses2, Step(w, msg, bots, rule, statuses, now, hasWarning).cooldowns,
                    now2, hasWarning2).Lock?
  {
    var w2 := Step(w, msg, bots, rule, statuses, now, hasWarning);
    assert CoolingDown(w2.cooldowns, later.channelId, now2);
  }

  /**
   * A stamp 30 seconds old or older has no effect, so the timer that removes
   * it only keeps the map small: deciding with or without it is the same.
   */
  lemma CooldownExpires(msg: Message, bots: Bots, rule: TagRule, statuses: StatusTable, cooldowns: map<String, int>,
                        now: int, hasWarning: bool)
    requires CooldownKey(msg.channelId) in cooldowns
    requires now >= cooldowns[CooldownKey(msg.channelId)] + CooldownMs
    ensures Decide(msg, bots, rule, statuses, cooldowns, now, hasWarning)
         == Decide(msg, bots, rule, statuses, cooldowns - {CooldownKey(msg.channelId)}, now, hasWarning)
  {
    assert !CoolingDown(cooldowns, msg.channelId, now);
    assert !CoolingDown(cooldowns - {CooldownKey(msg.channelId)}, msg.channelId, now);
  }

  // ---------------------------------------------------------------------------
  // Unlocking
  // ---------------------------------------------------------------------------

  /** The custom id of the unlock button posted in a locked channel. */
  function UnlockButtonId(channelId: String): String {
    "unlock_" + channelId
  }

  /** `customId.split('_')[1]` of an unlock button; `None` for any other button. */
  function UnlockTarget(customId: String): (r: Option<String>)
    ensures r.Some? <==> StartsWith(customId, "unlock_")
    ensures r.Some? ==> '_' !in r.value
  {
    if StartsWith(customId, "unlock_") then
      var pieces := Split(customId, '_');
      assert Before(customId, '_') == customId[..6] by {
        assert customId[..7] == "unlock_";
        BeforeOfPrefix(customId[..6], '_', customId[7..]);
        assert customId == customId[..6] + ['_'] + customId[7..];
      }
      Some(pieces[1])
    else None
  }

  /** The unlock button of a channel whose id has no `_` leads back to that channel. */
  lemma UnlockTargetOfButton(channelId: String)
    requires '_' !in channelId
    ensures UnlockTarget(UnlockButtonId(channelId)) == Some(channelId)
  {
    var id := UnlockButtonId(channelId);
    assert id[..7] == "unlock_";
    assert id == "unlock" + ['_'] + channelId;
    BeforeOfPrefix("unlock", '_', channelId);
    assert id[7..] == channelId;
    assert Before(channelId, '_') == channelId;
    assert Split(channelId, '_') == [channelId];
    assert Split(id, '_') == ["unlock"] + Split(id[7..], '_');
  }

  datatype UnlockOutcome = PrivateRefused | RoleRefused | UnlockFailed | Unlocked

  /**
   * The unlock button: a private lock needs ManageChannels (`staff`);
   * otherwise the spawn role or ManageChannels will do. `unlocked` is whether
   * restoring the channel permissions succeeded.
   */
  function UnlockDecision(lockInfo: Option<LockRecord>, staff: bool, hasRole: bool, unlocked: bool): (r: UnlockOutcome)
    ensures (r.PrivateRefused? || r.RoleRefused?) <==>
      !staff && (!hasRole || (lockInfo.Some? && lockInfo.value.lockType == PrivateType))
    ensures r.Unlocked? <==> unlocked && !(r.PrivateRefused? || r.RoleRefused?)
  {
    if lockInfo.Some? && lockInfo.value.lockType == PrivateType && !staff then PrivateRefused
    else if !hasRole && !staff then RoleRefused
    else if !unlocked then UnlockFailed
    else Unlocked
  }

  /** The record of locked channels after a press of the unlock button. */
  function Unlock(locked: LockedChannels, channelId: String, staff: bool, hasRole: bool, unlocked: bool)
    : (r: LockedChannels)
    ensures UnlockDecision(Lookup(locked, channelId), staff, hasRole, unlocked).Unlocked? ==>
      Lookup(r, channelId).None?
    ensures !UnlockDecision(Lookup(locked, channelId), staff, hasRole, unlocked).Unlocked? ==> r == locked
    ensures forall c :: c != channelId ==> Lookup(r, c) == Lookup(locked, c)
  {
    if UnlockDecision(Lookup(locked, channelId), staff, hasRole, unlocked).Unlocked? then Remove(locked, channelId)
    else locked
  }

  /** Locking a channel that was not locked and then unlocking it leaves the record as it was. */
  lemma LockThenUnlock(w: Watch, msg: Message, bots: Bots, rule: TagRule, statuses: StatusTable, now: int, hasWarning: bool,
                       staff: bool, hasRole: bool)
    requires Decide(msg, bots, rule, statuses, w.cooldowns, now, hasWarning).Lock?
    requires Lookup(w.locked, msg.channelId).None?
    requires UnlockDecision(Lookup(Step(w, msg, bots, rule, statuses, now, hasWarning).locked, msg.channelId),
                            staff, hasRole, true).Unlocked?
    ensures Unlock(Step(w, msg, bots, rule, statuses, now, hasWarning).locked, msg.channelId, staff, hasRole, true)
         == w.locked
  {
    var d := Decide(msg, bots, rule, statuses, w.cooldowns, now, hasWarning);
    RemoveAfterPut(w.locked, msg.channelId, LockRecord(d.lockType, d.key));
  }
}

=== FILE: typecount.dfy ===
/**
 * `countPokemonByType`: how many channels of the lock-status file are locked
 * as public and how many as private.
 */
module TypeCount {
  import opened Wrappers
  import opened Text
  import opened Collections
  import opened Locks

  datatype Counts = Counts(public: nat, private: nat)

  const NoCounts: Counts := Counts(0, 0)

  /** A locked entry of the given type; unlocked entries and other types are never counted. */
  predicate LockedAs(status: LockStatus, lockType: String) {
    status.isLocked && status.lockType == lockType
  }

  /** The number of entries of `statuses` locked as `lockType`. */
  function CountLocked(statuses: StatusTable, lockType: String): nat
    decreases |statuses|
  {
    if |statuses| == 0 then 0
    else
      CountLocked(statuses[..|statuses| - 1], lockType)
        + (if LockedAs(statuses[|statuses| - 1].1, lockType) then 1 else 0)
  }

  /** The counts of a status file that was read and parsed. */
  function Tally(statuses: StatusTable): (r: Counts)
    ensures r.public == CountLocked(statuses, "public") && r.private == CountLocked(statuses, "private")
  {
    Counts(CountLocked(statuses, "public"), CountLocked(statuses, "private"))
  }

  /** No entry is counted twice: the two counts together are at most the number of entries. */
  lemma {:induction false} CountsBounded(statuses: StatusTable)
    ensures CountLocked(statuses, "public") + CountLocked(statuses, "private") <= |statuses|
    decreases |statuses|
  {
    if |statuses| > 0 {
      CountsBounded(statuses[..|statuses| - 1]);
    }
  }

  /** Adding an unlocked entry, or one of another type, changes no count. */
  lemma UncountedEntry(statuses: StatusTable, e: (String, LockStatus))
    requires !e.1.isLocked || (e.1.lockType != "public" && e.1.lockType != "private")
    ensures Tally(statuses + [e]) == Tally(statuses)
  {
    assert (statuses + [e])[..|statuses|] == statuses;
  }

  /** Adding a locked public entry adds one to the public count only. */
  lemma PublicEntry(statuses: StatusTable, id: String)
    ensures Tally(statuses + [(id, LockStatus(true, "public"))])
      == Counts(Tally(statuses).public + 1, Tally(statuses).private)
  {
    assert (statuses + [(id, LockStatus(true, "public"))])[..|statuses|] == statuses;
  }

  /** Adding a locked private entry adds one to the private count only. */
  lemma PrivateEntry(statuses: StatusTable, id: String)
    ensures Tally(statuses + [(id, LockStatus(true, "private"))])
      == Counts(Tally(statuses).public, Tally(statuses).private + 1)
  {
    assert (statuses + [(id, LockStatus(true, "private"))])[..|statuses|] == statuses;
  }

  /**
   * The function as written: it reads the file through `fs` and
   * `lockStatusPath`, which the file never defines, so the lookup throws and
   * the catch answers zero for both types whatever the file holds.
   */
  function CountByTypeAsWritten(file: Option<StatusTable>): Counts {
    NoCounts
  }

  /** A file with one locked public channel is reported as holding none. */
  lemma AsWrittenMissesLocks()
    ensures var file := [("1", LockStatus(true, "public"))];
      && Tally(file) == Counts(1, 0)
      && CountByTypeAsWritten(Some(file)) == NoCounts
      && CountByTypeAsWritten(Some(file)) != Tally(file)
  {
    var file := [("1", LockStatus(true, "public"))];
    assert file[..0] == [];
  }

  /**
   * The function with the file read as intended: a file that cannot be read
   * or parsed gives zero counts; otherwise one pass over its entries.
   */
  method CountByType(file: Option<StatusTable>) returns (counts: Counts)
    ensures file.None? ==> counts == NoCounts
    ensures file.Some? ==> counts == Tally(file.value)
    ensures file.Some? ==> counts.public + counts.private <= |file.value|
  {
    if file.None? {
      return NoCounts;
    }
    var statuses := file.value;
    counts := NoCounts;
    var i := 0;
    while i < |statuses|
      invariant 0 <= i <= |statuses|
      invariant counts == Tally(statuses[..i])
    {
      assert statuses[..i + 1][..i] == statuses[..i];
      var status := statuses[i].1;
      if status.isLocked {
        if status.lockType == "public" {
          counts := counts.(public := counts.public + 1);
        } else if status.lockType == "private" {
          counts := counts.(private := counts.private + 1);
        }
      }
      i := i + 1;
    }
    assert statuses[..i] == statuses;
    CountsBounded(statuses);
  }
}

=== FILE: wrappers.dfy ===
/** Optional values: the model's stand-in for JavaScript's `null`/`undefined`. */
module Wrappers {

  datatype Option<+T> = None | Some(value: T) {

    /** The wrapped value, or `default` when there is none. */
    function GetOr(default: T): T {
      match this
      case Some(v) => v
      case None => default
    }
  }
}
